=== FILE: README.md ===
# Amissa: masses, intentions and payouts, in Dafny

Amissa is a Symfony application for Catholic parishes. A parish publishes
its masses. A mass is either one-time or recurring: daily, weekly on a
weekday, or monthly on a day of the month. A generator turns recurring
masses into dated occurrences. Members of the public book a mass intention
on an upcoming occurrence and pay for it through the FedaPay gateway.
The gateway's webhook reconciles the payment status, and a command batches
each parish's paid intentions into one mobile-money payout. Three voters
decide who may see or change a diocese, a parish or a mass.

This project models that core as pure functions over an in-memory database
`Entities.Db`. The database holds sequences of dioceses, parishes, masses,
occurrences and intentions, and lookups take the first row with the wanted
id, as Doctrine's `find` does. The project proves what each operation
promises.

Conventions:
- A time is an integer number of minutes since 1970-01-01 00:00 local time.
  A day is `t / 1440`. The weekday is `(day + 4) % 7`, where 0 is Sunday.
  The day of the month comes from Hinnant's civil-from-days arithmetic
  (`Calendar`).
- Amounts are naturals in hundredths of a franc.
- A nullable entity reference is an `Option<Id>`, so PHP's
  `$a === $b` on two references is equality of options, with null equal to
  null.
- PHP's `empty()` on a string is `PhpStrings.PhpEmpty`, which covers both
  `""` and `"0"`.
- The wall clock, the current year, `random_bytes` and the gateway are
  parameters of the operations that use them.

Modules, in the order of the application's layers:
- Entities and helpers: `Wrappers`, `Tables`, `PhpStrings`, `Calendar`,
  `Entities`, `MesseEntity`, `OccurrenceEntity` and `IntentionEntity`.
- Repositories: `OccurrenceRepository` and `IntentionRepository`.
- Services: `OccurrenceGenerator` and `FedaPay`.
- Controllers and the payout command: `MesseController`,
  `PublicController`, `WebhookController` and `ProcessPayouts`.
- Authorisation: `Security`, `DioceseVoter`, `ParoisseVoter` and
  `MesseVoter`.

Points where the code behaves differently from what a reader of its names
or messages might expect; the model follows the code:
- A requester name of `"0"` is rejected as missing, because the code uses
  `empty()`.
- A monthly mass with `jourSemaine = 0` never matches: only null defaults
  to the 1st.
- `--paroisse=0` processes every parish, because `0` is falsy.
- The webhook's signature header is read but never checked (see Left out).

## Model

| member | source | states |
|---|---|---|
| `MesseEntity.IsRecurrente` | src/Entity/Messe.php:100-103 | a mass is recurring iff its kind is RECURRENTE (no `ensures`: a one-line test, used by the generator's contracts) |
| `MesseEntity.IsActive` | src/Entity/Messe.php:182-185 | a mass is active iff its status is ACTIVE (no `ensures`: a one-line test, used by the generator's contracts) |
| `MesseEntity.AddOccurrence` | src/Entity/Messe.php:193-200 | adds the occurrence's id and sets its back-reference only when it is absent; a present occurrence leaves both sides unchanged; nothing else on the mass changes |
| `MesseEntity.AddOccurrenceIdempotent` | src/Entity/Messe.php:193-200 | adding the same occurrence twice has the effect of adding it once |
| `MesseEntity.RemoveOccurrence` | src/Entity/Messe.php:202-210 | removes the id; clears the back-reference exactly when the occurrence was present and pointed at this mass |
| `MesseEntity.RemoveUndoesAdd` | src/Entity/Messe.php:193-210 | removing a freshly added occurrence restores the mass and leaves the occurrence detached |
| `MesseEntity.JourSemaineLabel` | src/Entity/Messe.php:212-229 | a label exists iff the day is 0..6; 0 is Dimanche and 6 is Samedi |
| `MesseEntity.JourSemaineLabelInjective` | src/Entity/Messe.php:212-229 | distinct weekdays get distinct labels, and every computed weekday has one |
| `OccurrenceEntity.NewOccurrence` | src/Entity/OccurrenceMesse.php:26-33 | a new occurrence is confirmed, with a counter of 0 and no intentions |
| `OccurrenceEntity.ConfirmeeXorAnnulee` | src/Entity/OccurrenceMesse.php:81-89 | exactly one of confirmed and cancelled holds |
| `OccurrenceEntity.IncrementNombreIntentions` | src/Entity/OccurrenceMesse.php:102-106 | the counter rises by exactly one and nothing else changes |
| `OccurrenceEntity.AddIntention` | src/Entity/OccurrenceMesse.php:114-122 | an absent intention is added, its back-reference set and the counter raised by one; a present one changes nothing |
| `OccurrenceEntity.AddIntentionIdempotent` | src/Entity/OccurrenceMesse.php:114-122 | adding the same intention twice has the effect of adding it once |
| `OccurrenceEntity.RemoveIntention` | src/Entity/OccurrenceMesse.php:124-133 | a present intention is removed and the counter drops by one, so a counter at or below 1 becomes 0; the back-reference is cleared only if it pointed here, and one pointing elsewhere is kept; an absent one changes nothing |
| `OccurrenceEntity.RemoveUndoesAdd` | src/Entity/OccurrenceMesse.php:114-133 | removing a freshly added intention restores the occurrence |
| `OccurrenceEntity.NotBookableWithoutConfirmationOrParish` | src/Entity/OccurrenceMesse.php:140-149 | a cancelled occurrence, or one with no reachable parish, cannot receive intentions |
| `OccurrenceEntity.CanReceiveIntentions` | src/Entity/OccurrenceMesse.php:140-149 | an occurrence takes intentions iff it is confirmed, its parish is reachable and its date is strictly after that parish's deadline (no `ensures`; its properties are the two lemmas beside it) |
| `OccurrenceEntity.DateLimiteIntention` | src/Entity/Paroisse.php:190-193 | the deadline falls the parish's notice period in days after now, at the same time of day |
| `OccurrenceEntity.BookabilityCloses` | src/Entity/OccurrenceMesse.php:140-153 | bookability is monotone in time: bookable now implies bookable earlier; an occurrence exactly at the deadline is not bookable (strict comparison) |
| `IntentionEntity.NewIntention` | src/Entity/IntentionMesse.php:49-60 | a new intention awaits payment and payout and has no reference or transaction |
| `IntentionEntity.GenerateNumeroReference` | src/Entity/IntentionMesse.php:80-85 | the reference starts with `INT-`, is upper case, and its length is 13 plus the year's digits |
| `IntentionEntity.ReferenceFormat` | src/Entity/IntentionMesse.php:80-85 | for a four-digit year the reference is `INT-<year>-` and 8 hex digits that decode to the four random bytes; 17 characters fit the 20-character column |
| `IntentionEntity.PrePersist` | src/Entity/IntentionMesse.php:69-78 | stamps the creation time; assigns a generated reference only when none is set and never overwrites one; nothing else changes |
| `IntentionEntity.GetContact` | src/Entity/IntentionMesse.php:164-167 | the telephone if set, else the email, else the empty string |
| `IntentionEntity.BeneficiaireDisplay` | src/Entity/IntentionMesse.php:180-183 | the beneficiary, or `un(e) fidèle` when there is none |
| `IntentionEntity.IsPaye` | src/Entity/IntentionMesse.php:229-232 | an intention is paid iff its payment status is PAYE (no `ensures`: a one-line test) |
| `IntentionEntity.IsPayoutTransfere` | src/Entity/IntentionMesse.php:256-259 | an intention is paid out iff its payout status is TRANSFERE (no `ensures`: a one-line test) |
| `IntentionEntity.TypeIntentionLabel` | src/Entity/IntentionMesse.php:282-299 | null gives `Intention rédigée`; unknown keys come back unchanged; `defunt` gives `Pour un défunt` |
| `IntentionEntity.KnownLabelsDistinct` | src/Entity/IntentionMesse.php:282-299 | the seven known keys have pairwise distinct labels, each different from its key |
| `OccurrenceRepository.FindByMesse` | src/Repository/OccurrenceMesseRepository.php:47-55 | exactly the mass's occurrences, as a permutation of the matching rows, in ascending date order |
| `OccurrenceRepository.FindMaxDateForMesse` | src/Repository/OccurrenceMesseRepository.php:78-88 | null iff the mass has no occurrence; otherwise a date one of them has and none exceeds |
| `OccurrenceRepository.MaxIsLastOfFindByMesse` | src/Repository/OccurrenceMesseRepository.php:47-88 | the maximum date is the date of the last row of the sorted list |
| `OccurrenceRepository.FindUpcomingByParoisse` | src/Repository/OccurrenceMesseRepository.php:25-42 | ascending, each a confirmed occurrence of the parish strictly after the parish's deadline; exactly the smaller of `limit` and the number of qualifying rows, each taken at most as often as the table holds it; no qualifying row earlier than a returned one is left out, so these are the earliest ones |
| `OccurrenceRepository.UpcomingAreBookable` | src/Repository/OccurrenceMesseRepository.php:27-37 | every occurrence the upcoming list shows can receive intentions |
| `OccurrenceRepository.FindByDateRange` | src/Repository/OccurrenceMesseRepository.php:60-76 | the occurrences with start ≤ date ≤ end, optionally of one parish, as a permutation of the matching rows in ascending order |
| `OccurrenceRepository.DateRangeNarrowing` | src/Repository/OccurrenceMesseRepository.php:60-76 | an empty range gives nothing; restricting to a parish never gives more rows |
| `OccurrenceGenerator.WeeklyOncePerWeek` | src/Service/OccurrenceGeneratorService.php:64-75 | a weekly mass matches exactly one day in every seven consecutive days, the one whose weekday is `jourSemaine` |
| `OccurrenceGenerator.OutOfRangeNeverMatches` | src/Service/OccurrenceGeneratorService.php:69-74 | weekly with a null or out-of-range weekday, or monthly with a day above 31, never matches |
| `OccurrenceGenerator.ShouldCreate` | src/Service/OccurrenceGeneratorService.php:64-75 | daily matches every day, weekly the configured weekday, monthly the configured day of the month (the 1st when unset), and no recurrence matches nothing (no `ensures`; see the two lemmas above) |
| `OccurrenceGenerator.OccurrenceTime` | src/Service/OccurrenceGeneratorService.php:77-92 | the occurrence falls on its loop day at the mass's time of day |
| `OccurrenceGenerator.WindowStart` | src/Service/OccurrenceGeneratorService.php:29-32 | one day after the latest existing occurrence; without one, midnight of the start date, or of today when there is no start date |
| `OccurrenceGenerator.WindowEnd` | src/Service/OccurrenceGeneratorService.php:34-38 | now plus the horizon, lowered to midnight of the end date when that is earlier |
| `OccurrenceGenerator.WalkMembers` | src/Service/OccurrenceGeneratorService.php:44-55 | a time is visited and kept iff it lies on a matching day between start and end at the mass's hour |
| `OccurrenceGenerator.WalkIncreasing` | src/Service/OccurrenceGeneratorService.php:44-55 | the created dates are strictly increasing |
| `OccurrenceGenerator.WalkIsMatchingDays` | src/Service/OccurrenceGeneratorService.php:44-55 | the loop creates one occurrence for each matching day from the start's day to the last visited day, in order |
| `OccurrenceGenerator.DailyCount` | src/Service/OccurrenceGeneratorService.php:70 | a daily mass matches every day, so a span of n days yields n occurrences |
| `OccurrenceGenerator.Planned` | src/Service/OccurrenceGeneratorService.php:19-55 | the planned dates are strictly increasing, each on a matching day at the mass's hour, and there are none for a mass that is not recurring and active |
| `OccurrenceGenerator.PlannedMembers` | src/Service/OccurrenceGeneratorService.php:19-55 | a date is planned iff the mass is recurring and active and the date is a matching day in the window at the mass's hour |
| `OccurrenceGenerator.Materialize` | src/Service/OccurrenceGeneratorService.php:77-92 | each planned date becomes a new confirmed occurrence of the mass with fresh ids |
| `OccurrenceGenerator.GenerateOccurrences` | src/Service/OccurrenceGeneratorService.php:19-62 | the count equals the number of planned dates; the k-th appended row is a new confirmed occurrence of the mass with id next-id plus k, dated at the k-th planned date; existing rows and other tables are unchanged; a mass that is not recurring and active yields 0 and no change |
| `OccurrenceGenerator.GenerationAppends` | src/Service/OccurrenceGeneratorService.php:44-61 | the generator appends the planned dates, materialised with consecutive fresh ids, after the existing rows |
| `OccurrenceGenerator.CreatedRowsFollowRule` | src/Service/OccurrenceGeneratorService.php:44-92 | every created row belongs to the mass, is confirmed with counter 0, has a fresh id and lies on a matching day at the mass's hour |
| `OccurrenceGenerator.CreatedDatesAreWalk` | src/Service/OccurrenceGeneratorService.php:29-55 | a date is created iff the mass is recurring and active and the date is the mass's hour on a matching day the loop visits, from the resume point to the window's end |
| `OccurrenceGenerator.CreatedPastWindowEnd` | src/Service/OccurrenceGeneratorService.php:44-47 | the loop compares the resume point's time of day with the end, so a daily 18:00 mass generated at 12:00 with no days ahead gets today's 18:00, past the end |
| `OccurrenceGenerator.GeneratedAfterExisting` | src/Service/OccurrenceGeneratorService.php:29-54 | every planned date is strictly later than every existing occurrence of the mass |
| `OccurrenceGenerator.MaxAfterGeneration` | src/Service/OccurrenceGeneratorService.php:29-54 | after a run that created something, the latest date of the mass is the last created date |
| `OccurrenceGenerator.GenerationIdempotent` | src/Service/OccurrenceGeneratorService.php:29-61 | a second run with the same clock creates nothing and changes nothing |
| `OccurrenceGenerator.NoPlanNoChange` | src/Service/OccurrenceGeneratorService.php:40-61 | an empty plan returns 0 and leaves the database unchanged |
| `OccurrenceGenerator.HourMovedEarlierResumesEarly` | src/Service/OccurrenceGeneratorService.php:29-47 | a daily mass whose hour was moved earlier than its last occurrence's hour gets one more occurrence on an immediate rerun |
| `OccurrenceGenerator.GenerateLoop` | src/Service/OccurrenceGeneratorService.php:44-61 | the imperative loop produces exactly the walked dates and counts them |
| `OccurrenceGenerator.RecurrentesActives` | src/Repository/MesseRepository.php:53-62 | exactly the masses that are recurring and active |
| `OccurrenceGenerator.GenerateForAllMesses` | src/Service/OccurrenceGeneratorService.php:94-111 | reports only masses that gained at least one occurrence, each a recurring active mass; the rows grow by the reported total and nothing else changes (which masses are reported: `GenerateForAllCovers`) |
| `OccurrenceGenerator.GenerateEachCovers` | src/Service/OccurrenceGeneratorService.php:99-108 | over masses with distinct ids, each mass is reported iff its plan before the run is non-empty, with that plan's size as its count |
| `OccurrenceGenerator.GenerationKeepsOtherPlans` | src/Service/OccurrenceGeneratorService.php:29-32 | generating one mass leaves every other mass's plan unchanged |
| `OccurrenceGenerator.GenerateForAllCovers` | src/Service/OccurrenceGeneratorService.php:94-111 | with unique keys, every recurring active mass is reported iff it had something planned, with the number of dates planned for it as its count |
| `MesseController.BuildMesse` | src/Controller/MesseController.php:61-76 | a new mass is active and kind-consistent, with the posted kind (default recurring), title (default empty), hour (default 09:00) and suggested amount (default 2000 francs); a one-time mass gets its start date (default today) and optional end; a recurring one gets a recurrence (default weekly) and a weekday (default 0) |
| `MesseController.New` | src/Controller/MesseController.php:45-103 | not-found iff there is no parish; otherwise the mass built from the form is appended with a fresh id, only the masses and occurrences tables change, existing occurrences are kept, and a one-time mass gets exactly one confirmed occurrence on its start date at its hour |
| `MesseController.NewRecurringGenerates` | src/Controller/MesseController.php:81-86 | creating a recurring mass gives exactly the generator's 30-day run on the table holding the new mass: the old occurrences followed by the planned dates in order, the k-th with the k-th fresh id |
| `MesseController.NewRecurringIsGeneration` | src/Controller/MesseController.php:78-83 | on a recurring mass the action is the insert followed by one generator run |
| `MesseController.ApplyEdit` | src/Controller/MesseController.php:122-142 | the edited mass is kind-consistent and keeps its id, parish, status and occurrences; kind, title, hour and amount come from the form with the form's defaults; a recurring mass gets the posted recurrence and weekday; for a one-time mass posted dates are applied and dates not posted are kept |
| `MesseController.Edit` | src/Controller/MesseController.php:105-154 | not-found iff the mass is not one of the user's parish's masses; otherwise only that row changes, and it becomes `ApplyEdit` of the old row with the form |
| `MesseController.EditIdempotent` | src/Controller/MesseController.php:122-142 | submitting the same form twice gives the same mass as once |
| `MesseController.Delete` | src/Controller/MesseController.php:156-180 | not-found iff the mass is not the parish's; a bad token changes nothing; otherwise the mass, its occurrences and their intentions go; every intention not attached to one of those occurrences stays |
| `MesseController.DeleteLeavesNoOrphans` | src/Controller/MesseController.php:173-177 | after a deletion no occurrence refers to the mass and no intention to its occurrences |
| `MesseController.ToggleStatus` | src/Controller/MesseController.php:182-198 | not-found iff no mass has the id; access denied iff the mass exists and the MESSE_EDIT vote on it is not a grant; otherwise only that row's status flips between active and suspended |
| `MesseController.ToggleTwiceRestores` | src/Controller/MesseController.php:187-191 | toggling twice restores the database |
| `MesseController.CancelSubject` | src/Controller/MesseController.php:200-205 | the vote's subject is the occurrence's mass, and an unsupported subject exactly when that mass row is missing |
| `MesseController.CancelOccurrence` | src/Controller/MesseController.php:200-211 | not-found iff no occurrence has the id; access denied iff it exists and the MESSE_CANCEL vote on `CancelSubject` (its mass, or an unsupported subject when the mass row is missing) is not a grant; otherwise only that occurrence becomes cancelled |
| `MesseController.CancelWithoutMesseDenied` | src/Controller/MesseController.php:200-205 | an occurrence whose mass row is missing cannot be cancelled by anyone: the only voter abstains and all-abstain denies |
| `MesseController.CancelledNotBookable` | src/Controller/MesseController.php:205 | a cancelled occurrence can no longer receive intentions |
| `MesseController.KindInvariantKept` | src/Controller/MesseController.php:128-142 | creation, edit and toggling all keep a one-time mass free of a recurrence and a recurring mass free of dates |
| `PublicController.IntentionFromForm` | src/Controller/PublicController.php:219-234 | the new intention has the trimmed name; phone and email are set iff their trimmed value is not empty; beneficiary, type and text are set iff posted and not empty, and then carry the posted value; the amount defaults to the mass's suggested amount |
| `PublicController.NewIntentionRequest` | src/Controller/PublicController.php:140-305 | unknown occurrence, then not bookable, then missing name, then missing contact; a valid request stores the form's intention after the pre-persist hook and sends the gateway that row's payment request; a taken reference is reported; a gateway failure, or a transaction id already held by a row (the unique column of src/Entity/IntentionMesse.php:54-55 makes the second flush throw), gives the payment error with the row stored without a transaction; otherwise the row carries the gateway's transaction id and the user is sent to the gateway's payment URL |
| `PublicController.Submit` | src/Controller/PublicController.php:236-285 | a taken reference is rejected; otherwise the row is stored and the gateway is sent the row's payment request; a failure or a transaction id held by another row keeps the row without a transaction; a fresh id is recorded on the row and the user goes to the payment URL |
| `PublicController.Candidate` | src/Controller/PublicController.php:219-252 | the row a valid request stores has no transaction yet and carries the generated reference |
| `WebhookController.RedirectedBookingIsFound` | src/Controller/PublicController.php:254-271 | after a redirect to the payment page, the webhook's lookup by the new transaction id lands on the row just stored |
| `PublicController.ValidationOrder` | src/Controller/PublicController.php:161-217 | on a bookable occurrence an empty name is reported before the contact, and with a name the contact is missing iff phone and email are both empty |
| `PublicController.OneContactSuffices` | src/Controller/PublicController.php:207-237 | a bookable occurrence with a name and either contact stores the intention, unless the generated reference is already taken |
| `PublicController.VerifierIntention` | src/Controller/PublicController.php:339-390 | an empty input finds nothing; a hit carries the upper-cased trimmed input as its reference; a miss means no intention has it |
| `PublicController.BookingFoundByReference` | src/Controller/PublicController.php:359-361 | a stored booking is found by its reference typed in lower case or padded with blanks |
| `PublicController.FoundWhenNormalised` | src/Controller/PublicController.php:359-361 | any input that trims and upper-cases to a unique reference finds its intention |
| `FedaPay.MapStatus` | src/Service/FedaPayService.php:197-201 | `approved` iff paid; `declined`, `canceled` or `refunded` iff failed; never refunded |
| `FedaPay.UnknownStatusIsPending` | src/Service/FedaPayService.php:200 | any other or missing status is pending |
| `FedaPay.ProcessWebhookEvent` | src/Service/FedaPayService.php:183-217 | echoes the event name; a missing entity or id gives the empty transaction id; the status is the mapped one |
| `FedaPay.NormalizePhone` | src/Service/FedaPayService.php:145-153 | only digits remain, and one leading `229` is dropped |
| `FedaPay.CountryCodeOptional` | src/Service/FedaPayService.php:145-153 | a number written with or without the country code normalises alike |
| `FedaPay.BuildCustomerData` | src/Service/FedaPayService.php:135-168 | the first name is the requester's; the email is the intention's or the fallback address; a phone is sent iff one is set, normalised for `bj` |
| `FedaPay.CustomerAlwaysHasEmail` | src/Service/FedaPayService.php:141-159 | the customer always has a non-empty email |
| `FedaPay.GatewayAmount` | src/Service/FedaPayService.php:72 | the amount sent is the amount truncated to whole francs |
| `FedaPay.PaymentRequestOf` | src/Service/FedaPayService.php:65-80 | a payment request carries the truncated amount, the customer data and the intention's reference; it is what the booking sends the gateway |
| `FedaPay.CreatePayout` | src/Service/FedaPayService.php:219-302 | no number iff the parish has no mobile-money number, with no request made; otherwise the request has the truncated amount and normalised phone, and it is created iff the gateway accepts |
| `FedaPay.SameNormalisation` | src/Service/FedaPayService.php:239-242 | the same number gives the same phone to the customer and to the payout |
| `WebhookController.HandleWebhook` | src/Controller/Api/FedaPayWebhookController.php:25-155 | falsy body, then falsy transaction id, then unknown transaction; otherwise the status is overwritten with the mapped one and the occurrence counter rises by one iff paid and the occurrence exists |
| `WebhookController.TransactionIndex` | src/Controller/Api/FedaPayWebhookController.php:83-85 | finds an intention carrying the transaction id when one exists, and none exactly when no intention carries it |
| `WebhookController.ReplayCountsTwice` | src/Controller/Api/FedaPayWebhookController.php:117-121 | replaying an approved event counts the intention twice on its occurrence |
| `WebhookController.HandleWebhookGuarded` | src/Controller/Api/FedaPayWebhookController.php:100-121 | the corrected handler: same responses and statuses, but an already paid intention does not raise the counter again |
| `WebhookController.GuardedReplayIsHarmless` | src/Controller/Api/FedaPayWebhookController.php:100-121 | with the guard, replaying an event changes nothing |
| `IntentionRepository.StartOfMonth` | src/Repository/IntentionMesseRepository.php:70 | a time at midnight, on the first day of the current month |
| `IntentionRepository.FindPendingPayoutByParoisse` | src/Repository/IntentionMesseRepository.php:40-53 | exactly the parish's intentions that are paid and await payout |
| `IntentionRepository.GetGlobalStats` | src/Repository/IntentionMesseRepository.php:58-87 | the month's count and amount never exceed the totals (the figures row by row: `GlobalStatsStep`) |
| `IntentionRepository.GlobalStatsStep` | src/Repository/IntentionMesseRepository.php:58-87 | no intentions give four zeros; storing one more leaves the figures unchanged if unpaid, else adds one and its amount to the totals, and to the month's figures exactly when created at or after the start of the month |
| `IntentionRepository.GetStatsByDiocese` | src/Repository/IntentionMesseRepository.php:92-131 | the month's count and amount never exceed the totals (the figures row by row: `DioceseStatsStep`) |
| `IntentionRepository.ParoisseStatsStep` | src/Repository/IntentionMesseRepository.php:136-165 | no intentions give four zeros; storing one more counts it exactly when it is paid and its mass belongs to the parish, in the month's figures only when created at or after the start of the month |
| `IntentionRepository.DioceseStatsStep` | src/Repository/IntentionMesseRepository.php:92-131 | no intentions give four zeros; storing one more counts it exactly when it is paid and its mass's parish is in the diocese, in the month's figures only when created at or after the start of the month |
| `IntentionRepository.GetStatsByParoisse` | src/Repository/IntentionMesseRepository.php:136-188 | the pending payout is the sum over the pending set and never exceeds the parish's paid total |
| `IntentionRepository.OnlyPaidCounted` | src/Repository/IntentionMesseRepository.php:140-150 | over no rows every figure is 0; an unpaid or out-of-scope intention changes no figure; a paid one in scope adds one and its amount to the totals, and to the month's figures exactly when created at or after the start of the month |
| `IntentionRepository.DioceseWithinGlobal` | src/Repository/IntentionMesseRepository.php:92-131 | a diocese's totals never exceed the global ones |
| `IntentionRepository.ParoisseWithinDiocese` | src/Repository/IntentionMesseRepository.php:136-165 | a parish's figures never exceed those of its diocese |
| `ProcessPayouts.Selection` | src/Command/ProcessPayoutsCommand.php:50-60 | with a non-zero parish option only that parish, possibly missing; otherwise every parish in order |
| `ProcessPayouts.SettleBatch` | src/Command/ProcessPayoutsCommand.php:94-125 | every pending intention of the parish is settled, to transferred with the reference or to failed with its reference kept; all other rows are unchanged |
| `ProcessPayouts.ProcessParoisse` | src/Command/ProcessPayoutsCommand.php:62-125 | no number, no pending row or a dry run changes nothing; otherwise one request for the batch sum, settled as a whole by the gateway's answer, and the totals grow only on success |
| `ProcessPayouts.Run` | src/Command/ProcessPayoutsCommand.php:57-126 | the loop over the selected parishes skips a missing one, changes only intentions, and never lowers the transfer count or the total |
| `ProcessPayouts.Execute` | src/Command/ProcessPayoutsCommand.php:40-137 | always exits with success and touches only intentions |
| `ProcessPayouts.DryRunExecute` | src/Command/ProcessPayoutsCommand.php:89-91 | a dry run changes nothing and reports nothing transferred |
| `ProcessPayouts.ExecuteSettlesAll` | src/Command/ProcessPayoutsCommand.php:52-125 | after a full run no parish with a number has an intention still awaiting payout, whatever the gateway answered for other parishes |
| `ProcessPayouts.ExecuteSkipsParishWithoutNumber` | src/Command/ProcessPayoutsCommand.php:62-68 | a parish without a mobile-money number has none of its intentions changed |
| `DioceseVoter.Vote` | src/Security/Voter/DioceseVoter.php:17-40 | abstains iff the attribute or subject is unsupported; a non-user is denied on every supported vote |
| `DioceseVoter.Policy` | src/Security/Voter/DioceseVoter.php:42-84 | a super user gets everything; a diocese admin views, edits and manages exactly their own diocese; only super users toggle; anyone else only views an active diocese |
| `DioceseVoter.EditIsManage` | src/Security/Voter/DioceseVoter.php:55-79 | edit and manage are decided alike, and editing implies viewing |
| `ParoisseVoter.Vote` | src/Security/Voter/ParoisseVoter.php:17-40 | abstains iff unsupported; a non-user is denied on every supported vote |
| `ParoisseVoter.EditIsManageFinances` | src/Security/Voter/ParoisseVoter.php:59-91 | edit and manage finances always give the same decision |
| `ParoisseVoter.ManageMessesExtendsEdit` | src/Security/Voter/ParoisseVoter.php:59-108 | whoever may edit may manage masses, and the only extra grant is a secretary on their own parish |
| `ParoisseVoter.AdminDioceseByDiocese` | src/Security/Voter/ParoisseVoter.php:48-101 | for a diocese admin every attribute is granted iff the dioceses are equal |
| `ParoisseVoter.Policy` | src/Security/Voter/ParoisseVoter.php:59-108 | a super user is granted everything; a parish admin with no higher role may edit, manage finances and manage masses iff it is their own parish; a secretary only is never granted edit and may manage masses iff it is their own parish; a user with no role is denied all three |
| `ParoisseVoter.ViewByOthers` | src/Security/Voter/ParoisseVoter.php:42-57 | other users view their own parish or one whose diocese exists and is active; a parish without a diocese is denied |
| `MesseVoter.Vote` | src/Security/Voter/MesseVoter.php:16-39 | abstains iff unsupported; a non-user is denied on every supported vote |
| `MesseVoter.CancelIsEdit` | src/Security/Voter/MesseVoter.php:77-80 | cancel is always decided exactly like edit |
| `MesseVoter.EditPolicy` | src/Security/Voter/MesseVoter.php:60-75 | super user always; diocese admin iff the dioceses are equal (null equal to null); parish admin or secretary iff it is their parish; anyone else never |
| `MesseVoter.EditImpliesView` | src/Security/Voter/MesseVoter.php:41-75 | whoever may edit a mass may view it |
| `MesseVoter.ViewByDioceseAdmin` | src/Security/Voter/MesseVoter.php:41-58 | a diocese admin who is not a super user may view a mass iff their diocese is the mass's diocese |
| `MesseVoter.ViewByOthers` | src/Security/Voter/MesseVoter.php:41-58 | other users view their own parish's masses, otherwise only an active mass of an active diocese |

## Left out

- `OccurrenceGenerator.GenerationIdempotent`: proved only when the time of day of the resume point is at or before the mass's hour (`ResumesAtOrBeforeHour`). If the hour was edited to an earlier time, a rerun adds one more occurrence at the horizon (`HourMovedEarlierResumesEarly`). Non-duplication (`GeneratedAfterExisting`) holds unconditionally.
- Daylight saving time and time zones: a day is always 1440 minutes.
- The wall clock, the current year and `random_bytes` are parameters; seconds are not modelled.
- The FedaPay gateway is a parameter: `createPayment`, the payout create and start calls, and `getTransaction` are not modelled. A thrown exception is the gateway's failure answer.
- `FedaPayService::verifyWebhook` (HMAC-SHA256) is a cryptographic primitive. `handleWebhook` reads the signature header but never calls it, and the model does the same.
- Amounts are naturals in hundredths. The float sum in the payout command and the decimal strings of `montantPaye` are not modelled, and PHP's `(int)` cast of a non-negative amount is a division by 100.
- `FedaPay.PaymentRequestOf` keeps the amount, the customer, the reference and the intention id of the payment request. The description text, the currency, the callback URL and the parish and diocese metadata are left out.
- Form parsing failures are not modelled: an unknown `TypeMesse`, an invalid date string or a non-numeric amount. A JSON body that decodes to a non-object is also not modelled. The form's values arrive already typed.
- A reference collision on insert is reported as `DuplicateReference` with no change; the source does not retry.
- `ProcessPayouts.Execute` does not filter parishes by active diocese, matching the source.
- `ProcessPayouts`: logging, console output and the payout summary formatting are not modelled; the report keeps the counts and requests only.
- Logging (`ActivityLoggerService`), flash messages, redirects and template rendering are left out.
- The class-level `#[IsGranted('ROLE_SECRETAIRE')]` gate on `MesseController` is not modelled: whether a role reaches ROLE_SECRETAIRE depends on the role hierarchy in the security configuration, which is not part of this model. The controller's actions are modelled for a user the gate has let through; their own checks (parish ownership, the mass voter) are modelled.
- The user entity, authentication, `UserChecker` and password hashing are not part of this model; the voters see only a role set and the user's parish and diocese.
- The CRUD screens for dioceses and parishes, the dashboard, the fixtures and the migrations are left out.
- `GenerateOccurrencesCommand` is console output over `generateForAllMesses` and is left out.
- Concurrency between webhook deliveries, generator runs and payout runs is not modelled; calls are assumed serialised.
- Primary-key uniqueness (`Entities.UniqueKeys`) is a predicate assumed only by the lemmas that need it, not an invariant of every operation.

## Findings

| source | as written | input that shows it | evidently intended | confidence | as-written member | corrected member |
|---|---|---|---|---|---|---|
| src/Controller/Api/FedaPayWebhookController.php:117-121 | every `approved` event for a known transaction increments the occurrence's intention counter, whatever the intention's previous status | the same `transaction.approved` event delivered twice for one intention whose occurrence exists: the counter rises by 2 for one paid intention | an intention already paid does not raise the counter again, so a replay is harmless | medium, not executed | `WebhookController.ReplayCountsTwice` | `WebhookController.GuardedReplayIsHarmless` |

=== FILE: calendar.dfy ===
/**
 * Date-times as whole minutes since 1970-01-01 00:00 in the server's local
 * time zone (one without daylight saving), and the two calendar fields the
 * occurrence generator reads: the weekday (PHP's `format('w')`, 0 = Sunday)
 * and the day of the month (`format('j')`).
 */
module Calendar {

  const MinutesPerDay := 1440

  /** The day number (days since 1970-01-01) containing minute `t`. */
  function DayOf(t: int): int
  {
    t / MinutesPerDay
  }

  /** Midnight at the start of day `d`. */
  function StartOfDay(d: int): int
  {
    d * MinutesPerDay
  }

  /** Minutes elapsed since midnight. */
  function TimeOfDay(t: int): (r: int)
    ensures 0 <= r < MinutesPerDay
  {
    t % MinutesPerDay
  }

  /** A date-time splits into its day and its time of day, and is rebuilt from them. */
  lemma DayTimeSplit(t: int)
    ensures t == StartOfDay(DayOf(t)) + TimeOfDay(t)
    ensures StartOfDay(DayOf(t)) <= t < StartOfDay(DayOf(t) + 1)
  {
  }

  /** The day and time of day of `StartOfDay(d) + h` are `d` and `h`. */
  lemma DayOfTimeOnDay(d: int, h: int)
    requires 0 <= h < MinutesPerDay
    ensures DayOf(StartOfDay(d) + h) == d
    ensures TimeOfDay(StartOfDay(d) + h) == h
  {
    DayTimeSplit(StartOfDay(d) + h);
  }

  /** Adding a whole day moves to the next day at the same time of day. */
  lemma NextDay(t: int)
    ensures DayOf(t + MinutesPerDay) == DayOf(t) + 1
    ensures TimeOfDay(t + MinutesPerDay) == TimeOfDay(t)
  {
    DayTimeSplit(t);
    DayOfTimeOnDay(DayOf(t) + 1, TimeOfDay(t));
  }

  /** A point at or before `t` lies on a day at or before `t`'s day. */
  lemma DayOfMonotonic(s: int, t: int)
    requires s <= t
    ensures DayOf(s) <= DayOf(t)
  {
    DayTimeSplit(s);
    DayTimeSplit(t);
  }

  /** Day `d` starts at or before `x` exactly when `d` is at most `x`'s day. */
  lemma StartOfDayAtMost(d: int, x: int)
    ensures StartOfDay(d) <= x <==> d <= DayOf(x)
  {
    DayTimeSplit(x);
  }

  /** Weekday of day `d`, 0 = Sunday .. 6 = Saturday; 1970-01-01 was a Thursday. */
  function Weekday(d: int): (w: int)
    ensures 0 <= w < 7
  {
    (d + 4) % 7
  }

  /** Weekdays advance by one each day and repeat every seven days. */
  lemma WeekdayCycle(d: int)
    ensures Weekday(d + 1) == (Weekday(d) + 1) % 7
    ensures Weekday(d + 7) == Weekday(d)
  {
  }

  datatype CivilDate = CivilDate(year: int, month: int, day: int)

  /** Proleptic Gregorian date of day number `z` (H. Hinnant's civil_from_days). */
  function CivilFromDays(z: int): (c: CivilDate)
    ensures 1 <= c.day <= 31
  {
    var shifted := z + 719468;
    var era := shifted / 146097;
    var doe := shifted - era * 146097;
    var yoe := (doe - doe / 1460 + doe / 36524 - doe / 146096) / 365;
    var y := yoe + era * 400;
    var doy := doe - (365 * yoe + yoe / 4 - yoe / 100);
    var mp := (5 * doy + 2) / 153;
    MonthStartBound(doy);
    var d := doy - (153 * mp + 2) / 5 + 1;
    var m := if mp < 10 then mp + 3 else mp - 9;
    CivilDate(if m <= 2 then y + 1 else y, m, d)
  }

  /** Within a March-based year, day `doy` lies 0..30 days after its month's first day. */
  lemma MonthStartBound(doy: int)
    ensures 0 <= doy - (153 * ((5 * doy + 2) / 153) + 2) / 5 <= 30
  {
    var mp := (5 * doy + 2) / 153;
    assert 153 * mp <= 5 * doy + 2 < 153 * mp + 153;
    var first := (153 * mp + 2) / 5;
    assert 5 * first <= 153 * mp + 2 < 5 * first + 5;
  }

  /** Day number of a proleptic Gregorian date (H. Hinnant's days_from_civil). */
  function DaysFromCivil(year: int, month: int, day: int): int
  {
    var y := if month <= 2 then year - 1 else year;
    var era := y / 400;
    var yoe := y - era * 400;
    var mp := if month > 2 then month - 3 else month + 9;
    var doy := (153 * mp + 2) / 5 + day - 1;
    var doe := yoe * 365 + yoe / 4 - yoe / 100 + doy;
    era * 146097 + doe - 719468
  }

  /** The day of the month, 1..31. */
  function DayOfMonth(d: int): (r: int)
    ensures 1 <= r <= 31
  {
    CivilFromDays(d).day
  }

  /** The epoch was a Thursday. */
  lemma EpochAnchor()
    ensures DaysFromCivil(1970, 1, 1) == 0 && Weekday(0) == 4
  {
  }

  /** 2026-03-02 is a Monday, and the next two Sundays are 2026-03-08 and 2026-03-15. */
  lemma March2026Anchors()
    ensures DaysFromCivil(2026, 3, 2) == 20514 && Weekday(20514) == 1
    ensures DaysFromCivil(2026, 3, 8) == 20520 && Weekday(20520) == 0
    ensures DaysFromCivil(2026, 3, 15) == 20527 && Weekday(20527) == 0
  {
  }

  /** Day 20520 reads back as 2026-03-08. */
  lemma CivilAnchor()
    ensures CivilFromDays(20520) == CivilDate(2026, 3, 8)
  {
    assert 739988 / 146097 == 5;
    assert 739988 - 5 * 146097 == 9503;
    assert 9503 / 1460 == 6 && 9503 / 36524 == 0 && 9503 / 146096 == 0;
    assert 9497 / 365 == 26;
    assert 9503 - (365 * 26 + 26 / 4 - 26 / 100) == 7;
    assert (5 * 7 + 2) / 153 == 0;
    assert 7 - (153 * 0 + 2) / 5 + 1 == 8;
  }
}

=== FILE: diocese_voter.dfy ===
/** Who may view, edit, manage and switch the status of a diocese. */
module DioceseVoter {
  import opened Wrappers
  import opened Entities
  import opened Security

  const View := "DIOCESE_VIEW"
  const Edit := "DIOCESE_EDIT"
  const Manage := "DIOCESE_MANAGE"
  const ToggleStatus := "DIOCESE_TOGGLE_STATUS"

  predicate Supports(attribute: string, subject: Subject)
  {
    attribute in {View, Edit, Manage, ToggleStatus} && subject.DioceseSubject?
  }

  predicate CanView(d: Diocese, u: User)
  {
    if IsSuperUser(u) then true
    else if IsAdminDiocese(u) then u.diocese == Some(d.id)
    else IsActif(d)
  }

  predicate CanEdit(d: Diocese, u: User)
  {
    if IsSuperUser(u) then true
    else if IsAdminDiocese(u) then u.diocese == Some(d.id)
    else false
  }

  predicate CanManage(d: Diocese, u: User)
  {
    if IsSuperUser(u) then true
    else if IsAdminDiocese(u) then u.diocese == Some(d.id)
    else false
  }

  predicate CanToggleStatus(u: User)
  {
    IsSuperUser(u)
  }

  /** `voteOnAttribute` for a supported attribute and subject. */
  predicate VoteOnAttribute(attribute: string, d: Diocese, token: Token)
  {
    token.AppUser? &&
      if attribute == View then CanView(d, token.user)
      else if attribute == Edit then CanEdit(d, token.user)
      else if attribute == Manage then CanManage(d, token.user)
      else if attribute == ToggleStatus then CanToggleStatus(token.user)
      else false
  }

  function Vote(token: Token, attribute: string, subject: Subject): (r: Decision)
    ensures r == Abstain <==> !Supports(attribute, subject)
    ensures token.NotAUser? ==> (r == Denied <==> Supports(attribute, subject))
  {
    Decide(Supports(attribute, subject), subject.DioceseSubject? && VoteOnAttribute(attribute, subject.diocese, token))
  }

  /**
   * The policy as a table: a super user may do everything; a diocese admin
   * may view, edit and manage exactly their own diocese and never toggle;
   * anyone else may only view, and only an active diocese.
   */
  lemma Policy(u: User, d: Diocese, attribute: string)
    requires attribute in {View, Edit, Manage, ToggleStatus}
    ensures IsSuperUser(u) ==> Vote(AppUser(u), attribute, DioceseSubject(d)) == Granted
    ensures !IsSuperUser(u) && IsAdminDiocese(u) && attribute != ToggleStatus ==>
      (Vote(AppUser(u), attribute, DioceseSubject(d)) == Granted <==> u.diocese == Some(d.id))
    ensures !IsSuperUser(u) ==> Vote(AppUser(u), ToggleStatus, DioceseSubject(d)) == Denied
    ensures !IsSuperUser(u) && !IsAdminDiocese(u) ==>
      (Vote(AppUser(u), attribute, DioceseSubject(d)) == Granted <==> attribute == View && IsActif(d))
  {
  }

  /** Editing and managing a diocese are always decided alike, and either implies viewing it. */
  lemma EditIsManage(token: Token, d: Diocese)
    ensures Vote(token, Edit, DioceseSubject(d)) == Vote(token, Manage, DioceseSubject(d))
    ensures Vote(token, Edit, DioceseSubject(d)) == Granted ==> Vote(token, View, DioceseSubject(d)) == Granted
  {
  }
}

=== FILE: entities.dfy ===
/**
 * The persisted entities of the mass-intention core (dioceses, parishes,
 * masses, occurrences, intentions), their status enumerations, and the
 * database as one table per entity. An object reference (`?Messe`,
 * `?Paroisse`, ...) is the referenced row's id, or `None` for null, so PHP's
 * `===` between two references is equality of `Option<Id>`.
 */
module Entities {
  import opened Wrappers
  import opened Tables

  type Id = nat

  /** An amount in hundredths of a franc CFA: a `DECIMAL(10, 2)` column without its point. */
  type Amount = nat

  /** A time of day in minutes after midnight: the mass's `heure` column. */
  type MinuteOfDay = m: int | 0 <= m < 1440

  datatype TypeMesse = Recurrente | Ponctuelle
  datatype RecurrenceMesse = Quotidienne | Hebdomadaire | Mensuelle
  datatype StatutMesse = Active | Suspendue
  datatype StatutOccurrence = Confirmee | Annulee
  datatype StatutPaiement = EnAttente | Paye | Echoue | Rembourse
  datatype StatutPayout = PayoutEnAttente | Transfere | PayoutEchoue
  datatype StatutDiocese = Actif | Inactif

  datatype Diocese = Diocese(id: Id, nom: string, statut: StatutDiocese)

  datatype Paroisse = Paroisse(
    id: Id,
    diocese: Option<Id>,
    nom: string,
    numeroMobileMoney: Option<string>,
    delaiMinimumJours: int)

  /**
   * A mass definition. `kind` is the source's `type`; `dateDebut` and
   * `dateFin` are `DATE` columns, held as day numbers; `occurrences` is the
   * in-memory collection of its occurrences' ids.
   */
  datatype Messe = Messe(
    id: Id,
    paroisse: Option<Id>,
    titre: string,
    kind: TypeMesse,
    recurrence: Option<RecurrenceMesse>,
    heure: MinuteOfDay,
    jourSemaine: Option<int>,
    dateDebut: Option<int>,
    dateFin: Option<int>,
    montantSuggere: Amount,
    statut: StatutMesse,
    occurrences: set<Id>)

  /** One dated instance of a mass; `dateHeure` is in minutes since the epoch. */
  datatype Occurrence = Occurrence(
    id: Id,
    messe: Option<Id>,
    dateHeure: int,
    statut: StatutOccurrence,
    nombreIntentions: int,
    intentions: set<Id>)

  /** A booked intention and its payment and payout state. */
  datatype Intention = Intention(
    id: Id,
    occurrence: Option<Id>,
    numeroReference: Option<string>,
    nomDemandeur: string,
    telephone: Option<string>,
    email: Option<string>,
    beneficiaire: Option<string>,
    typeIntention: Option<string>,
    texteIntention: Option<string>,
    montantPaye: Amount,
    statutPaiement: StatutPaiement,
    transactionFedapay: Option<string>,
    statutPayout: StatutPayout,
    payoutReference: Option<string>,
    createdAt: int)

  datatype Db = Db(
    dioceses: seq<Diocese>,
    paroisses: seq<Paroisse>,
    messes: seq<Messe>,
    occurrences: seq<Occurrence>,
    intentions: seq<Intention>)

  /** Primary keys: no two rows of a table share an id. */
  ghost predicate UniqueKeys(db: Db)
  {
    && (forall i, j :: 0 <= i < j < |db.paroisses| ==> db.paroisses[i].id != db.paroisses[j].id)
    && (forall i, j :: 0 <= i < j < |db.messes| ==> db.messes[i].id != db.messes[j].id)
    && (forall i, j :: 0 <= i < j < |db.occurrences| ==> db.occurrences[i].id != db.occurrences[j].id)
    && (forall i, j :: 0 <= i < j < |db.intentions| ==> db.intentions[i].id != db.intentions[j].id)
  }

  /** The row a nullable reference to a mass designates. */
  function FindMesse(db: Db, ref: Option<Id>): (r: Option<Messe>)
    ensures r.Some? ==> ref.Some? && r.value in db.messes && r.value.id == ref.value
    ensures r.None? && ref.Some? ==> forall m :: m in db.messes ==> m.id != ref.value
  {
    if ref.None? then None else FirstWhere(db.messes, (m: Messe) => m.id == ref.value)
  }

  /** The row a nullable reference to a parish designates. */
  function FindParoisse(db: Db, ref: Option<Id>): (r: Option<Paroisse>)
    ensures r.Some? ==> ref.Some? && r.value in db.paroisses && r.value.id == ref.value
    ensures r.None? && ref.Some? ==> forall p :: p in db.paroisses ==> p.id != ref.value
  {
    if ref.None? then None else FirstWhere(db.paroisses, (p: Paroisse) => p.id == ref.value)
  }

  /** The row a nullable reference to a diocese designates. */
  function FindDiocese(db: Db, ref: Option<Id>): (r: Option<Diocese>)
    ensures r.Some? ==> ref.Some? && r.value in db.dioceses && r.value.id == ref.value
  {
    if ref.None? then None else FirstWhere(db.dioceses, (d: Diocese) => d.id == ref.value)
  }

  /** Position of the occurrence with id `id` (`find($id)`). */
  function OccurrenceIndex(db: Db, id: Id): (r: Option<nat>)
    ensures r.Some? ==> r.value < |db.occurrences| && db.occurrences[r.value].id == id
    ensures r.None? ==> forall k :: 0 <= k < |db.occurrences| ==> db.occurrences[k].id != id
  {
    IndexWhere(db.occurrences, (o: Occurrence) => o.id == id)
  }

  /** `m.paroisse` after `JOIN o.messe m`: the parish column of the occurrence's mass row. */
  function ParoisseIdOfOccurrence(db: Db, o: Occurrence): Option<Id>
  {
    match FindMesse(db, o.messe)
    case None => None
    case Some(m) => m.paroisse
  }

  /** `$occurrence->getMesse()?->getParoisse()`: the parish row reached from an occurrence. */
  function ParoisseOfOccurrence(db: Db, o: Occurrence): (r: Option<Paroisse>)
    ensures r.Some? ==> r.value in db.paroisses && Some(r.value.id) == ParoisseIdOfOccurrence(db, o)
  {
    FindParoisse(db, ParoisseIdOfOccurrence(db, o))
  }

  /** `m.paroisse` after `JOIN i.occurrence o JOIN o.messe m`. */
  function ParoisseIdOfIntention(db: Db, i: Intention): Option<Id>
  {
    if i.occurrence.None? then None
    else match OccurrenceIndex(db, i.occurrence.value)
      case None => None
      case Some(k) => ParoisseIdOfOccurrence(db, db.occurrences[k])
  }

  /** `p.diocese` after a further `JOIN m.paroisse p`. */
  function DioceseIdOfIntention(db: Db, i: Intention): Option<Id>
  {
    match FindParoisse(db, ParoisseIdOfIntention(db, i))
    case None => None
    case Some(p) => p.diocese
  }

  /** Largest id in a table plus one: the next auto-increment value. */
  function NextOccurrenceId(occs: seq<Occurrence>): (r: Id)
    ensures forall o :: o in occs ==> o.id < r
  {
    if |occs| == 0 then 1
    else
      var rest := NextOccurrenceId(occs[1..]);
      assert forall o :: o in occs ==> o == occs[0] || o in occs[1..];
      if occs[0].id < rest then rest else occs[0].id + 1
  }

  /** Largest intention id plus one. */
  function NextIntentionId(intentions: seq<Intention>): (r: Id)
    ensures forall i :: i in intentions ==> i.id < r
  {
    if |intentions| == 0 then 1
    else
      var rest := NextIntentionId(intentions[1..]);
      assert forall i :: i in intentions ==> i == intentions[0] || i in intentions[1..];
      if intentions[0].id < rest then rest else intentions[0].id + 1
  }

  /** Largest mass id plus one. */
  function NextMesseId(messes: seq<Messe>): (r: Id)
    ensures forall m :: m in messes ==> m.id < r
  {
    if |messes| == 0 then 1
    else
      var rest := NextMesseId(messes[1..]);
      assert forall m :: m in messes ==> m == messes[0] || m in messes[1..];
      if messes[0].id < rest then rest else messes[0].id + 1
  }
}

=== FILE: fedapay_service.dfy ===
/**
 * The pure parts of the payment-gateway service: the webhook status mapping,
 * the customer block of a payment request, phone normalisation, integer
 * amounts, and the payout request with its no-number precondition. The
 * gateway itself is a parameter.
 */
module FedaPay {
  import opened Wrappers
  import opened Entities
  import opened PhpStrings
  import opened IntentionEntity

  /** The decoded webhook body, reduced to the keys the service reads. */
  datatype WebhookEntity = WebhookEntity(id: Option<string>, status: Option<string>)
  datatype WebhookData = WebhookData(name: Option<string>, entity: Option<WebhookEntity>)

  /** The gateway statuses that count as a failed payment. */
  predicate IsFailureStatus(s: string)
  {
    s == "declined" || s == "canceled" || s == "refunded"
  }

  /**
   * The gateway's transaction status as a payment status: approved is paid,
   * declined, canceled and refunded are failed, anything else (or nothing)
   * is pending. A refund is never produced.
   */
  function MapStatus(status: Option<string>): (r: StatutPaiement)
    ensures r == Paye <==> status == Some("approved")
    ensures r == Echoue <==> status.Some? && IsFailureStatus(status.value)
    ensures r != Rembourse
  {
    match status
    case Some("approved") => Paye
    case Some(s) => if IsFailureStatus(s) then Echoue else EnAttente
    case None => EnAttente
  }

  /** Every unrecognised status, and a missing one, leaves the payment pending. */
  lemma UnknownStatusIsPending(status: Option<string>)
    requires status != Some("approved") && !(status.Some? && IsFailureStatus(status.value))
    ensures MapStatus(status) == EnAttente
  {
  }

  datatype WebhookEvent = WebhookEvent(
    eventType: Option<string>,
    transactionId: string,
    status: Option<string>,
    statutPaiement: StatutPaiement)

  /** `processWebhookEvent`: the entity's id as a string (empty when absent) and its mapped status. */
  function ProcessWebhookEvent(data: WebhookData): (r: WebhookEvent)
    ensures r.eventType == data.name
    ensures data.entity.None? ==> r.transactionId == "" && r.status.None? && r.statutPaiement == EnAttente
    ensures data.entity.Some? ==> r.transactionId == data.entity.value.id.GetOr("") && r.status == data.entity.value.status
    ensures r.statutPaiement == MapStatus(r.status)
  {
    var e := data.entity.GetOr(WebhookEntity(None, None));
    WebhookEvent(data.name, e.id.GetOr(""), e.status, MapStatus(e.status))
  }

  /** The Benin country code a number may carry in front. */
  const CountryCode := "229"

  /** `preg_replace('/[^0-9]/', '', s)` then one leading `229` stripped. */
  function NormalizePhone(s: string): (r: string)
    ensures AllDigits(r)
    ensures var d := KeepDigits(s);
      (|d| >= 3 && d[..3] == CountryCode ==> r == d[3..]) && (!(|d| >= 3 && d[..3] == CountryCode) ==> r == d)
  {
    var d := KeepDigits(s);
    if |d| >= 3 && d[..3] == CountryCode then d[3..] else d
  }

  /**
   * Writing the country code in front (with any punctuation) does not change
   * the normalised number, as long as the local digits do not themselves
   * start with `229`.
   */
  lemma CountryCodeOptional(prefix: string, local: string)
    requires KeepDigits(prefix) == CountryCode
    requires var d := KeepDigits(local); !(|d| >= 3 && d[..3] == CountryCode)
    ensures NormalizePhone(prefix + local) == NormalizePhone(local) == KeepDigits(local)
  {
    KeepDigitsConcat(prefix, local);
    assert KeepDigits(prefix + local)[3..] == KeepDigits(local);
  }

  lemma {:induction false} KeepDigitsConcat(a: string, b: string)
    ensures KeepDigits(a + b) == KeepDigits(a) + KeepDigits(b)
  {
    if |a| == 0 {
      assert a + b == b;
    } else {
      assert (a + b)[1..] == a[1..] + b;
      KeepDigitsConcat(a[1..], b);
    }
  }

  datatype PhoneNumber = PhoneNumber(number: string, country: string)

  /** The fallback e-mail the gateway is given when the intention has none. */
  const FallbackEmail := "fidele@amissa.bj"

  datatype Customer = Customer(firstname: string, email: string, phone: Option<PhoneNumber>)

  /**
   * `buildCustomerData`: the requester's name, always an e-mail (their own
   * when set, the fallback otherwise), and a Beninese phone number when one
   * is set.
   */
  function BuildCustomerData(i: Intention): (c: Customer)
    ensures c.firstname == i.nomDemandeur
    ensures Truthy(i.email) ==> c.email == i.email.value
    ensures !Truthy(i.email) ==> c.email == FallbackEmail
    ensures c.phone.Some? <==> Truthy(i.telephone)
    ensures c.phone.Some? ==> c.phone.value == PhoneNumber(NormalizePhone(i.telephone.value), "bj")
  {
    Customer(i.nomDemandeur,
      if Truthy(i.email) then i.email.value else FallbackEmail,
      if Truthy(i.telephone) then Some(PhoneNumber(NormalizePhone(i.telephone.value), "bj")) else None)
  }

  /** The gateway always receives a non-empty e-mail. */
  lemma CustomerAlwaysHasEmail(i: Intention)
    ensures !PhpEmpty(BuildCustomerData(i).email)
  {
  }

  /**
   * `(int) $amount` on an amount held in hundredths: the whole francs,
   * truncated (amounts are never negative, so truncation is the floor).
   */
  function GatewayAmount(a: Amount): (r: nat)
    ensures r * 100 <= a < (r + 1) * 100
  {
    a / 100
  }

  /** What the service sends to create a payment. */
  datatype PaymentRequest = PaymentRequest(amount: nat, customer: Customer, reference: Option<string>, intentionId: Id)

  /** The body of the transaction request for an intention. */
  function PaymentRequestOf(i: Intention): (r: PaymentRequest)
    ensures r.amount == GatewayAmount(i.montantPaye) && r.customer == BuildCustomerData(i)
    ensures r.reference == i.numeroReference && r.intentionId == i.id
  {
    PaymentRequest(GatewayAmount(i.montantPaye), BuildCustomerData(i), i.numeroReference, i.id)
  }

  /** What the service sends to create a payout. */
  datatype PayoutRequest = PayoutRequest(amount: nat, phone: PhoneNumber, paroisseId: Id, intentionIds: seq<Id>)

  /** The gateway's answer to a payout: its id and reference, or an exception. */
  datatype PayoutAnswer = PayoutAccepted(payoutId: string, reference: Option<string>) | PayoutRejected

  datatype PayoutResult =
    | NoMobileMoneyNumber
    | PayoutCreated(request: PayoutRequest, payoutId: string, reference: Option<string>)
    | PayoutError(request: PayoutRequest)

  /**
   * `createPayout`: a parish without a (truthy) mobile-money number fails
   * before any request; otherwise one request goes out with the whole-franc
   * amount and the normalised number, and the gateway's answer is returned.
   */
  function CreatePayout(p: Paroisse, amount: Amount, intentionIds: seq<Id>, gateway: PayoutRequest -> PayoutAnswer): (r: PayoutResult)
    ensures r.NoMobileMoneyNumber? <==> !Truthy(p.numeroMobileMoney)
    ensures !r.NoMobileMoneyNumber? ==>
      r.request == PayoutRequest(GatewayAmount(amount), PhoneNumber(NormalizePhone(p.numeroMobileMoney.value), "bj"), p.id, intentionIds)
    ensures r.PayoutCreated? <==> !r.NoMobileMoneyNumber? && gateway(r.request).PayoutAccepted?
    ensures r.PayoutCreated? ==> gateway(r.request) == PayoutAccepted(r.payoutId, r.reference)
  {
    if !Truthy(p.numeroMobileMoney) then NoMobileMoneyNumber
    else
      var request := PayoutRequest(GatewayAmount(amount), PhoneNumber(NormalizePhone(p.numeroMobileMoney.value), "bj"), p.id, intentionIds);
      match gateway(request)
      case PayoutAccepted(id, ref) => PayoutCreated(request, id, ref)
      case PayoutRejected => PayoutError(request)
  }

  /** The customer phone and the payout phone are normalised the same way. */
  lemma SameNormalisation(i: Intention, p: Paroisse, amount: Amount, ids: seq<Id>, gateway: PayoutRequest -> PayoutAnswer)
    requires Truthy(i.telephone) && Truthy(p.numeroMobileMoney) && i.telephone == p.numeroMobileMoney
    ensures BuildCustomerData(i).phone == Some(CreatePayout(p, amount, ids, gateway).request.phone)
  {
  }
}

=== FILE: intention_messe.dfy ===
/** Behaviour of the IntentionMesse entity: defaults, the booking reference, display helpers. */
module IntentionEntity {
  import opened Wrappers
  import opened Entities
  import opened PhpStrings

  type Byte = b: nat | b < 256

  /** The four bytes `random_bytes(4)` returned. */
  datatype RandomBytes = RandomBytes(b0: Byte, b1: Byte, b2: Byte, b3: Byte)

  /** A new intention: payment and payout pending, no reference, no transaction. */
  function NewIntention(id: Id, occurrence: Option<Id>, nomDemandeur: string, montantPaye: Amount): (i: Intention)
    ensures i.statutPaiement == EnAttente && i.statutPayout == PayoutEnAttente
    ensures i.numeroReference.None? && i.transactionFedapay.None? && i.payoutReference.None?
    ensures i.id == id && i.occurrence == occurrence && i.nomDemandeur == nomDemandeur && i.montantPaye == montantPaye
  {
    Intention(id, occurrence, None, nomDemandeur, None, None, None, None, None, montantPaye,
              EnAttente, None, PayoutEnAttente, None, 0)
  }

  /** `generateNumeroReference`: `INT-<year>-<8 upper-case hex digits of the random bytes>`. */
  function GenerateNumeroReference(year: nat, rnd: RandomBytes): (r: string)
    ensures |r| == 13 + |NatToString(year)|
    ensures r[..4] == "INT-"
    ensures IsUpper(r)
  {
    var s := "INT-" + NatToString(year) + "-" + ByteHex(rnd.b0) + ByteHex(rnd.b1) + ByteHex(rnd.b2) + ByteHex(rnd.b3);
    assert forall i :: 0 <= i < |NatToString(year)| ==> IsDigit(NatToString(year)[i]);
    s
  }

  /**
   * For a four-digit year the reference is 17 characters, within the
   * 20-character unique column, and its last eight characters decode back
   * to the random bytes.
   */
  lemma ReferenceFormat(year: nat, rnd: RandomBytes)
    requires 1000 <= year <= 9999
    ensures var r := GenerateNumeroReference(year, rnd);
      && |r| == 17 && |r| <= 20
      && r[4..8] == NatToString(year) && r[8] == '-'
      && HexValue(r[9]) * 16 + HexValue(r[10]) == rnd.b0
      && HexValue(r[11]) * 16 + HexValue(r[12]) == rnd.b1
      && HexValue(r[13]) * 16 + HexValue(r[14]) == rnd.b2
      && HexValue(r[15]) * 16 + HexValue(r[16]) == rnd.b3
  {
    FourDigitYear(year);
    var r := GenerateNumeroReference(year, rnd);
    var y := NatToString(year);
    assert r == "INT-" + y + "-" + ByteHex(rnd.b0) + ByteHex(rnd.b1) + ByteHex(rnd.b2) + ByteHex(rnd.b3);
    assert r[9..11] == ByteHex(rnd.b0);
    assert r[11..13] == ByteHex(rnd.b1);
    assert r[13..15] == ByteHex(rnd.b2);
    assert r[15..17] == ByteHex(rnd.b3);
  }

  /**
   * The pre-persist hook: stamps the creation time and assigns a generated
   * reference only when none is set.
   */
  function PrePersist(i: Intention, now: int, year: nat, rnd: RandomBytes): (r: Intention)
    ensures r.createdAt == now
    ensures i.numeroReference.Some? ==> r.numeroReference == i.numeroReference
    ensures i.numeroReference.None? ==> r.numeroReference == Some(GenerateNumeroReference(year, rnd))
    ensures r.(createdAt := i.createdAt, numeroReference := i.numeroReference) == i
  {
    var ref := if i.numeroReference.None? then Some(GenerateNumeroReference(year, rnd)) else i.numeroReference;
    i.(createdAt := now, numeroReference := ref)
  }

  /** `getContact`: the telephone, else the email, else the empty string. */
  function GetContact(i: Intention): (r: string)
    ensures i.telephone.Some? ==> r == i.telephone.value
    ensures i.telephone.None? && i.email.Some? ==> r == i.email.value
    ensures i.telephone.None? && i.email.None? ==> r == ""
  {
    i.telephone.GetOr(i.email.GetOr(""))
  }

  const AnonymousBeneficiary := "un(e) fidèle"

  /** `getBeneficiaireDisplay`: the beneficiary, or a generic believer when null. */
  function BeneficiaireDisplay(i: Intention): (r: string)
    ensures i.beneficiaire.None? ==> r == AnonymousBeneficiary
    ensures i.beneficiaire.Some? ==> r == i.beneficiaire.value
  {
    i.beneficiaire.GetOr(AnonymousBeneficiary)
  }

  /** The seven known intention categories. */
  predicate IsKnownType(t: string)
  {
    t in {"repos_ame", "action_grace", "guerison", "particuliere", "anniversaire", "mariage", "defunt"}
  }

  /**
   * `getTypeIntentionLabel`: null reads as a written intention, a known key
   * as its French label, any other key as itself.
   */
  function TypeIntentionLabel(t: Option<string>): (r: string)
    ensures t.None? ==> r == "Intention rédigée"
    ensures t.Some? && !IsKnownType(t.value) ==> r == t.value
    ensures t == Some("defunt") ==> r == "Pour un défunt"
  {
    if t.None? then "Intention rédigée"
    else match t.value
      case "repos_ame" => "Repos de l'âme"
      case "action_grace" => "Action de grâce"
      case "guerison" => "Demande de guérison"
      case "particuliere" => "Intention particulière"
      case "anniversaire" => "Anniversaire"
      case "mariage" => "Mariage"
      case "defunt" => "Pour un défunt"
      case other => other
  }

  /** Two different known categories never share a label, nor does a known one with its key. */
  lemma KnownLabelsDistinct(a: string, b: string)
    requires IsKnownType(a) && IsKnownType(b) && a != b
    ensures TypeIntentionLabel(Some(a)) != TypeIntentionLabel(Some(b))
    ensures TypeIntentionLabel(Some(a)) != a
  {
  }

  predicate IsPaye(i: Intention)
  {
    i.statutPaiement == Paye
  }

  predicate IsPayoutTransfere(i: Intention)
  {
    i.statutPayout == Transfere
  }
}

=== FILE: intention_repository.dfy ===
/**
 * The intention queries: the batch of paid intentions awaiting payout for a
 * parish, and the dashboard figures (count and sum of paid intentions,
 * overall and since the start of the month) globally, per diocese and per
 * parish.
 */
module IntentionRepository {
  import opened Wrappers
  import opened Tables
  import opened Entities
  import opened Calendar
  import OccurrenceRepository

  /** Midnight on the first day of the month containing `now` (`first day of this month midnight`). */
  function StartOfMonth(now: int): (r: int)
    ensures r <= now && now - r < 31 * MinutesPerDay
    ensures DayOf(r) == DayOf(now) - (DayOfMonth(DayOf(now)) - 1)
    ensures TimeOfDay(r) == 0
  {
    var today := DayOf(now);
    DayTimeSplit(now);
    DayOfTimeOnDay(today - (DayOfMonth(today) - 1), 0);
    StartOfDay(today - (DayOfMonth(today) - 1))
  }

  predicate Paid(i: Intention)
  {
    i.statutPaiement == Paye
  }

  function Montant(i: Intention): nat
  {
    i.montantPaye
  }

  /** `m.paroisse = :paroisse` after joining the occurrence and its mass. */
  function OfParoisse(db: Db, p: Paroisse): Intention -> bool
  {
    (i: Intention) => ParoisseIdOfIntention(db, i) == Some(p.id)
  }

  /** `p.diocese = :diocese` after a further join on the parish. */
  function OfDiocese(db: Db, d: Diocese): Intention -> bool
  {
    (i: Intention) => DioceseIdOfIntention(db, i) == Some(d.id)
  }

  function Everywhere(): Intention -> bool
  {
    (i: Intention) => true
  }

  /** Paid and in scope. */
  function PaidIn(scope: Intention -> bool): Intention -> bool
  {
    (i: Intention) => scope(i) && Paid(i)
  }

  /** Paid, in scope, and created at or after `since`. */
  function PaidSince(scope: Intention -> bool, since: int): Intention -> bool
  {
    (i: Intention) => scope(i) && Paid(i) && i.createdAt >= since
  }

  /** Paid and not yet paid out. */
  function PendingIn(scope: Intention -> bool): Intention -> bool
  {
    (i: Intention) => scope(i) && Paid(i) && i.statutPayout == PayoutEnAttente
  }

  /**
   * `findPendingPayoutByParoisse`: exactly the parish's intentions that are
   * paid and whose payout is still pending.
   */
  function FindPendingPayoutByParoisse(db: Db, p: Paroisse): (r: seq<Intention>)
    ensures forall i :: i in r <==>
      i in db.intentions && ParoisseIdOfIntention(db, i) == Some(p.id) && i.statutPaiement == Paye && i.statutPayout == PayoutEnAttente
  {
    Filter(db.intentions, PendingIn(OfParoisse(db, p)))
  }

  datatype Stats = Stats(totalIntentions: nat, totalMontant: nat, intentionsMois: nat, montantMois: nat)

  /** The four figures over the paid intentions of one scope; the month adds only a creation-date filter. */
  function StatsOver(rows: seq<Intention>, scope: Intention -> bool, since: int): (r: Stats)
    ensures r.intentionsMois <= r.totalIntentions && r.montantMois <= r.totalMontant
    ensures r.totalIntentions <= |rows|
  {
    FilterStrongerIsSmaller(rows, PaidIn(scope), PaidSince(scope, since), Montant);
    Stats(|Filter(rows, PaidIn(scope))|, SumOf(Filter(rows, PaidIn(scope)), Montant),
          |Filter(rows, PaidSince(scope, since))|, SumOf(Filter(rows, PaidSince(scope, since)), Montant))
  }

  /** `getGlobalStats`. */
  function GetGlobalStats(db: Db, now: int): (r: Stats)
    ensures r.intentionsMois <= r.totalIntentions && r.montantMois <= r.totalMontant
  {
    StatsOver(db.intentions, Everywhere(), StartOfMonth(now))
  }

  /** `getStatsByDiocese`. */
  function GetStatsByDiocese(db: Db, d: Diocese, now: int): (r: Stats)
    ensures r.intentionsMois <= r.totalIntentions && r.montantMois <= r.totalMontant
  {
    StatsOver(db.intentions, OfDiocese(db, d), StartOfMonth(now))
  }

  datatype ParoisseStats = ParoisseStats(stats: Stats, pendingPayout: nat)

  /** `getStatsByParoisse`: the four figures, and the sum of the batch awaiting payout. */
  function GetStatsByParoisse(db: Db, p: Paroisse, now: int): (r: ParoisseStats)
    ensures r.stats.intentionsMois <= r.stats.totalIntentions && r.stats.montantMois <= r.stats.totalMontant
    ensures r.pendingPayout == SumOf(FindPendingPayoutByParoisse(db, p), Montant)
    ensures r.pendingPayout <= r.stats.totalMontant
  {
    FilterStrongerIsSmaller(db.intentions, PaidIn(OfParoisse(db, p)), PendingIn(OfParoisse(db, p)), Montant);
    ParoisseStats(StatsOver(db.intentions, OfParoisse(db, p), StartOfMonth(now)),
                  SumOf(FindPendingPayoutByParoisse(db, p), Montant))
  }

  /** Every figure of a narrower scope is bounded by the same figure of a wider one. */
  lemma NarrowerScopeSmaller(rows: seq<Intention>, wide: Intention -> bool, narrow: Intention -> bool, since: int)
    requires forall i :: narrow(i) ==> wide(i)
    ensures var n := StatsOver(rows, narrow, since);
      var w := StatsOver(rows, wide, since);
      && n.totalIntentions <= w.totalIntentions && n.totalMontant <= w.totalMontant
      && n.intentionsMois <= w.intentionsMois && n.montantMois <= w.montantMois
  {
    FilterStrongerIsSmaller(rows, PaidIn(wide), PaidIn(narrow), Montant);
    FilterStrongerIsSmaller(rows, PaidSince(wide, since), PaidSince(narrow, since), Montant);
  }

  /** A diocese's figures never exceed the global ones. */
  lemma DioceseWithinGlobal(db: Db, d: Diocese, now: int)
    ensures var n := GetStatsByDiocese(db, d, now);
      var w := GetGlobalStats(db, now);
      n.totalIntentions <= w.totalIntentions && n.totalMontant <= w.totalMontant
  {
    NarrowerScopeSmaller(db.intentions, Everywhere(), OfDiocese(db, d), StartOfMonth(now));
  }

  /** With primary keys, a parish's figures never exceed those of the diocese it belongs to. */
  lemma ParoisseWithinDiocese(db: Db, p: Paroisse, d: Diocese, now: int)
    requires UniqueKeys(db) && p in db.paroisses && p.diocese == Some(d.id)
    ensures var n := GetStatsByParoisse(db, p, now).stats;
      var w := GetStatsByDiocese(db, d, now);
      && n.totalIntentions <= w.totalIntentions && n.totalMontant <= w.totalMontant
      && n.intentionsMois <= w.intentionsMois && n.montantMois <= w.montantMois
  {
    OccurrenceRepository.FindParoisseOfRow(db, p);
    assert forall i :: OfParoisse(db, p)(i) ==> OfDiocese(db, d)(i);
    NarrowerScopeSmaller(db.intentions, OfDiocese(db, d), OfParoisse(db, p), StartOfMonth(now));
  }

  lemma {:induction false} FilterAppend<T>(s: seq<T>, x: T, p: T -> bool)
    ensures Filter(s + [x], p) == Filter(s, p) + (if p(x) then [x] else [])
  {
    if |s| == 0 {
      assert s + [x] == [x];
      assert [x][1..] == [];
    } else {
      assert (s + [x])[1..] == s[1..] + [x];
      FilterAppend(s[1..], x, p);
    }
  }

  /**
   * The figures over no rows are all zero; storing one more intention leaves
   * every figure as it was when it is unpaid or out of scope, adds one
   * intention and its amount to the totals when it is paid and in scope,
   * and to the month's figures too exactly when it was created since the
   * start of the month. With the zero base case this determines the figures.
   */
  lemma {:induction false} OnlyPaidCounted(rows: seq<Intention>, i: Intention, scope: Intention -> bool, since: int)
    ensures StatsOver([], scope, since) == Stats(0, 0, 0, 0)
    ensures !Paid(i) || !scope(i) ==> StatsOver(rows + [i], scope, since) == StatsOver(rows, scope, since)
    ensures Paid(i) && scope(i) && i.createdAt >= since ==>
      var a := StatsOver(rows + [i], scope, since);
      var b := StatsOver(rows, scope, since);
      && a.totalIntentions == b.totalIntentions + 1 && a.totalMontant == b.totalMontant + i.montantPaye
      && a.intentionsMois == b.intentionsMois + 1 && a.montantMois == b.montantMois + i.montantPaye
    ensures Paid(i) && scope(i) && i.createdAt < since ==>
      var a := StatsOver(rows + [i], scope, since);
      var b := StatsOver(rows, scope, since);
      && a.totalIntentions == b.totalIntentions + 1 && a.totalMontant == b.totalMontant + i.montantPaye
      && a.intentionsMois == b.intentionsMois && a.montantMois == b.montantMois
  {
    FilterAppend(rows, i, PaidIn(scope));
    FilterAppend(rows, i, PaidSince(scope, since));
    SumOfConcat(Filter(rows, PaidIn(scope)), if PaidIn(scope)(i) then [i] else [], Montant);
    SumOfConcat(Filter(rows, PaidSince(scope, since)), if PaidSince(scope, since)(i) then [i] else [], Montant);
  }

  /** Two scopes that agree on every row give the same figures. */
  lemma {:induction false} FilterAgrees<T>(s: seq<T>, p: T -> bool, q: T -> bool)
    requires forall x :: x in s ==> p(x) == q(x)
    ensures Filter(s, p) == Filter(s, q)
    decreases |s|
  {
    if |s| > 0 {
      assert s[0] in s;
      assert forall x :: x in s[1..] ==> x in s;
      FilterAgrees(s[1..], p, q);
    }
  }

  /**
   * `getGlobalStats`, row by row: nothing stored gives zeros, and each
   * stored intention changes the figures as `OnlyPaidCounted` says with
   * every intention in scope.
   */
  lemma GlobalStatsStep(db: Db, i: Intention, now: int)
    ensures GetGlobalStats(db.(intentions := []), now) == Stats(0, 0, 0, 0)
    ensures var a := GetGlobalStats(db.(intentions := db.intentions + [i]), now);
      var b := GetGlobalStats(db, now);
      && (!Paid(i) ==> a == b)
      && (Paid(i) ==> a.totalIntentions == b.totalIntentions + 1 && a.totalMontant == b.totalMontant + i.montantPaye)
      && (Paid(i) && i.createdAt >= StartOfMonth(now) ==>
            a.intentionsMois == b.intentionsMois + 1 && a.montantMois == b.montantMois + i.montantPaye)
      && (Paid(i) && i.createdAt < StartOfMonth(now) ==> a.intentionsMois == b.intentionsMois && a.montantMois == b.montantMois)
  {
    OnlyPaidCounted(db.intentions, i, Everywhere(), StartOfMonth(now));
  }

  /**
   * `getStatsByDiocese`, row by row: nothing stored gives zeros, and each
   * stored intention counts exactly when it is paid and its occurrence's
   * mass's parish belongs to the diocese, in the month's figures only when
   * created since the start of the month.
   */
  lemma DioceseStatsStep(db: Db, d: Diocese, i: Intention, now: int)
    ensures GetStatsByDiocese(db.(intentions := []), d, now) == Stats(0, 0, 0, 0)
    ensures var a := GetStatsByDiocese(db.(intentions := db.intentions + [i]), d, now);
      var b := GetStatsByDiocese(db, d, now);
      var counted := Paid(i) && DioceseIdOfIntention(db, i) == Some(d.id);
      && (!counted ==> a == b)
      && (counted ==> a.totalIntentions == b.totalIntentions + 1 && a.totalMontant == b.totalMontant + i.montantPaye)
      && (counted && i.createdAt >= StartOfMonth(now) ==>
            a.intentionsMois == b.intentionsMois + 1 && a.montantMois == b.montantMois + i.montantPaye)
      && (counted && i.createdAt < StartOfMonth(now) ==> a.intentionsMois == b.intentionsMois && a.montantMois == b.montantMois)
  {
    var db2 := db.(intentions := db.intentions + [i]);
    var since := StartOfMonth(now);
    var scope := OfDiocese(db, d);
    var scope2 := OfDiocese(db2, d);
    assert forall x :: DioceseIdOfIntention(db2, x) == DioceseIdOfIntention(db, x);
    FilterAgrees(db2.intentions, PaidIn(scope2), PaidIn(scope));
    FilterAgrees(db2.intentions, PaidSince(scope2, since), PaidSince(scope, since));
    assert GetStatsByDiocese(db2, d, now) == StatsOver(db2.intentions, scope, since);
    OnlyPaidCounted(db.intentions, i, scope, since);
  }

  /**
   * `getStatsByParoisse`'s figures, row by row: nothing stored gives zeros,
   * and each stored intention counts exactly when it is paid and its
   * occurrence's mass belongs to the parish, in the month's figures only
   * when created since the start of the month.
   */
  lemma ParoisseStatsStep(db: Db, p: Paroisse, i: Intention, now: int)
    ensures GetStatsByParoisse(db.(intentions := []), p, now).stats == Stats(0, 0, 0, 0)
    ensures var a := GetStatsByParoisse(db.(intentions := db.intentions + [i]), p, now).stats;
      var b := GetStatsByParoisse(db, p, now).stats;
      var counted := Paid(i) && ParoisseIdOfIntention(db, i) == Some(p.id);
      && (!counted ==> a == b)
      && (counted ==> a.totalIntentions == b.totalIntentions + 1 && a.totalMontant == b.totalMontant + i.montantPaye)
      && (counted && i.createdAt >= StartOfMonth(now) ==>
            a.intentionsMois == b.intentionsMois + 1 && a.montantMois == b.montantMois + i.montantPaye)
      && (counted && i.createdAt < StartOfMonth(now) ==> a.intentionsMois == b.intentionsMois && a.montantMois == b.montantMois)
  {
    var db2 := db.(intentions := db.intentions + [i]);
    var since := StartOfMonth(now);
    var scope := OfParoisse(db, p);
    var scope2 := OfParoisse(db2, p);
    assert forall x :: ParoisseIdOfIntention(db2, x) == ParoisseIdOfIntention(db, x);
    FilterAgrees(db2.intentions, PaidIn(scope2), PaidIn(scope));
    FilterAgrees(db2.intentions, PaidSince(scope2, since), PaidSince(scope, since));
    assert GetStatsByParoisse(db2, p, now).stats == StatsOver(db2.intentions, scope, since);
    OnlyPaidCounted(db.intentions, i, scope, since);
  }
}

=== FILE: messe.dfy ===
/** Behaviour of the Messe entity: status predicates, the occurrence collection, weekday labels. */
module MesseEntity {
  import opened Wrappers
  import opened Entities
  import Calendar

  predicate IsRecurrente(m: Messe)
  {
    m.kind == Recurrente
  }

  predicate IsActive(m: Messe)
  {
    m.statut == Active
  }

  /**
   * `addOccurrence`: an occurrence not yet in the collection is added and
   * pointed back at this mass; one already there changes nothing.
   */
  function AddOccurrence(m: Messe, o: Occurrence): (r: (Messe, Occurrence))
    ensures r.0.occurrences == m.occurrences + {o.id}
    ensures r.0.(occurrences := m.occurrences) == m
    ensures o.id !in m.occurrences ==> r.1 == o.(messe := Some(m.id))
    ensures o.id in m.occurrences ==> r == (m, o)
  {
    if o.id in m.occurrences then (m, o)
    else (m.(occurrences := m.occurrences + {o.id}), o.(messe := Some(m.id)))
  }

  /** Adding the same occurrence a second time changes nothing. */
  lemma AddOccurrenceIdempotent(m: Messe, o: Occurrence)
    ensures AddOccurrence(AddOccurrence(m, o).0, AddOccurrence(m, o).1) == AddOccurrence(m, o)
  {
  }

  /**
   * `removeOccurrence`: the occurrence leaves the collection; its back
   * reference is cleared only if it was in the collection and pointed at
   * this mass.
   */
  function RemoveOccurrence(m: Messe, o: Occurrence): (r: (Messe, Occurrence))
    ensures r.0.occurrences == m.occurrences - {o.id}
    ensures r.0.(occurrences := m.occurrences) == m
    ensures r.1.(messe := o.messe) == o
    ensures r.1.messe == if o.id in m.occurrences && o.messe == Some(m.id) then None else o.messe
  {
    if o.id !in m.occurrences then (m, o)
    else
      var m' := m.(occurrences := m.occurrences - {o.id});
      if o.messe == Some(m.id) then (m', o.(messe := None)) else (m', o)
  }

  /** Removing a freshly added occurrence restores the collection and leaves it detached. */
  lemma RemoveUndoesAdd(m: Messe, o: Occurrence)
    requires o.id !in m.occurrences
    ensures RemoveOccurrence(AddOccurrence(m, o).0, AddOccurrence(m, o).1) == (m, o.(messe := None))
  {
    assert m.occurrences + {o.id} - {o.id} == m.occurrences;
  }

  /** `getJourSemaineLabel`: the French weekday name for 0..6, null otherwise. */
  function JourSemaineLabel(j: Option<int>): (r: Option<string>)
    ensures r.Some? <==> j.Some? && 0 <= j.value <= 6
    ensures j == Some(0) ==> r == Some("Dimanche")
    ensures j == Some(6) ==> r == Some("Samedi")
  {
    if j.None? then None
    else match j.value
      case 0 => Some("Dimanche")
      case 1 => Some("Lundi")
      case 2 => Some("Mardi")
      case 3 => Some("Mercredi")
      case 4 => Some("Jeudi")
      case 5 => Some("Vendredi")
      case 6 => Some("Samedi")
      case _ => None
  }

  /** Distinct weekdays have distinct labels, and every weekday of the calendar has one. */
  lemma JourSemaineLabelInjective(a: int, b: int, d: int)
    requires 0 <= a <= 6 && 0 <= b <= 6 && a != b
    ensures JourSemaineLabel(Some(a)) != JourSemaineLabel(Some(b))
    ensures JourSemaineLabel(Some(Calendar.Weekday(d))).Some?
  {
  }
}

=== FILE: messe_controller.dfy ===
/**
 * The parish back office for masses: creating a mass (and its first
 * occurrences), editing it, deleting it with its occurrences and their
 * intentions, switching it between active and suspended, and cancelling one
 * occurrence. The acting user's parish is a parameter; form values arrive
 * already parsed, absent ones as `None`.
 */
module MesseController {
  import opened Wrappers
  import opened Tables
  import opened Entities
  import opened Calendar
  import opened MesseEntity
  import opened OccurrenceEntity
  import opened OccurrenceGenerator
  import opened Security
  import MesseVoter

  /** The posted mass form; `None` is a field the request does not carry. */
  datatype MesseForm = MesseForm(
    titre: Option<string>,
    kind: Option<TypeMesse>,
    heure: Option<MinuteOfDay>,
    montantSuggere: Option<Amount>,
    recurrence: Option<RecurrenceMesse>,
    jourSemaine: Option<int>,
    dateDebut: Option<int>,
    dateFin: Option<int>)

  /** Form defaults: recurring, 09:00, 2000 francs, weekly, Sunday. */
  const DefaultHeure: MinuteOfDay := 540
  const DefaultMontant: Amount := 200000

  datatype Outcome = Done(db: Db) | NotFound | AccessDenied

  /**
   * The kind invariant the forms keep: a one-time mass has no recurrence and
   * no weekday; a recurring one has a recurrence, a weekday and no dates.
   */
  predicate KindConsistent(m: Messe)
  {
    && (m.kind == Ponctuelle ==> m.recurrence.None? && m.jourSemaine.None?)
    && (m.kind == Recurrente ==> m.recurrence.Some? && m.jourSemaine.Some? && m.dateDebut.None? && m.dateFin.None?)
  }

  /** The mass `new` builds for parish `paroisse`, before it is persisted. */
  function BuildMesse(id: Id, paroisse: Option<Id>, f: MesseForm, today: int): (m: Messe)
    ensures m.id == id && m.paroisse == paroisse && m.statut == Active && m.occurrences == {}
    ensures m.kind == f.kind.GetOr(Recurrente) && m.titre == f.titre.GetOr("")
    ensures m.heure == f.heure.GetOr(DefaultHeure) && m.montantSuggere == f.montantSuggere.GetOr(DefaultMontant)
    ensures KindConsistent(m)
    ensures m.kind == Ponctuelle ==> m.dateDebut == Some(f.dateDebut.GetOr(today)) && m.dateFin == f.dateFin
    ensures m.kind == Recurrente ==>
      m.recurrence == Some(f.recurrence.GetOr(Hebdomadaire)) && m.jourSemaine == Some(f.jourSemaine.GetOr(0))
  {
    var kind := f.kind.GetOr(Recurrente);
    Messe(id, paroisse, f.titre.GetOr(""), kind,
      if kind == Recurrente then Some(f.recurrence.GetOr(Hebdomadaire)) else None,
      f.heure.GetOr(DefaultHeure),
      if kind == Recurrente then Some(f.jourSemaine.GetOr(0)) else None,
      if kind == Recurrente then None else Some(f.dateDebut.GetOr(today)),
      if kind == Recurrente then None else f.dateFin,
      f.montantSuggere.GetOr(DefaultMontant),
      Active, {})
  }

  /**
   * `new` (POST): without a parish, not found. Otherwise the mass is stored
   * active; a recurring mass is generated 30 days ahead, a one-time mass gets
   * one occurrence on its first date at its hour.
   */
  function New(db: Db, paroisse: Option<Id>, f: MesseForm, now: int): (r: Outcome)
    ensures paroisse.None? <==> r.NotFound?
    ensures r.Done? ==>
      && |r.db.messes| == |db.messes| + 1
      && r.db.messes[..|db.messes|] == db.messes
      && r.db == db.(messes := r.db.messes, occurrences := r.db.occurrences)
      && r.db.messes[|db.messes|] == BuildMesse(NextMesseId(db.messes), paroisse, f, DayOf(now))
      && |r.db.occurrences| >= |db.occurrences|
      && r.db.occurrences[..|db.occurrences|] == db.occurrences
    ensures r.Done? ==> var m := r.db.messes[|db.messes|];
      && m.statut == Active && m.paroisse == paroisse && KindConsistent(m)
      && (forall x :: x in db.messes ==> x.id < m.id)
    ensures r.Done? && r.db.messes[|db.messes|].kind == Ponctuelle ==>
      var m := r.db.messes[|db.messes|];
      && m.dateDebut.Some?
      && |r.db.occurrences| == |db.occurrences| + 1
      && r.db.occurrences[|db.occurrences|].messe == Some(m.id)
      && r.db.occurrences[|db.occurrences|].statut == Confirmee
      && r.db.occurrences[|db.occurrences|].dateHeure == StartOfDay(m.dateDebut.value) + m.heure
  {
    if paroisse.None? then NotFound
    else
      var m := BuildMesse(NextMesseId(db.messes), paroisse, f, DayOf(now));
      var db1 := db.(messes := db.messes + [m]);
      assert db1.messes[..|db.messes|] == db.messes;
      if IsRecurrente(m) then
        Done(GenerateOccurrences(db1, m, now, DefaultDaysAhead).db)
      else
        var o := NewOccurrence(NextOccurrenceId(db1.occurrences), Some(m.id), OccurrenceTime(m, m.dateDebut.value));
        assert (db1.occurrences + [o])[..|db.occurrences|] == db.occurrences;
        Done(db1.(occurrences := db1.occurrences + [o]))
  }

  /**
   * A recurring mass is created with exactly the occurrences the generator
   * plans for it: the result is the generator's run right after the insert,
   * and the k-th new row is the k-th planned date with the k-th fresh id.
   */
  lemma NewRecurringGenerates(db: Db, paroisse: Option<Id>, f: MesseForm, now: int)
    requires paroisse.Some? && f.kind.GetOr(Recurrente) == Recurrente
    ensures var m := BuildMesse(NextMesseId(db.messes), paroisse, f, DayOf(now));
      var db1 := db.(messes := db.messes + [m]);
      var r := New(db, paroisse, f, now);
      && r == Done(GenerateOccurrences(db1, m, now, DefaultDaysAhead).db)
      && r.db.occurrences ==
           db.occurrences + Materialize(m.id, NextOccurrenceId(db.occurrences), Planned(db1, m, now, DefaultDaysAhead))
  {
    var m := BuildMesse(NextMesseId(db.messes), paroisse, f, DayOf(now));
    var db1 := db.(messes := db.messes + [m]);
    NewRecurringIsGeneration(db, paroisse, f, now);
    GenerationAppends(db1, m, now, DefaultDaysAhead);
  }

  /** `New` on a recurring mass is the generator run right after the insert. */
  lemma NewRecurringIsGeneration(db: Db, paroisse: Option<Id>, f: MesseForm, now: int)
    requires paroisse.Some? && f.kind.GetOr(Recurrente) == Recurrente
    ensures var m := BuildMesse(NextMesseId(db.messes), paroisse, f, DayOf(now));
      New(db, paroisse, f, now) == Done(GenerateOccurrences(db.(messes := db.messes + [m]), m, now, DefaultDaysAhead).db)
  {
    var m := BuildMesse(NextMesseId(db.messes), paroisse, f, DayOf(now));
    assert IsRecurrente(m);
  }

  /** `find($id)` restricted to the user's parish: `$messe->getParoisse() !== $paroisse` is not found. */
  function OwnMesseIndex(db: Db, paroisse: Option<Id>, id: Id): (r: Option<nat>)
    ensures r.Some? ==> r.value < |db.messes| && db.messes[r.value].id == id && db.messes[r.value].paroisse == paroisse
  {
    match IndexWhere(db.messes, (m: Messe) => m.id == id)
    case None => None
    case Some(k) => if db.messes[k].paroisse == paroisse then Some(k) else None
  }

  /** The mass after the `edit` form: kind-dependent fields set or cleared, dates kept when not posted. */
  function ApplyEdit(m: Messe, f: MesseForm): (r: Messe)
    ensures KindConsistent(r)
    ensures r.id == m.id && r.paroisse == m.paroisse && r.statut == m.statut && r.occurrences == m.occurrences
    ensures r.kind == f.kind.GetOr(Recurrente) && r.titre == f.titre.GetOr("")
    ensures r.heure == f.heure.GetOr(DefaultHeure) && r.montantSuggere == f.montantSuggere.GetOr(DefaultMontant)
    ensures r.kind == Recurrente ==>
      r.recurrence == Some(f.recurrence.GetOr(Hebdomadaire)) && r.jourSemaine == Some(f.jourSemaine.GetOr(0))
    ensures r.kind == Ponctuelle && f.dateDebut.Some? ==> r.dateDebut == f.dateDebut
    ensures r.kind == Ponctuelle && f.dateFin.Some? ==> r.dateFin == f.dateFin
    ensures r.kind == Ponctuelle && f.dateDebut.None? ==> r.dateDebut == m.dateDebut
    ensures r.kind == Ponctuelle && f.dateFin.None? ==> r.dateFin == m.dateFin
  {
    var kind := f.kind.GetOr(Recurrente);
    var base := m.(titre := f.titre.GetOr(""), kind := kind, heure := f.heure.GetOr(DefaultHeure),
                   montantSuggere := f.montantSuggere.GetOr(DefaultMontant));
    if kind == Recurrente then
      base.(recurrence := Some(f.recurrence.GetOr(Hebdomadaire)), jourSemaine := Some(f.jourSemaine.GetOr(0)),
            dateDebut := None, dateFin := None)
    else
      base.(recurrence := None, jourSemaine := None,
            dateDebut := if f.dateDebut.Some? then f.dateDebut else m.dateDebut,
            dateFin := if f.dateFin.Some? then f.dateFin else m.dateFin)
  }

  /**
   * `edit` (POST): a mass of another parish (or none) is not found and
   * nothing changes; otherwise only that row changes, and it satisfies the
   * kind invariant whatever it was before.
   */
  function Edit(db: Db, paroisse: Option<Id>, id: Id, f: MesseForm): (r: Outcome)
    ensures r.NotFound? <==> OwnMesseIndex(db, paroisse, id).None?
    ensures r.Done? ==> var k := OwnMesseIndex(db, paroisse, id).value;
      && |r.db.messes| == |db.messes|
      && r.db == db.(messes := db.messes[k := r.db.messes[k]])
      && r.db.messes[k] == ApplyEdit(db.messes[k], f)
      && KindConsistent(r.db.messes[k])
      && r.db.messes[k].id == id && r.db.messes[k].statut == db.messes[k].statut
  {
    match OwnMesseIndex(db, paroisse, id)
    case None => NotFound
    case Some(k) => Done(db.(messes := db.messes[k := ApplyEdit(db.messes[k], f)]))
  }

  /** Editing twice with the same form is editing once. */
  lemma EditIdempotent(m: Messe, f: MesseForm)
    ensures ApplyEdit(ApplyEdit(m, f), f) == ApplyEdit(m, f)
  {
  }

  /** The ids of the occurrences of mass `mid`. */
  function OccurrenceIdsOf(db: Db, mid: Id): set<Id>
  {
    set o | o in db.occurrences && o.messe == Some(mid) :: o.id
  }

  /**
   * `delete` with a valid token: the mass, its occurrences and their
   * intentions are removed (orphan removal cascades); everything else stays.
   * Without a valid token nothing changes.
   */
  function Delete(db: Db, paroisse: Option<Id>, id: Id, tokenValid: bool): (r: Outcome)
    ensures r.NotFound? <==> OwnMesseIndex(db, paroisse, id).None?
    ensures r.Done? && !tokenValid ==> r.db == db
    ensures r.Done? && tokenValid ==>
      && (forall m :: m in r.db.messes <==> m in db.messes && m.id != id)
      && (forall o :: o in r.db.occurrences <==> o in db.occurrences && o.messe != Some(id))
      && (forall i :: i in r.db.intentions ==> i in db.intentions)
      && (forall i :: i in r.db.intentions ==> i.occurrence.None? || i.occurrence.value !in OccurrenceIdsOf(db, id))
      && (forall i :: i in db.intentions && (i.occurrence.None? || i.occurrence.value !in OccurrenceIdsOf(db, id)) ==>
            i in r.db.intentions)
      && r.db.paroisses == db.paroisses && r.db.dioceses == db.dioceses
  {
    match OwnMesseIndex(db, paroisse, id)
    case None => NotFound
    case Some(_) =>
      if !tokenValid then Done(db)
      else
        var gone := OccurrenceIdsOf(db, id);
        Done(db.(
          messes := Filter(db.messes, (m: Messe) => m.id != id),
          occurrences := Filter(db.occurrences, (o: Occurrence) => o.messe != Some(id)),
          intentions := Filter(db.intentions, (i: Intention) => i.occurrence.None? || i.occurrence.value !in gone)))
  }

  /** After a deletion nothing refers to the mass or to its removed occurrences. */
  lemma DeleteLeavesNoOrphans(db: Db, paroisse: Option<Id>, id: Id)
    requires Delete(db, paroisse, id, true).Done?
    ensures var after := Delete(db, paroisse, id, true).db;
      && (forall o :: o in after.occurrences ==> o.messe != Some(id))
      && (forall i, o :: i in after.intentions && o in db.occurrences && o.messe == Some(id) ==> i.occurrence != Some(o.id))
  {
  }

  /** `toggleStatus`: ACTIVE becomes SUSPENDUE and anything else ACTIVE. */
  function Flip(s: StatutMesse): (r: StatutMesse)
    ensures r != s
  {
    if s == Active then Suspendue else Active
  }

  /**
   * `toggleStatus`: an unknown mass is not found; without MESSE_EDIT access
   * is denied; otherwise only the mass's status flips.
   */
  function ToggleStatus(db: Db, token: Token, id: Id): (r: Outcome)
    ensures r.NotFound? <==> IndexWhere(db.messes, (m: Messe) => m.id == id).None?
    ensures r.AccessDenied? <==> var k := IndexWhere(db.messes, (m: Messe) => m.id == id);
      k.Some? && MesseVoter.Vote(db, token, MesseVoter.Edit, MesseSubject(db.messes[k.value])) != Granted
    ensures r.Done? ==> var k := IndexWhere(db.messes, (m: Messe) => m.id == id).value;
      && MesseVoter.Vote(db, token, MesseVoter.Edit, MesseSubject(db.messes[k])) == Granted
      && r.db == db.(messes := db.messes[k := db.messes[k].(statut := Flip(db.messes[k].statut))])
  {
    match IndexWhere(db.messes, (m: Messe) => m.id == id)
    case None => NotFound
    case Some(k) =>
      var m := db.messes[k];
      if MesseVoter.Vote(db, token, MesseVoter.Edit, MesseSubject(m)) != Granted then AccessDenied
      else Done(db.(messes := db.messes[k := m.(statut := Flip(m.statut))]))
  }

  /** Toggling twice restores the database, and the invariant survives a toggle. */
  lemma ToggleTwiceRestores(db: Db, token: Token, id: Id)
    requires ToggleStatus(db, token, id).Done?
    ensures var once := ToggleStatus(db, token, id).db;
      ToggleStatus(once, token, id) == Done(db)
  {
    var k := IndexWhere(db.messes, (m: Messe) => m.id == id).value;
    var once := ToggleStatus(db, token, id).db;
    var m := db.messes[k];
    assert once.messes[k] == m.(statut := Flip(m.statut));
    IndexUnchangedByStatus(db.messes, k, Flip(m.statut), id);
    assert MesseVoter.Vote(once, token, MesseVoter.Edit, MesseSubject(once.messes[k])) ==
           MesseVoter.Vote(db, token, MesseVoter.Edit, MesseSubject(m));
    assert once.messes[k := once.messes[k].(statut := Flip(once.messes[k].statut))] == db.messes;
  }

  /** Changing a row's status does not move the first row with a given id. */
  lemma IndexUnchangedByStatus(ms: seq<Messe>, k: nat, s: StatutMesse, id: Id)
    requires k < |ms|
    ensures IndexWhere(ms[k := ms[k].(statut := s)], (m: Messe) => m.id == id) == IndexWhere(ms, (m: Messe) => m.id == id)
  {
    var p := (m: Messe) => m.id == id;
    var ms2 := ms[k := ms[k].(statut := s)];
    assert forall j :: 0 <= j < |ms| ==> p(ms2[j]) == p(ms[j]);
    IndexWhereAgrees(ms, ms2, p);
  }

  /**
   * The subject the MESSE_CANCEL vote sees for an occurrence: its mass, or,
   * when that row is missing, something the mass voter does not support.
   */
  function CancelSubject(db: Db, o: Occurrence): (r: Subject)
    ensures r.OtherSubject? <==> FindMesse(db, o.messe).None?
    ensures r.MesseSubject? ==> r == MesseSubject(FindMesse(db, o.messe).value)
  {
    match FindMesse(db, o.messe)
    case None => OtherSubject
    case Some(m) => MesseSubject(m)
  }

  /**
   * `cancelOccurrence`: an unknown occurrence is not found; without
   * MESSE_CANCEL on its mass (a missing mass is not a supported subject)
   * access is denied; otherwise only its status becomes ANNULEE.
   */
  function CancelOccurrence(db: Db, token: Token, id: Id): (r: Outcome)
    ensures r.NotFound? <==> OccurrenceIndex(db, id).None?
    ensures r.AccessDenied? <==> var k := OccurrenceIndex(db, id);
      k.Some? && MesseVoter.Vote(db, token, MesseVoter.Cancel, CancelSubject(db, db.occurrences[k.value])) != Granted
    ensures r.Done? ==> var k := OccurrenceIndex(db, id).value;
      && r.db == db.(occurrences := db.occurrences[k := db.occurrences[k].(statut := Annulee)])
  {
    match OccurrenceIndex(db, id)
    case None => NotFound
    case Some(k) =>
      var o := db.occurrences[k];
      if MesseVoter.Vote(db, token, MesseVoter.Cancel, CancelSubject(db, o)) != Granted then AccessDenied
      else Done(db.(occurrences := db.occurrences[k := o.(statut := Annulee)]))
  }

  /**
   * An occurrence whose mass row is missing cannot be cancelled by anyone:
   * the only voter for MESSE_CANCEL abstains, and an all-abstain decision
   * denies access.
   */
  lemma CancelWithoutMesseDenied(db: Db, token: Token, id: Id)
    requires OccurrenceIndex(db, id).Some?
    requires FindMesse(db, db.occurrences[OccurrenceIndex(db, id).value].messe).None?
    ensures CancelOccurrence(db, token, id) == AccessDenied
  {
    var o := db.occurrences[OccurrenceIndex(db, id).value];
    assert CancelSubject(db, o) == OtherSubject;
    assert MesseVoter.Vote(db, token, MesseVoter.Cancel, OtherSubject) == Abstain;
  }

  /** A cancelled occurrence can no longer receive intentions, from any parish, at any time. */
  lemma CancelledNotBookable(db: Db, token: Token, id: Id, paroisse: Option<Paroisse>, now: int)
    requires CancelOccurrence(db, token, id).Done?
    ensures var k := OccurrenceIndex(db, id).value;
      !CanReceiveIntentions(CancelOccurrence(db, token, id).db.occurrences[k], paroisse, now)
  {
  }

  /** The kind invariant holds for every mass the forms produce, and toggling keeps it. */
  lemma KindInvariantKept(m: Messe, f: MesseForm, id: Id, paroisse: Option<Id>, today: int)
    ensures KindConsistent(BuildMesse(id, paroisse, f, today))
    ensures KindConsistent(ApplyEdit(m, f))
    ensures KindConsistent(m) ==> KindConsistent(m.(statut := Flip(m.statut)))
  {
  }
}

=== FILE: messe_voter.dfy ===
/** Who may view, edit and cancel a mass. */
module MesseVoter {
  import opened Wrappers
  import opened Entities
  import opened Security
  import opened MesseEntity

  const View := "MESSE_VIEW"
  const Edit := "MESSE_EDIT"
  const Cancel := "MESSE_CANCEL"

  predicate Supports(attribute: string, subject: Subject)
  {
    attribute in {View, Edit, Cancel} && subject.MesseSubject?
  }

  /** `$paroisse?->getDiocese()`: the diocese reference of the mass's parish, null when there is no parish. */
  function DioceseRefOf(db: Db, m: Messe): Option<Id>
  {
    match FindParoisse(db, m.paroisse)
    case None => None
    case Some(p) => p.diocese
  }

  predicate CanView(db: Db, m: Messe, u: User)
  {
    if IsSuperUser(u) then true
    else if IsAdminDiocese(u) then u.diocese == DioceseRefOf(db, m)
    else if u.paroisse == m.paroisse then true
    else IsActive(m) && DioceseActiveOf(db, FindParoisse(db, m.paroisse))
  }

  predicate CanEdit(db: Db, m: Messe, u: User)
  {
    if IsSuperUser(u) then true
    else if IsAdminDiocese(u) then u.diocese == DioceseRefOf(db, m)
    else if IsAdminParoisse(u) || IsSecretaire(u) then u.paroisse == m.paroisse
    else false
  }

  predicate CanCancel(db: Db, m: Messe, u: User)
  {
    CanEdit(db, m, u)
  }

  predicate VoteOnAttribute(db: Db, attribute: string, m: Messe, token: Token)
  {
    token.AppUser? &&
      if attribute == View then CanView(db, m, token.user)
      else if attribute == Edit then CanEdit(db, m, token.user)
      else if attribute == Cancel then CanCancel(db, m, token.user)
      else false
  }

  function Vote(db: Db, token: Token, attribute: string, subject: Subject): (r: Decision)
    ensures r == Abstain <==> !Supports(attribute, subject)
    ensures token.NotAUser? ==> (r == Denied <==> Supports(attribute, subject))
  {
    Decide(Supports(attribute, subject), subject.MesseSubject? && VoteOnAttribute(db, attribute, subject.messe, token))
  }

  /** Cancelling is always decided exactly like editing. */
  lemma CancelIsEdit(db: Db, token: Token, m: Messe)
    ensures Vote(db, token, Cancel, MesseSubject(m)) == Vote(db, token, Edit, MesseSubject(m))
  {
  }

  /**
   * The editing policy by role: a super user always; a diocese admin iff the
   * dioceses are equal (null equal to null); a parish admin or secretary iff
   * it is their parish (null equal to null); anyone else never.
   */
  lemma EditPolicy(db: Db, u: User, m: Messe)
    ensures IsSuperUser(u) ==> Vote(db, AppUser(u), Edit, MesseSubject(m)) == Granted
    ensures !IsSuperUser(u) && IsAdminDiocese(u) ==>
      (Vote(db, AppUser(u), Edit, MesseSubject(m)) == Granted <==> u.diocese == DioceseRefOf(db, m))
    ensures !IsSuperUser(u) && !IsAdminDiocese(u) && (IsAdminParoisse(u) || IsSecretaire(u)) ==>
      (Vote(db, AppUser(u), Edit, MesseSubject(m)) == Granted <==> u.paroisse == m.paroisse)
    ensures !IsSuperUser(u) && !IsAdminDiocese(u) && !IsAdminParoisse(u) && !IsSecretaire(u) ==>
      Vote(db, AppUser(u), Edit, MesseSubject(m)) == Denied
  {
  }

  /** Whoever may edit a mass may view it. */
  lemma EditImpliesView(db: Db, u: User, m: Messe)
    ensures Vote(db, AppUser(u), Edit, MesseSubject(m)) == Granted ==> Vote(db, AppUser(u), View, MesseSubject(m)) == Granted
  {
  }

  /**
   * Viewing for a user with neither admin role: their own parish's masses,
   * otherwise only an active mass of an active diocese.
   */
  lemma ViewByOthers(db: Db, u: User, m: Messe)
    requires !IsSuperUser(u) && !IsAdminDiocese(u)
    ensures Vote(db, AppUser(u), View, MesseSubject(m)) == Granted <==>
      u.paroisse == m.paroisse || (IsActive(m) && DioceseActiveOf(db, FindParoisse(db, m.paroisse)))
  {
  }

  /**
   * Viewing for a diocese admin who is not a super user: exactly the masses
   * whose parish belongs to their diocese (a mass without a parish, or a
   * parish without a diocese, only for an admin without a diocese).
   */
  lemma ViewByDioceseAdmin(db: Db, u: User, m: Messe)
    ensures !IsSuperUser(u) && IsAdminDiocese(u) ==>
      (Vote(db, AppUser(u), View, MesseSubject(m)) == Granted <==> u.diocese == DioceseRefOf(db, m))
  {
  }
}

=== FILE: occurrence_generator.dfy ===
/**
 * The occurrence generator: for a recurring, active mass, one occurrence per
 * matching day, walking one day at a time from just after the latest
 * existing occurrence (or the mass's first date, or today) up to now plus a
 * number of days, clamped to the mass's last date.
 */
module OccurrenceGenerator {
  import opened Wrappers
  import opened Tables
  import opened Entities
  import opened Calendar
  import opened MesseEntity
  import opened OccurrenceEntity
  import opened OccurrenceRepository

  const DefaultDaysAhead := 30

  /**
   * `shouldCreateOccurrence` on day `d`: every day for a daily mass, the
   * configured weekday for a weekly one, the configured day of the month
   * (the first when unset) for a monthly one, never without a recurrence.
   */
  predicate ShouldCreate(m: Messe, d: int)
  {
    match m.recurrence
    case None => false
    case Some(Quotidienne) => true
    case Some(Hebdomadaire) => m.jourSemaine == Some(Weekday(d))
    case Some(Mensuelle) => DayOfMonth(d) == m.jourSemaine.GetOr(1)
  }

  /** A weekly mass on a valid weekday matches exactly one day of any seven consecutive days. */
  lemma WeeklyOncePerWeek(m: Messe, d: int, k: int)
    requires m.recurrence == Some(Hebdomadaire)
    requires m.jourSemaine.Some? && 0 <= m.jourSemaine.value <= 6
    requires 0 <= k < 7
    ensures ShouldCreate(m, d + k) <==> k == (m.jourSemaine.value - Weekday(d)) % 7
  {
  }

  /** A weekly mass with no weekday, or one outside 0..6, and a monthly one outside 1..31 never match. */
  lemma OutOfRangeNeverMatches(m: Messe, d: int)
    ensures m.recurrence == Some(Hebdomadaire) && (m.jourSemaine.None? || m.jourSemaine.value > 6) ==> !ShouldCreate(m, d)
    ensures m.recurrence == Some(Mensuelle) && m.jourSemaine.Some? && m.jourSemaine.value > 31 ==> !ShouldCreate(m, d)
  {
  }

  /** `createOccurrence`'s date: day `d` at the mass's hour and minute, seconds zero. */
  function OccurrenceTime(m: Messe, d: int): (t: int)
    ensures DayOf(t) == d && TimeOfDay(t) == m.heure
  {
    DayOfTimeOnDay(d, m.heure);
    StartOfDay(d) + m.heure
  }

  /** One day after the latest existing occurrence, else the first date at midnight, else today at midnight. */
  function WindowStart(db: Db, m: Messe, now: int): (s: int)
    ensures FindMaxDateForMesse(db, m).Some? ==> s == FindMaxDateForMesse(db, m).value + MinutesPerDay
    ensures FindMaxDateForMesse(db, m).None? ==> TimeOfDay(s) == 0
    ensures FindMaxDateForMesse(db, m).None? ==> s == StartOfDay(m.dateDebut.GetOr(DayOf(now)))
  {
    match FindMaxDateForMesse(db, m)
    case Some(last) => last + MinutesPerDay
    case None =>
      var d := m.dateDebut.GetOr(DayOf(now));
      DayOfTimeOnDay(d, 0);
      StartOfDay(d)
  }

  /** Now plus `daysAhead` days, lowered to the last date at midnight when that is earlier. */
  function WindowEnd(m: Messe, now: int, daysAhead: int): (e: int)
    ensures e <= now + daysAhead * MinutesPerDay
    ensures m.dateFin.Some? ==> e <= StartOfDay(m.dateFin.value)
    ensures e == now + daysAhead * MinutesPerDay || (m.dateFin.Some? && e == StartOfDay(m.dateFin.value))
  {
    var e := now + daysAhead * MinutesPerDay;
    if m.dateFin.Some? && StartOfDay(m.dateFin.value) < e then StartOfDay(m.dateFin.value) else e
  }

  /** The dates the loop creates from `current` while `current <= end`, stepping one day. */
  function Walk(m: Messe, current: int, end: int): seq<int>
    decreases end - current
  {
    if current > end then []
    else
      var here := if ShouldCreate(m, DayOf(current)) then [OccurrenceTime(m, DayOf(current))] else [];
      here + Walk(m, current + MinutesPerDay, end)
  }

  /**
   * The walk visits day `d` when `d` is no earlier than the start's day and
   * `d` at the start's time of day is not past the end.
   */
  predicate InWalk(m: Messe, start: int, end: int, t: int)
  {
    && DayOf(start) <= DayOf(t)
    && StartOfDay(DayOf(t)) + TimeOfDay(start) <= end
    && ShouldCreate(m, DayOf(t))
    && TimeOfDay(t) == m.heure
  }

  /** Exact membership: the walk creates `t` iff `t` is the mass's hour on a visited, matching day. */
  lemma {:induction false} WalkMembers(m: Messe, start: int, end: int, t: int)
    ensures t in Walk(m, start, end) <==> InWalk(m, start, end, t)
    decreases end - start
  {
    DayTimeSplit(start);
    StartOfDayAtMost(DayOf(start), DayOf(t));
    if start <= end {
      NextDay(start);
      WalkMembers(m, start + MinutesPerDay, end, t);
      DayTimeSplit(t);
    }
  }

  /** Every created date follows the recurrence rule at the mass's hour. */
  lemma WalkSound(m: Messe, start: int, end: int)
    ensures forall t :: t in Walk(m, start, end) ==> DayOf(start) <= DayOf(t) && ShouldCreate(m, DayOf(t)) && TimeOfDay(t) == m.heure
  {
    forall t | t in Walk(m, start, end)
      ensures DayOf(start) <= DayOf(t) && ShouldCreate(m, DayOf(t)) && TimeOfDay(t) == m.heure
    {
      WalkMembers(m, start, end, t);
    }
  }

  predicate Increasing(s: seq<int>)
  {
    forall i, j :: 0 <= i < j < |s| ==> s[i] < s[j]
  }

  /** The created dates are strictly increasing, so no two coincide. */
  lemma {:induction false} WalkIncreasing(m: Messe, start: int, end: int)
    ensures Increasing(Walk(m, start, end))
    decreases end - start
  {
    if start <= end {
      var w := Walk(m, start, end);
      var rest := Walk(m, start + MinutesPerDay, end);
      WalkIncreasing(m, start + MinutesPerDay, end);
      if ShouldCreate(m, DayOf(start)) {
        var h := OccurrenceTime(m, DayOf(start));
        assert w == [h] + rest;
        WalkAfterDay(m, start + MinutesPerDay, end, h);
        forall i, j | 0 <= i < j < |w| ensures w[i] < w[j] {
          if i == 0 {
            assert w[j] in rest;
          } else {
            assert w[i] == rest[i - 1] && w[j] == rest[j - 1];
          }
        }
      } else {
        assert w == rest;
      }
    }
  }

  /** Every date the walk from the day after `h`'s day creates is later than `h`. */
  lemma WalkAfterDay(m: Messe, start: int, end: int, h: int)
    requires DayOf(h) < DayOf(start)
    ensures forall t :: t in Walk(m, start, end) ==> h < t
  {
    forall t | t in Walk(m, start, end) ensures h < t {
      WalkMembers(m, start, end, t);
      DayTimeSplit(t);
      DayTimeSplit(h);
    }
  }

  /** The days in `[d0, d1]` the recurrence rule matches, in order. */
  function MatchingDays(m: Messe, d0: int, d1: int): seq<int>
    decreases d1 - d0
  {
    if d0 > d1 then [] else (if ShouldCreate(m, d0) then [d0] else []) + MatchingDays(m, d0 + 1, d1)
  }

  /** Each matching day at the mass's hour. */
  function AtHour(m: Messe, days: seq<int>): (r: seq<int>)
    ensures |r| == |days|
  {
    if |days| == 0 then [] else [OccurrenceTime(m, days[0])] + AtHour(m, days[1..])
  }

  /** The last day the walk from `start` visits. */
  function LastVisitedDay(start: int, end: int): int
  {
    DayOf(end - TimeOfDay(start))
  }

  /**
   * The minute-stepping walk equals a day-by-day definition: the matching
   * days from the start's day to the last visited day, each at the mass's hour.
   */
  lemma {:induction false} WalkIsMatchingDays(m: Messe, start: int, end: int)
    ensures Walk(m, start, end) == AtHour(m, MatchingDays(m, DayOf(start), LastVisitedDay(start, end)))
    decreases end - start
  {
    DayTimeSplit(start);
    StartOfDayAtMost(DayOf(start), end - TimeOfDay(start));
    if start <= end {
      NextDay(start);
      WalkIsMatchingDays(m, start + MinutesPerDay, end);
      var rest := MatchingDays(m, DayOf(start) + 1, LastVisitedDay(start, end));
      if ShouldCreate(m, DayOf(start)) {
        assert ([DayOf(start)] + rest)[1..] == rest;
      } else {
        assert [] + rest == rest;
      }
    }
  }

  /** A daily mass matches every day of the range, so the count is the number of visited days. */
  lemma {:induction false} DailyCount(m: Messe, d0: int, d1: int)
    requires m.recurrence == Some(Quotidienne)
    ensures |MatchingDays(m, d0, d1)| == if d0 > d1 then 0 else d1 - d0 + 1
    decreases d1 - d0
  {
    if d0 <= d1 {
      DailyCount(m, d0 + 1, d1);
    }
  }

  /** The dates `generateOccurrences` creates. */
  function Planned(db: Db, m: Messe, now: int, daysAhead: int): (r: seq<int>)
    ensures Increasing(r)
    ensures forall t :: t in r ==> ShouldCreate(m, DayOf(t)) && TimeOfDay(t) == m.heure
    ensures !IsRecurrente(m) || !IsActive(m) ==> r == []
  {
    if !IsRecurrente(m) || !IsActive(m) then []
    else
      var s := WindowStart(db, m, now);
      var e := WindowEnd(m, now, daysAhead);
      WalkSound(m, s, e);
      WalkIncreasing(m, s, e);
      if s > e then [] else Walk(m, s, e)
  }

  /** Exact membership of the planned dates. */
  lemma PlannedMembers(db: Db, m: Messe, now: int, daysAhead: int, t: int)
    ensures t in Planned(db, m, now, daysAhead) <==>
      IsRecurrente(m) && IsActive(m) && InWalk(m, WindowStart(db, m, now), WindowEnd(m, now, daysAhead), t)
  {
    WalkMembers(m, WindowStart(db, m, now), WindowEnd(m, now, daysAhead), t);
  }

  /** Occurrences of mass `mid`, dated `times`, with consecutive ids from `firstId`. */
  function Materialize(mid: Id, firstId: Id, times: seq<int>): (r: seq<Occurrence>)
    ensures |r| == |times|
    ensures forall k :: 0 <= k < |r| ==> r[k] == NewOccurrence(firstId + k, Some(mid), times[k])
  {
    seq(|times|, k requires 0 <= k < |times| => NewOccurrence(firstId + k, Some(mid), times[k]))
  }

  datatype Generation = Generation(count: nat, db: Db)

  /**
   * `generateOccurrences`: appends one confirmed occurrence of the mass per
   * planned date, with fresh ids, and returns how many it created. Other
   * tables and existing rows are untouched.
   */
  function GenerateOccurrences(db: Db, m: Messe, now: int, daysAhead: int): (r: Generation)
    ensures r.count == |Planned(db, m, now, daysAhead)|
    ensures |r.db.occurrences| == |db.occurrences| + r.count
    ensures r.db.occurrences[..|db.occurrences|] == db.occurrences
    ensures r.db == db.(occurrences := r.db.occurrences)
    ensures !IsRecurrente(m) || !IsActive(m) ==> r.count == 0 && r.db == db
    ensures forall k :: 0 <= k < r.count ==>
      r.db.occurrences[|db.occurrences| + k] ==
        NewOccurrence(NextOccurrenceId(db.occurrences) + k, Some(m.id), Planned(db, m, now, daysAhead)[k])
  {
    var times := Planned(db, m, now, daysAhead);
    var occs := db.occurrences + Materialize(m.id, NextOccurrenceId(db.occurrences), times);
    assert occs[..|db.occurrences|] == db.occurrences;
    Generation(|times|, db.(occurrences := occs))
  }

  /** The generator appends exactly the planned dates, materialised with fresh ids. */
  lemma GenerationAppends(db: Db, m: Messe, now: int, daysAhead: int)
    ensures GenerateOccurrences(db, m, now, daysAhead).db.occurrences ==
      db.occurrences + Materialize(m.id, NextOccurrenceId(db.occurrences), Planned(db, m, now, daysAhead))
  {
  }

  /**
   * Each created row is a confirmed, empty occurrence of the mass with a
   * fresh id, dated at the mass's hour on a day its rule matches.
   */
  lemma CreatedRowsFollowRule(db: Db, m: Messe, now: int, daysAhead: int)
    ensures var g := GenerateOccurrences(db, m, now, daysAhead);
      forall k :: |db.occurrences| <= k < |g.db.occurrences| ==>
        && g.db.occurrences[k].messe == Some(m.id)
        && g.db.occurrences[k].statut == Confirmee
        && g.db.occurrences[k].nombreIntentions == 0
        && NextOccurrenceId(db.occurrences) <= g.db.occurrences[k].id
        && ShouldCreate(m, DayOf(g.db.occurrences[k].dateHeure))
        && TimeOfDay(g.db.occurrences[k].dateHeure) == m.heure
  {
    var times := Planned(db, m, now, daysAhead);
    WalkSound(m, WindowStart(db, m, now), WindowEnd(m, now, daysAhead));
    var created := Materialize(m.id, NextOccurrenceId(db.occurrences), times);
    assert forall k :: 0 <= k < |created| ==> created[k].dateHeure in times;
    var g := GenerateOccurrences(db, m, now, daysAhead);
    assert g.db.occurrences == db.occurrences + created;
  }

  /**
   * Completeness: the dates of the created rows are exactly the mass's hour
   * on each matching day the walk visits, for a recurring, active mass, and
   * none otherwise.
   */
  lemma CreatedDatesAreWalk(db: Db, m: Messe, now: int, daysAhead: int, t: int)
    ensures var g := GenerateOccurrences(db, m, now, daysAhead);
      (exists o :: o in g.db.occurrences[|db.occurrences|..] && o.dateHeure == t) <==>
        IsRecurrente(m) && IsActive(m) && InWalk(m, WindowStart(db, m, now), WindowEnd(m, now, daysAhead), t)
  {
    var times := Planned(db, m, now, daysAhead);
    var g := GenerateOccurrences(db, m, now, daysAhead);
    var created := g.db.occurrences[|db.occurrences|..];
    assert |created| == |times|;
    assert forall k :: 0 <= k < |created| ==> created[k].dateHeure == times[k];
    PlannedMembers(db, m, now, daysAhead, t);
    if t in times {
      var k :| 0 <= k < |times| && times[k] == t;
      assert created[k] in created;
    }
  }

  /**
   * The walk compares the start's time of day, not the mass's hour, with the
   * end: a daily 18:00 mass with no occurrence yet, generated at 12:00 with
   * no days ahead, gets today's 18:00, later than the window's end.
   */
  lemma CreatedPastWindowEnd()
    ensures var m := Messe(7, None, "", Recurrente, Some(Quotidienne), 1080, None, None, None, 0, Active, {});
      var db := Db([], [], [], [], []);
      && Planned(db, m, 720, 0) == [1080]
      && WindowEnd(m, 720, 0) < 1080
  {
    var m := Messe(7, None, "", Recurrente, Some(Quotidienne), 1080, None, None, None, 0, Active, {});
    var db := Db([], [], [], [], []);
    assert FindMaxDateForMesse(db, m) == None;
    assert WindowStart(db, m, 720) == 0;
    assert Walk(m, MinutesPerDay, 720) == [];
    assert Walk(m, 0, 720) == [OccurrenceTime(m, 0)];
  }

  /**
   * Monotonic resumption: every date created is strictly later than every
   * existing occurrence of the mass, so a run never duplicates one.
   */
  lemma GeneratedAfterExisting(db: Db, m: Messe, now: int, daysAhead: int)
    ensures forall o, t :: o in db.occurrences && o.messe == Some(m.id) && t in Planned(db, m, now, daysAhead) ==>
      o.dateHeure < t
  {
    forall o, t | o in db.occurrences && o.messe == Some(m.id) && t in Planned(db, m, now, daysAhead)
      ensures o.dateHeure < t
    {
      var last := FindMaxDateForMesse(db, m).value;
      PlannedMembers(db, m, now, daysAhead, t);
      NextDay(last);
      DayTimeSplit(last);
      DayTimeSplit(t);
    }
  }

  /** The run resumes no later in the day than the mass's hour (always so unless the hour was moved earlier). */
  predicate ResumesAtOrBeforeHour(db: Db, m: Messe)
  {
    var last := FindMaxDateForMesse(db, m);
    last.Some? ==> TimeOfDay(last.value) <= m.heure
  }

  /** After a run that created something, the mass's latest date is the last one created. */
  lemma MaxAfterGeneration(db: Db, m: Messe, now: int, daysAhead: int)
    requires Planned(db, m, now, daysAhead) != []
    ensures var w := Planned(db, m, now, daysAhead);
      FindMaxDateForMesse(GenerateOccurrences(db, m, now, daysAhead).db, m) == Some(w[|w| - 1])
  {
    var w := Planned(db, m, now, daysAhead);
    var g := GenerateOccurrences(db, m, now, daysAhead);
    var created := Materialize(m.id, NextOccurrenceId(db.occurrences), w);
    assert g.db.occurrences == db.occurrences + created;
    assert w[|w| - 1] in w;
    assert w == Walk(m, WindowStart(db, m, now), WindowEnd(m, now, daysAhead));
    WalkIncreasing(m, WindowStart(db, m, now), WindowEnd(m, now, daysAhead));
    GeneratedAfterExisting(db, m, now, daysAhead);
    MaxOfAppended(db.occurrences, m.id, NextOccurrenceId(db.occurrences), w);
  }

  /** Appending increasing dates later than a mass's existing ones makes the last of them its maximum. */
  lemma MaxOfAppended(existing: seq<Occurrence>, mid: Id, firstId: Id, w: seq<int>)
    requires w != [] && Increasing(w)
    requires forall o :: o in existing && o.messe == Some(mid) ==> o.dateHeure < w[|w| - 1]
    ensures MaxDateOf(existing + Materialize(mid, firstId, w), mid) == Some(w[|w| - 1])
  {
    var created := Materialize(mid, firstId, w);
    var all := existing + created;
    var top := w[|w| - 1];
    forall o | o in all && o.messe == Some(mid)
      ensures o.dateHeure <= top
    {
      var k :| 0 <= k < |all| && all[k] == o;
      if k < |existing| {
        assert o in existing;
      } else {
        assert created[k - |existing|] == o;
      }
    }
    assert created[|w| - 1] in all;
    MaxIsAttained(all, mid, created[|w| - 1]);
  }

  /** A mass's date that bounds all its others is the maximum. */
  lemma MaxIsAttained(s: seq<Occurrence>, mid: Id, top: Occurrence)
    requires top in s && top.messe == Some(mid)
    requires forall o :: o in s && o.messe == Some(mid) ==> o.dateHeure <= top.dateHeure
    ensures MaxDateOf(s, mid) == Some(top.dateHeure)
  {
    var r := MaxDateOf(s, mid);
    var o :| o in s && o.messe == Some(mid) && o.dateHeure == r.value;
  }

  /**
   * Idempotence: a second run with the clock unchanged creates nothing,
   * provided the run resumes no later in the day than the mass's hour; the
   * first run keeps that condition for the next one.
   */
  lemma GenerationIdempotent(db: Db, m: Messe, now: int, daysAhead: int)
    requires ResumesAtOrBeforeHour(db, m)
    ensures var g := GenerateOccurrences(db, m, now, daysAhead);
      && ResumesAtOrBeforeHour(g.db, m)
      && GenerateOccurrences(g.db, m, now, daysAhead).count == 0
      && GenerateOccurrences(g.db, m, now, daysAhead).db == g.db
  {
    var g := GenerateOccurrences(db, m, now, daysAhead);
    var w := Planned(db, m, now, daysAhead);
    if w == [] {
      NoPlanNoChange(db, m, now, daysAhead);
    } else {
      NothingPlannedAfterRun(db, m, now, daysAhead);
      NoPlanNoChange(g.db, m, now, daysAhead);
    }
  }

  /** After a run that created something, nothing more is planned and the condition still holds. */
  lemma NothingPlannedAfterRun(db: Db, m: Messe, now: int, daysAhead: int)
    requires ResumesAtOrBeforeHour(db, m)
    requires Planned(db, m, now, daysAhead) != []
    ensures var g := GenerateOccurrences(db, m, now, daysAhead);
      ResumesAtOrBeforeHour(g.db, m) && Planned(g.db, m, now, daysAhead) == []
  {
    ResumesAfterRun(db, m, now, daysAhead);
    EmptyPlanAfterRun(db, m, now, daysAhead);
  }

  lemma ResumesAfterRun(db: Db, m: Messe, now: int, daysAhead: int)
    requires ResumesAtOrBeforeHour(db, m)
    requires Planned(db, m, now, daysAhead) != []
    ensures ResumesAtOrBeforeHour(GenerateOccurrences(db, m, now, daysAhead).db, m)
  {
    MaxAfterGeneration(db, m, now, daysAhead);
    LastPlannedEnds(db, m, now, daysAhead);
  }

  lemma EmptyPlanAfterRun(db: Db, m: Messe, now: int, daysAhead: int)
    requires ResumesAtOrBeforeHour(db, m)
    requires Planned(db, m, now, daysAhead) != []
    ensures Planned(GenerateOccurrences(db, m, now, daysAhead).db, m, now, daysAhead) == []
  {
    WindowStartAfterRun(db, m, now, daysAhead);
    LastPlannedEnds(db, m, now, daysAhead);
  }

  /** The next run resumes the day after the last date this run created. */
  lemma WindowStartAfterRun(db: Db, m: Messe, now: int, daysAhead: int)
    requires Planned(db, m, now, daysAhead) != []
    ensures var w := Planned(db, m, now, daysAhead);
      WindowStart(GenerateOccurrences(db, m, now, daysAhead).db, m, now) == w[|w| - 1] + MinutesPerDay
  {
    MaxAfterGeneration(db, m, now, daysAhead);
  }

  /** The last planned date is at the mass's hour, and a walk resumed the day after it is empty. */
  lemma LastPlannedEnds(db: Db, m: Messe, now: int, daysAhead: int)
    requires ResumesAtOrBeforeHour(db, m)
    requires Planned(db, m, now, daysAhead) != []
    ensures var w := Planned(db, m, now, daysAhead);
      && TimeOfDay(w[|w| - 1]) == m.heure
      && Walk(m, w[|w| - 1] + MinutesPerDay, WindowEnd(m, now, daysAhead)) == []
  {
    var s1 := WindowStart(db, m, now);
    var e := WindowEnd(m, now, daysAhead);
    PlannedIsWalk(db, m, now, daysAhead);
    ResumeTimeOfDay(db, m, now);
    WalkLastEnds(m, s1, e);
  }

  /** A non-empty plan is the walk over the window. */
  lemma PlannedIsWalk(db: Db, m: Messe, now: int, daysAhead: int)
    requires Planned(db, m, now, daysAhead) != []
    ensures Planned(db, m, now, daysAhead) == Walk(m, WindowStart(db, m, now), WindowEnd(m, now, daysAhead))
  {
  }

  /** The same for a walk: its last date is at the mass's hour, and nothing follows it. */
  lemma WalkLastEnds(m: Messe, start: int, end: int)
    requires TimeOfDay(start) <= m.heure
    requires Walk(m, start, end) != []
    ensures var w := Walk(m, start, end);
      && TimeOfDay(w[|w| - 1]) == m.heure
      && Walk(m, w[|w| - 1] + MinutesPerDay, end) == []
  {
    var w := Walk(m, start, end);
    var top := w[|w| - 1];
    assert top in w;
    WalkMembers(m, start, end, top);
    NothingAfterLast(m, start, end, top);
  }

  /** Under the condition, the run starts no later in the day than the mass's hour. */
  lemma ResumeTimeOfDay(db: Db, m: Messe, now: int)
    requires ResumesAtOrBeforeHour(db, m)
    ensures TimeOfDay(WindowStart(db, m, now)) <= m.heure
  {
    var last := FindMaxDateForMesse(db, m);
    if last.Some? {
      NextDay(last.value);
    }
  }

  /** A run with nothing planned returns 0 and changes nothing. */
  lemma NoPlanNoChange(db: Db, m: Messe, now: int, daysAhead: int)
    requires Planned(db, m, now, daysAhead) == []
    ensures GenerateOccurrences(db, m, now, daysAhead) == Generation(0, db)
  {
    var g := GenerateOccurrences(db, m, now, daysAhead);
    assert g.db.occurrences == g.db.occurrences[..|db.occurrences|];
  }

  /**
   * A walk that starts no later in the day than the mass's hour, resumed the
   * day after its last date, creates nothing more.
   */
  lemma NothingAfterLast(m: Messe, start: int, end: int, top: int)
    requires TimeOfDay(start) <= m.heure
    requires Walk(m, start, end) != [] && top == Walk(m, start, end)[|Walk(m, start, end)| - 1]
    ensures Walk(m, top + MinutesPerDay, end) == []
  {
    var w := Walk(m, start, end);
    LastIsLatest(m, start, end, top);
    NoMatchAfterLast(m, start, end, top);
    WalkMembers(m, start, end, top);
    NextDay(top);
    WalkEmpty(m, top + MinutesPerDay, end);
  }

  /** The last date of a walk is its latest. */
  lemma LastIsLatest(m: Messe, start: int, end: int, top: int)
    requires Walk(m, start, end) != [] && top == Walk(m, start, end)[|Walk(m, start, end)| - 1]
    ensures forall x :: x in Walk(m, start, end) ==> x <= top
  {
    var w := Walk(m, start, end);
    WalkIncreasing(m, start, end);
    forall x | x in w ensures x <= top {
      var k :| 0 <= k < |w| && w[k] == x;
    }
  }

  /** No matching day after the latest date of a walk is still within its reach at the mass's hour. */
  lemma NoMatchAfterLast(m: Messe, start: int, end: int, top: int)
    requires TimeOfDay(start) <= m.heure
    requires top in Walk(m, start, end)
    requires forall x :: x in Walk(m, start, end) ==> x <= top
    ensures forall d :: DayOf(top) + 1 <= d && StartOfDay(d) + m.heure <= end ==> !ShouldCreate(m, d)
  {
    WalkMembers(m, start, end, top);
    forall d | DayOf(top) + 1 <= d && StartOfDay(d) + m.heure <= end
      ensures !ShouldCreate(m, d)
    {
      var t := OccurrenceTime(m, d);
      WalkMembers(m, start, end, t);
      DayTimeSplit(t);
      DayTimeSplit(top);
    }
  }

  /** A walk over days none of which match is empty. */
  lemma {:induction false} WalkEmpty(m: Messe, start: int, end: int)
    requires forall d :: DayOf(start) <= d && StartOfDay(d) + TimeOfDay(start) <= end ==> !ShouldCreate(m, d)
    ensures Walk(m, start, end) == []
    decreases end - start
  {
    if start <= end {
      DayTimeSplit(start);
      NextDay(start);
      WalkEmpty(m, start + MinutesPerDay, end);
    }
  }

  /**
   * Without the condition, one more occurrence can appear: a daily mass last
   * held on day 0 at 20:00 and now set at 08:00, generated on day 2 at 12:00
   * with no days ahead, gains day 1 at 08:00 and then, on the second run,
   * day 2 at 08:00.
   */
  lemma HourMovedEarlierResumesEarly()
    ensures var m := Messe(7, None, "", Recurrente, Some(Quotidienne), 480, None, None, None, 0, Active, {});
      var db := Db([], [], [], [Occurrence(1, Some(7), 1200, Confirmee, 0, {})], []);
      var g := GenerateOccurrences(db, m, 3600, 0);
      && !ResumesAtOrBeforeHour(db, m)
      && g.count == 1
      && GenerateOccurrences(g.db, m, 3600, 0).count == 1
  {
    var m := Messe(7, None, "", Recurrente, Some(Quotidienne), 480, None, None, None, 0, Active, {});
    var first := Occurrence(1, Some(7), 1200, Confirmee, 0, {});
    var db := Db([], [], [], [first], []);
    ResumeFromLast(db, m, 3600, 1200, 1);
    assert Planned(db, m, 3600, 0) == [1920];
    assert [first][1..] == [];
    assert NextOccurrenceId(db.occurrences) == 2;
    var created := Materialize(7, 2, [1920]);
    assert created == [NewOccurrence(2, Some(7), 1920)];
    var g := GenerateOccurrences(db, m, 3600, 0);
    assert g.db.occurrences == [first] + created;
    assert FindMaxDateForMesse(g.db, m) == Some(1920);
    ResumeFromLast(g.db, m, 3600, 1920, 2);
  }

  /**
   * A daily 08:00 mass whose latest occurrence is `last`, on day `d - 1`,
   * plans exactly day `d` at 08:00 when generated on day 2 at 12:00 with no
   * days ahead.
   */
  lemma ResumeFromLast(db: Db, m: Messe, now: int, last: int, d: int)
    requires m == Messe(7, None, "", Recurrente, Some(Quotidienne), 480, None, None, None, 0, Active, {})
    requires now == 3600 && 1 <= d <= 2 && DayOf(last) == d - 1
    requires last + MinutesPerDay <= now < last + 2 * MinutesPerDay
    requires FindMaxDateForMesse(db, m) == Some(last)
    ensures Planned(db, m, now, 0) == [StartOfDay(d) + 480]
  {
    NextDay(last);
    var s := last + MinutesPerDay;
    assert WindowStart(db, m, now) == s;
    assert WindowEnd(m, now, 0) == 3600;
    assert DayOf(s) == d;
    assert Walk(m, s + MinutesPerDay, 3600) == [];
    assert Walk(m, s, 3600) == [OccurrenceTime(m, d)];
  }

  /**
   * The imperative day loop of `generateOccurrences`, creating the dates in
   * order and counting them; it agrees with the recursive walk.
   */
  method GenerateLoop(m: Messe, start: int, end: int) returns (times: seq<int>, count: nat)
    ensures times == Walk(m, start, end)
    ensures count == |times|
  {
    times := [];
    count := 0;
    var current := start;
    while current <= end
      invariant times + Walk(m, current, end) == Walk(m, start, end)
      invariant count == |times|
      decreases end - current
    {
      if ShouldCreate(m, DayOf(current)) {
        times := times + [OccurrenceTime(m, DayOf(current))];
        count := count + 1;
      }
      current := current + MinutesPerDay;
    }
    assert times + [] == times;
  }

  /** One entry of `generateForAllMesses`'s result. */
  datatype Summary = Summary(messeId: Id, titre: string, paroisseNom: Option<string>, created: nat)

  function SummaryCreated(s: Summary): nat
  {
    s.created
  }

  /** `MesseRepository::findRecurrentesActives`: recurring, active masses, in table order. */
  function RecurrentesActives(db: Db): (r: seq<Messe>)
    ensures forall m :: m in r <==> m in db.messes && IsRecurrente(m) && IsActive(m)
  {
    Filter(db.messes, (m: Messe) => IsRecurrente(m) && IsActive(m))
  }

  /** Generates for each mass in turn, listing those that gained occurrences. */
  function GenerateEach(db: Db, ms: seq<Messe>, now: int, daysAhead: int): (r: (seq<Summary>, Db))
    ensures |r.0| <= |ms|
    ensures forall s :: s in r.0 ==> s.created > 0 && exists m :: m in ms && m.id == s.messeId
    ensures |r.1.occurrences| == |db.occurrences| + SumOf(r.0, SummaryCreated)
    ensures r.1.occurrences[..|db.occurrences|] == db.occurrences
    ensures r.1 == db.(occurrences := r.1.occurrences)
    decreases |ms|
  {
    if |ms| == 0 then ([], db)
    else
      var m := ms[0];
      var g := GenerateOccurrences(db, m, now, daysAhead);
      var rest := GenerateEach(g.db, ms[1..], now, daysAhead);
      var nom := match FindParoisse(db, m.paroisse) case None => None case Some(p) => Some(p.nom);
      var head := if g.count > 0 then [Summary(m.id, m.titre, nom, g.count)] else [];
      assert SumOf(head, SummaryCreated) == g.count;
      SummariesFrom(ms, head, rest.0);
      GrowthAdds(db, g.db, rest.1, head, rest.0, g.count);
      (head + rest.0, rest.1)
  }

  /** The summaries of the first mass and of the rest all come from the list. */
  lemma SummariesFrom(ms: seq<Messe>, head: seq<Summary>, rest: seq<Summary>)
    requires |ms| > 0 && |head| <= 1 && |rest| <= |ms| - 1
    requires forall s :: s in head ==> s.created > 0 && s.messeId == ms[0].id
    requires forall s :: s in rest ==> s.created > 0 && exists m :: m in ms[1..] && m.id == s.messeId
    ensures |head + rest| <= |ms|
    ensures forall s :: s in head + rest ==> s.created > 0 && exists m :: m in ms && m.id == s.messeId
  {
    forall s | s in head + rest ensures s.created > 0 && exists m :: m in ms && m.id == s.messeId {
      if s in head {
        assert ms[0] in ms;
      } else {
        var m :| m in ms[1..] && m.id == s.messeId;
        assert m in ms;
      }
    }
  }

  /** Two successive growths of the occurrences table compose. */
  lemma GrowthAdds(db: Db, mid: Db, last: Db, head: seq<Summary>, rest: seq<Summary>, count: nat)
    requires |mid.occurrences| == |db.occurrences| + count && mid.occurrences[..|db.occurrences|] == db.occurrences
    requires mid == db.(occurrences := mid.occurrences)
    requires |last.occurrences| == |mid.occurrences| + SumOf(rest, SummaryCreated)
    requires last.occurrences[..|mid.occurrences|] == mid.occurrences
    requires last == mid.(occurrences := last.occurrences)
    requires SumOf(head, SummaryCreated) == count
    ensures |last.occurrences| == |db.occurrences| + SumOf(head + rest, SummaryCreated)
    ensures last.occurrences[..|db.occurrences|] == db.occurrences
    ensures last == db.(occurrences := last.occurrences)
  {
    SumOfConcat(head, rest, SummaryCreated);
    PrefixTransitive(db.occurrences, mid.occurrences, last.occurrences);
  }

  /**
   * `generateForAllMesses`: every recurring, active mass is generated; the
   * result lists, in order, the masses that gained occurrences, and the
   * table grew by exactly the counts listed.
   */
  function GenerateForAllMesses(db: Db, now: int, daysAhead: int): (r: (seq<Summary>, Db))
    ensures forall s :: s in r.0 ==>
      s.created > 0 && exists m :: m in db.messes && IsRecurrente(m) && IsActive(m) && m.id == s.messeId
    ensures |r.1.occurrences| == |db.occurrences| + SumOf(r.0, SummaryCreated)
    ensures r.1.occurrences[..|db.occurrences|] == db.occurrences
    ensures r.1 == db.(occurrences := r.1.occurrences)
  {
    GenerateEach(db, RecurrentesActives(db), now, daysAhead)
  }

  /** No two masses of the list share an id. */
  ghost predicate DistinctMesseIds(ms: seq<Messe>)
  {
    forall a, b :: 0 <= a < b < |ms| ==> ms[a].id != ms[b].id
  }

  /** Keeping some of the masses keeps their ids distinct. */
  lemma {:induction false} FilterKeepsDistinct(ms: seq<Messe>, p: Messe -> bool)
    requires DistinctMesseIds(ms)
    ensures DistinctMesseIds(Filter(ms, p))
    decreases |ms|
  {
    if |ms| > 0 {
      var tail := ms[1..];
      assert DistinctMesseIds(tail) by {
        forall a, b | 0 <= a < b < |tail| ensures tail[a].id != tail[b].id {
          assert tail[a] == ms[a + 1] && tail[b] == ms[b + 1];
        }
      }
      FilterKeepsDistinct(tail, p);
      var rest := Filter(tail, p);
      var head: seq<Messe> := if p(ms[0]) then [ms[0]] else [];
      var f := head + rest;
      assert Filter(ms, p) == f;
      forall b | 0 <= b < |rest| ensures rest[b].id != ms[0].id {
        assert rest[b] in tail;
        var k :| 0 <= k < |tail| && tail[k] == rest[b];
        assert ms[k + 1] == rest[b];
      }
      forall a, b | 0 <= a < b < |f| ensures f[a].id != f[b].id {
        if |head| == 1 && a == 0 {
          assert f[b] == rest[b - 1];
        } else {
          assert f[a] == rest[a - |head|] && f[b] == rest[b - |head|];
        }
      }
    }
  }

  /** Rows of other masses appended to the table do not move a mass's latest date. */
  lemma MaxDateIgnoresOthers(s: seq<Occurrence>, extra: seq<Occurrence>, mid: Id)
    requires forall o :: o in extra ==> o.messe != Some(mid)
    ensures MaxDateOf(s + extra, mid) == MaxDateOf(s, mid)
  {
    var a := MaxDateOf(s + extra, mid);
    var b := MaxDateOf(s, mid);
    if b.Some? {
      var o :| o in s && o.messe == Some(mid) && o.dateHeure == b.value;
      assert o in s + extra;
    }
    if a.Some? {
      var o :| o in s + extra && o.messe == Some(mid) && o.dateHeure == a.value;
      assert o in s;
    }
  }

  /** The plan reads the table only through the mass's latest date. */
  lemma PlannedDependsOnMax(db1: Db, db2: Db, m: Messe, now: int, daysAhead: int)
    requires FindMaxDateForMesse(db1, m) == FindMaxDateForMesse(db2, m)
    ensures Planned(db1, m, now, daysAhead) == Planned(db2, m, now, daysAhead)
  {
    assert WindowStart(db1, m, now) == WindowStart(db2, m, now);
  }

  /** The rows `GenerateOccurrences` appends all belong to its mass. */
  lemma AppendedRowsOfMass(db: Db, m: Messe, now: int, daysAhead: int)
    ensures var g := GenerateOccurrences(db, m, now, daysAhead);
      && g.db.occurrences == db.occurrences + g.db.occurrences[|db.occurrences|..]
      && forall o :: o in g.db.occurrences[|db.occurrences|..] ==> o.messe == Some(m.id)
  {
    var g := GenerateOccurrences(db, m, now, daysAhead);
    var extra := g.db.occurrences[|db.occurrences|..];
    forall o | o in extra ensures o.messe == Some(m.id) {
      var k :| 0 <= k < |extra| && extra[k] == o;
      assert extra[k] == g.db.occurrences[|db.occurrences| + k];
    }
  }

  /** Generating one mass leaves the plan of every other mass as it was. */
  lemma GenerationKeepsOtherPlans(db: Db, m: Messe, other: Messe, now: int, daysAhead: int)
    requires other.id != m.id
    ensures Planned(GenerateOccurrences(db, m, now, daysAhead).db, other, now, daysAhead) == Planned(db, other, now, daysAhead)
  {
    var g := GenerateOccurrences(db, m, now, daysAhead);
    var extra := g.db.occurrences[|db.occurrences|..];
    AppendedRowsOfMass(db, m, now, daysAhead);
    MaxDateIgnoresOthers(db.occurrences, extra, other.id);
    PlannedDependsOnMax(g.db, db, other, now, daysAhead);
  }

  /** Dropping the first mass keeps the ids distinct, and none of the rest shares its id. */
  lemma DistinctTail(ms: seq<Messe>)
    requires DistinctMesseIds(ms) && |ms| > 0
    ensures DistinctMesseIds(ms[1..])
    ensures forall x :: x in ms[1..] ==> x.id != ms[0].id
  {
    var tail := ms[1..];
    forall a, b | 0 <= a < b < |tail| ensures tail[a].id != tail[b].id {
      assert tail[a] == ms[a + 1] && tail[b] == ms[b + 1];
    }
    forall x | x in tail ensures x.id != ms[0].id {
      var k :| 0 <= k < |tail| && tail[k] == x;
      assert ms[k + 1] == x;
    }
  }

  /**
   * One step of `GenerateEach`: the summaries are those of the rest, plus,
   * when the first mass gained rows, one for it with its count.
   */
  lemma EachStep(db: Db, ms: seq<Messe>, now: int, daysAhead: int)
    requires |ms| > 0
    ensures var g := GenerateOccurrences(db, ms[0], now, daysAhead);
      var r := GenerateEach(db, ms, now, daysAhead).0;
      var rest := GenerateEach(g.db, ms[1..], now, daysAhead).0;
      && (forall s :: s in rest ==> s in r)
      && (forall s :: s in r ==> s in rest || (s.messeId == ms[0].id && s.created == g.count))
      && (g.count > 0 ==> exists s :: s in r && s.messeId == ms[0].id)
  {
    var m := ms[0];
    var g := GenerateOccurrences(db, m, now, daysAhead);
    var rest := GenerateEach(g.db, ms[1..], now, daysAhead);
    var nom := match FindParoisse(db, m.paroisse) case None => None case Some(p) => Some(p.nom);
    var head := if g.count > 0 then [Summary(m.id, m.titre, nom, g.count)] else [];
    var r := GenerateEach(db, ms, now, daysAhead);
    assert r.0 == head + rest.0;
    if g.count > 0 {
      assert head[0] in r.0;
    }
  }

  /**
   * Generating a list of masses with distinct ids lists the mass at `j`
   * exactly when its plan, taken before the run, is not empty, with the
   * size of that plan as its count.
   */
  lemma {:induction false} GenerateEachCovers(db: Db, ms: seq<Messe>, now: int, daysAhead: int, j: nat)
    requires DistinctMesseIds(ms) && j < |ms|
    ensures var r := GenerateEach(db, ms, now, daysAhead);
      var n := |Planned(db, ms[j], now, daysAhead)|;
      && (n > 0 <==> exists s :: s in r.0 && s.messeId == ms[j].id)
      && (forall s :: s in r.0 && s.messeId == ms[j].id ==> s.created == n)
    decreases |ms|
  {
    var tail := ms[1..];
    var g := GenerateOccurrences(db, ms[0], now, daysAhead);
    var rest := GenerateEach(g.db, tail, now, daysAhead).0;
    EachStep(db, ms, now, daysAhead);
    DistinctTail(ms);
    if j == 0 {
      forall s | s in rest ensures s.messeId != ms[0].id {
        var x :| x in tail && x.id == s.messeId;
      }
    } else {
      assert tail[j - 1] == ms[j];
      assert ms[j] in tail;
      GenerateEachCovers(g.db, tail, now, daysAhead, j - 1);
      GenerationKeepsOtherPlans(db, ms[0], ms[j], now, daysAhead);
    }
  }

  /**
   * `generateForAllMesses` with distinct mass ids: every recurring, active
   * mass is listed exactly when it had something planned, with the number
   * of dates planned for it.
   */
  lemma GenerateForAllCovers(db: Db, m: Messe, now: int, daysAhead: int)
    requires UniqueKeys(db)
    requires m in db.messes && IsRecurrente(m) && IsActive(m)
    ensures var r := GenerateForAllMesses(db, now, daysAhead);
      var n := |Planned(db, m, now, daysAhead)|;
      && (n > 0 <==> exists s :: s in r.0 && s.messeId == m.id)
      && (forall s :: s in r.0 && s.messeId == m.id ==> s.created == n)
  {
    var ms := RecurrentesActives(db);
    assert DistinctMesseIds(db.messes);
    FilterKeepsDistinct(db.messes, (x: Messe) => IsRecurrente(x) && IsActive(x));
    assert m in ms;
    var j :| 0 <= j < |ms| && ms[j] == m;
    GenerateEachCovers(db, ms, now, daysAhead, j);
  }
}

=== FILE: occurrence_messe.dfy ===
/** Behaviour of the OccurrenceMesse entity: defaults, the intention counter, bookability. */
module OccurrenceEntity {
  import opened Wrappers
  import opened Entities
  import Calendar

  /** A new occurrence is confirmed, with no intentions counted. */
  function NewOccurrence(id: Id, messe: Option<Id>, dateHeure: int): (o: Occurrence)
    ensures o.statut == Confirmee && o.nombreIntentions == 0 && o.intentions == {}
    ensures o.id == id && o.messe == messe && o.dateHeure == dateHeure
  {
    Occurrence(id, messe, dateHeure, Confirmee, 0, {})
  }

  predicate IsConfirmee(o: Occurrence)
  {
    o.statut == Confirmee
  }

  predicate IsAnnulee(o: Occurrence)
  {
    o.statut == Annulee
  }

  /** Exactly one of `isConfirmee` and `isAnnulee` holds. */
  lemma ConfirmeeXorAnnulee(o: Occurrence)
    ensures IsConfirmee(o) != IsAnnulee(o)
  {
  }

  /** `incrementNombreIntentions`: one more, nothing else changes. */
  function IncrementNombreIntentions(o: Occurrence): (r: Occurrence)
    ensures r.nombreIntentions == o.nombreIntentions + 1
    ensures r.(nombreIntentions := o.nombreIntentions) == o
  {
    o.(nombreIntentions := o.nombreIntentions + 1)
  }

  /**
   * `addIntention`: an intention not yet attached is added, pointed at this
   * occurrence and counted; one already attached changes nothing.
   */
  function AddIntention(o: Occurrence, i: Intention): (r: (Occurrence, Intention))
    ensures i.id !in o.intentions ==> r.0.nombreIntentions == o.nombreIntentions + 1
    ensures i.id !in o.intentions ==> r.0.intentions == o.intentions + {i.id}
    ensures i.id !in o.intentions ==> r.1 == i.(occurrence := Some(o.id))
    ensures r.0.(nombreIntentions := o.nombreIntentions, intentions := o.intentions) == o
    ensures i.id in o.intentions ==> r == (o, i)
  {
    if i.id in o.intentions then (o, i)
    else
      (IncrementNombreIntentions(o.(intentions := o.intentions + {i.id})), i.(occurrence := Some(o.id)))
  }

  /** Attaching the same intention twice counts it once. */
  lemma AddIntentionIdempotent(o: Occurrence, i: Intention)
    ensures AddIntention(AddIntention(o, i).0, AddIntention(o, i).1) == AddIntention(o, i)
  {
  }

  /**
   * `removeIntention`: an attached intention is detached (its back reference
   * cleared if it pointed here) and the counter drops by one, floored at 0;
   * an intention not attached changes nothing.
   */
  function RemoveIntention(o: Occurrence, i: Intention): (r: (Occurrence, Intention))
    ensures i.id in o.intentions ==> r.0.intentions == o.intentions - {i.id}
    ensures i.id in o.intentions ==> r.0.nombreIntentions >= 0
    ensures i.id in o.intentions && o.nombreIntentions > 0 ==> r.0.nombreIntentions == o.nombreIntentions - 1
    ensures i.id in o.intentions && i.occurrence == Some(o.id) ==> r.1.occurrence.None?
    ensures i.occurrence != Some(o.id) ==> r.1 == i
    ensures i.id in o.intentions && o.nombreIntentions <= 1 ==> r.0.nombreIntentions == 0
    ensures r.0.(nombreIntentions := o.nombreIntentions, intentions := o.intentions) == o
    ensures r.1.(occurrence := i.occurrence) == i
    ensures i.id !in o.intentions ==> r == (o, i)
  {
    if i.id !in o.intentions then (o, i)
    else
      var i' := if i.occurrence == Some(o.id) then i.(occurrence := None) else i;
      var n := if o.nombreIntentions - 1 > 0 then o.nombreIntentions - 1 else 0;
      (o.(intentions := o.intentions - {i.id}, nombreIntentions := n), i')
  }

  /** Detaching a freshly attached intention restores a non-negative counter. */
  lemma RemoveUndoesAdd(o: Occurrence, i: Intention)
    requires i.id !in o.intentions && o.nombreIntentions >= 0
    ensures RemoveIntention(AddIntention(o, i).0, AddIntention(o, i).1).0 == o
  {
    assert o.intentions + {i.id} - {i.id} == o.intentions;
  }

  /** `Paroisse::getDateLimiteIntention`: now plus the parish's minimum notice in days. */
  function DateLimiteIntention(p: Paroisse, now: int): (r: int)
    ensures Calendar.DayOf(r) == Calendar.DayOf(now) + p.delaiMinimumJours
    ensures Calendar.TimeOfDay(r) == Calendar.TimeOfDay(now)
  {
    Calendar.DayTimeSplit(now);
    Calendar.DayOfTimeOnDay(Calendar.DayOf(now) + p.delaiMinimumJours, Calendar.TimeOfDay(now));
    now + p.delaiMinimumJours * Calendar.MinutesPerDay
  }

  /**
   * `canReceiveIntentions`: confirmed, with a reachable parish, and strictly
   * later than that parish's notice limit.
   */
  predicate CanReceiveIntentions(o: Occurrence, paroisse: Option<Paroisse>, now: int)
  {
    && IsConfirmee(o)
    && paroisse.Some?
    && o.dateHeure > DateLimiteIntention(paroisse.value, now)
  }

  /** A cancelled occurrence, or one without a parish, takes no intentions at any time. */
  lemma NotBookableWithoutConfirmationOrParish(o: Occurrence, paroisse: Option<Paroisse>, now: int)
    requires IsAnnulee(o) || paroisse.None?
    ensures !CanReceiveIntentions(o, paroisse, now)
  {
  }

  /**
   * The notice limit is strict, and bookability only ever closes: an
   * occurrence bookable at some instant was bookable at every earlier one.
   */
  lemma BookabilityCloses(o: Occurrence, p: Paroisse, earlier: int, now: int)
    requires earlier <= now
    ensures CanReceiveIntentions(o, Some(p), now) ==> CanReceiveIntentions(o, Some(p), earlier)
    ensures o.dateHeure == DateLimiteIntention(p, now) ==> !CanReceiveIntentions(o, Some(p), now)
  {
  }
}

=== FILE: occurrence_repository.dfy ===
/**
 * The occurrence queries: a mass's occurrences, a parish's bookable
 * occurrences, occurrences in a date window, and the latest occurrence date
 * of a mass (which the generator resumes from).
 */
module OccurrenceRepository {
  import opened Wrappers
  import opened Tables
  import opened Entities
  import opened OccurrenceEntity

  /** The `ORDER BY o.dateHeure` key. */
  function DateKey(o: Occurrence): int
  {
    o.dateHeure
  }

  /** `WHERE o.messe = :messe`. */
  function OfMesse(mid: Id): Occurrence -> bool
  {
    (o: Occurrence) => o.messe == Some(mid)
  }

  /** `findByMesse`: the mass's occurrences, earliest first. */
  function FindByMesse(db: Db, m: Messe): (r: seq<Occurrence>)
    ensures SortedBy(r, DateKey)
    ensures multiset(r) == multiset(Filter(db.occurrences, OfMesse(m.id)))
    ensures forall o :: o in r <==> o in db.occurrences && o.messe == Some(m.id)
  {
    var f := Filter(db.occurrences, OfMesse(m.id));
    var r := SortBy(f, DateKey);
    PermutationMembers(r, f);
    r
  }

  /** Latest `dateHeure` among the rows of `s` belonging to mass `mid`. */
  function MaxDateOf(s: seq<Occurrence>, mid: Id): (r: Option<int>)
    ensures r.None? <==> forall o :: o in s ==> o.messe != Some(mid)
    ensures r.Some? ==> exists o :: o in s && o.messe == Some(mid) && o.dateHeure == r.value
    ensures forall o :: o in s && o.messe == Some(mid) ==> r.Some? && o.dateHeure <= r.value
  {
    if |s| == 0 then None
    else
      assert forall o :: o in s ==> o == s[0] || o in s[1..];
      var rest := MaxDateOf(s[1..], mid);
      if s[0].messe != Some(mid) then rest
      else if rest.Some? && rest.value > s[0].dateHeure then rest
      else Some(s[0].dateHeure)
  }

  /** `findMaxDateForMesse`: `MAX(o.dateHeure)` for the mass, or null when it has none. */
  function FindMaxDateForMesse(db: Db, m: Messe): (r: Option<int>)
    ensures r.None? <==> forall o :: o in db.occurrences ==> o.messe != Some(m.id)
    ensures r.Some? ==> exists o :: o in db.occurrences && o.messe == Some(m.id) && o.dateHeure == r.value
    ensures forall o :: o in db.occurrences && o.messe == Some(m.id) ==> o.dateHeure <= r.value
  {
    MaxDateOf(db.occurrences, m.id)
  }

  /** The maximum is the date of the last occurrence `findByMesse` lists. */
  lemma MaxIsLastOfFindByMesse(db: Db, m: Messe)
    ensures var all := FindByMesse(db, m);
      FindMaxDateForMesse(db, m) == if |all| == 0 then None else Some(all[|all| - 1].dateHeure)
  {
    MaxIsLastOfSorted(db.occurrences, m.id, FindByMesse(db, m), FindMaxDateForMesse(db, m));
  }

  /** The same for any sorted listing of the mass's rows and any attained upper bound of their dates. */
  lemma MaxIsLastOfSorted(occs: seq<Occurrence>, mid: Id, all: seq<Occurrence>, r: Option<int>)
    requires SortedBy(all, DateKey)
    requires forall o :: o in all <==> o in occs && o.messe == Some(mid)
    requires r.None? <==> forall o :: o in occs ==> o.messe != Some(mid)
    requires r.Some? ==> exists o :: o in occs && o.messe == Some(mid) && o.dateHeure == r.value
    requires r.Some? ==> forall o :: o in occs && o.messe == Some(mid) ==> o.dateHeure <= r.value
    ensures r == if |all| == 0 then None else Some(all[|all| - 1].dateHeure)
  {
    if |all| == 0 {
      forall o | o in occs
        ensures o.messe != Some(mid)
      {
        assert o !in all;
      }
    } else {
      var last := all[|all| - 1];
      assert last in all;
      var o :| o in occs && o.messe == Some(mid) && o.dateHeure == r.value;
      assert o in all;
      var k :| 0 <= k < |all| && all[k] == o;
      SortedLast(all, DateKey, k);
    }
  }

  /**
   * `findUpcomingByParoisse`'s `WHERE`: the occurrence's mass belongs to the
   * parish, it is confirmed, and it is strictly after the notice limit.
   */
  function UpcomingOf(db: Db, p: Paroisse, now: int): Occurrence -> bool
  {
    (o: Occurrence) =>
      && ParoisseIdOfOccurrence(db, o) == Some(p.id)
      && o.dateHeure > DateLimiteIntention(p, now)
      && o.statut == Confirmee
  }

  /** `findUpcomingByParoisse`: the earliest bookable occurrences of the parish, at most `limit`. */
  function FindUpcomingByParoisse(db: Db, p: Paroisse, now: int, limit: nat): (r: seq<Occurrence>)
    ensures |r| <= limit
    ensures SortedBy(r, DateKey)
    ensures forall o :: o in r ==> o in db.occurrences && UpcomingOf(db, p, now)(o)
    ensures |Filter(db.occurrences, UpcomingOf(db, p, now))| <= limit ==>
      forall o :: o in db.occurrences && UpcomingOf(db, p, now)(o) ==> o in r
    ensures var n := |Filter(db.occurrences, UpcomingOf(db, p, now))|;
      |r| == if limit < n then limit else n
    ensures forall o, x :: o in db.occurrences && UpcomingOf(db, p, now)(o) && x in r && o.dateHeure < x.dateHeure ==>
      o in r
    ensures multiset(r) <= multiset(Filter(db.occurrences, UpcomingOf(db, p, now)))
  {
    var f := Filter(db.occurrences, UpcomingOf(db, p, now));
    var sorted := SortBy(f, DateKey);
    PermutationMembers(sorted, f);
    TakeOfSorted(sorted, limit);
    TakeSubMultiset(sorted, limit);
    Take(sorted, limit)
  }

  lemma TakeOfSorted(s: seq<Occurrence>, n: nat)
    requires SortedBy(s, DateKey)
    ensures SortedBy(Take(s, n), DateKey)
    ensures forall o :: o in Take(s, n) ==> o in s
    ensures |s| <= n ==> Take(s, n) == s
    ensures forall o, x :: o in s && x in Take(s, n) && DateKey(o) < DateKey(x) ==> o in Take(s, n)
  {
    var r := Take(s, n);
    forall o | o in r ensures o in s {
      var k :| 0 <= k < |r| && r[k] == o;
      assert s[k] == o;
    }
    forall o, x | o in s && x in r && DateKey(o) < DateKey(x) ensures o in r {
      var i :| 0 <= i < |s| && s[i] == o;
      var j :| 0 <= j < |r| && r[j] == x;
      assert s[j] == x;
      assert i < j;
      assert r[i] == o;
    }
  }

  /** With primary keys, a parish row in the table is the row its id finds. */
  lemma FindParoisseOfRow(db: Db, p: Paroisse)
    requires UniqueKeys(db)
    requires p in db.paroisses
    ensures FindParoisse(db, Some(p.id)) == Some(p)
  {
    var r := FindParoisse(db, Some(p.id));
    assert r.Some?;
    var i :| 0 <= i < |db.paroisses| && db.paroisses[i] == r.value;
    var j :| 0 <= j < |db.paroisses| && db.paroisses[j] == p;
    assert db.paroisses[i].id == db.paroisses[j].id;
    assert i == j;
  }

  /**
   * The query agrees with the entity: every occurrence it lists can receive
   * intentions at the same instant, judged through its own mass's parish.
   */
  lemma UpcomingAreBookable(db: Db, p: Paroisse, now: int, limit: nat)
    requires UniqueKeys(db)
    requires p in db.paroisses
    ensures forall o :: o in FindUpcomingByParoisse(db, p, now, limit) ==>
      CanReceiveIntentions(o, ParoisseOfOccurrence(db, o), now)
  {
    FindParoisseOfRow(db, p);
  }

  /** `findByDateRange`'s `WHERE`: a mass row exists (inner join), inside `[start, end]`, in the parish if one is given. */
  function InRange(db: Db, start: int, end: int, paroisse: Option<Paroisse>): Occurrence -> bool
  {
    (o: Occurrence) =>
      && FindMesse(db, o.messe).Some?
      && start <= o.dateHeure <= end
      && (paroisse.Some? ==> ParoisseIdOfOccurrence(db, o) == Some(paroisse.value.id))
  }

  /** `findByDateRange`: occurrences in the inclusive window, earliest first. */
  function FindByDateRange(db: Db, start: int, end: int, paroisse: Option<Paroisse>): (r: seq<Occurrence>)
    ensures SortedBy(r, DateKey)
    ensures multiset(r) == multiset(Filter(db.occurrences, InRange(db, start, end, paroisse)))
    ensures forall o :: o in r ==> o in db.occurrences && start <= o.dateHeure <= end
  {
    var f := Filter(db.occurrences, InRange(db, start, end, paroisse));
    var r := SortBy(f, DateKey);
    PermutationMembers(r, f);
    r
  }

  /** An empty window finds nothing; a parish restriction only removes rows. */
  lemma DateRangeNarrowing(db: Db, start: int, end: int, p: Paroisse)
    ensures end < start ==> FindByDateRange(db, start, end, None) == []
    ensures |FindByDateRange(db, start, end, Some(p))| <= |FindByDateRange(db, start, end, None)|
  {
    var all := Filter(db.occurrences, InRange(db, start, end, None));
    var some := Filter(db.occurrences, InRange(db, start, end, Some(p)));
    FilterStrongerIsSmaller(db.occurrences, InRange(db, start, end, None), InRange(db, start, end, Some(p)), (o: Occurrence) => 0);
    PermutationMembers(FindByDateRange(db, start, end, None), all);
    PermutationMembers(FindByDateRange(db, start, end, Some(p)), some);
    if end < start {
      assert |all| == 0;
    }
  }
}

=== FILE: paroisse_voter.dfy ===
/** Who may view and edit a parish, manage its finances and manage its masses. */
module ParoisseVoter {
  import opened Wrappers
  import opened Entities
  import opened Security

  const View := "PAROISSE_VIEW"
  const Edit := "PAROISSE_EDIT"
  const ManageFinances := "PAROISSE_MANAGE_FINANCES"
  const ManageMesses := "PAROISSE_MANAGE_MESSES"

  predicate Supports(attribute: string, subject: Subject)
  {
    attribute in {View, Edit, ManageFinances, ManageMesses} && subject.ParoisseSubject?
  }

  /** `$user->getDiocese() === $paroisse->getDiocese()`, null equal to null. */
  predicate SameDiocese(p: Paroisse, u: User)
  {
    u.diocese == p.diocese
  }

  predicate OwnParoisse(p: Paroisse, u: User)
  {
    u.paroisse == Some(p.id)
  }

  predicate CanView(db: Db, p: Paroisse, u: User)
  {
    if IsSuperUser(u) then true
    else if IsAdminDiocese(u) then SameDiocese(p, u)
    else if OwnParoisse(p, u) then true
    else DioceseActiveOf(db, Some(p))
  }

  predicate CanEdit(p: Paroisse, u: User)
  {
    if IsSuperUser(u) then true
    else if IsAdminDiocese(u) then SameDiocese(p, u)
    else if IsAdminParoisse(u) then OwnParoisse(p, u)
    else false
  }

  predicate CanManageFinances(p: Paroisse, u: User)
  {
    if IsSuperUser(u) then true
    else if IsAdminDiocese(u) then SameDiocese(p, u)
    else if IsAdminParoisse(u) then OwnParoisse(p, u)
    else false
  }

  predicate CanManageMesses(p: Paroisse, u: User)
  {
    if IsSuperUser(u) then true
    else if IsAdminDiocese(u) then SameDiocese(p, u)
    else if IsAdminParoisse(u) || IsSecretaire(u) then OwnParoisse(p, u)
    else false
  }

  predicate VoteOnAttribute(db: Db, attribute: string, p: Paroisse, token: Token)
  {
    token.AppUser? &&
      if attribute == View then CanView(db, p, token.user)
      else if attribute == Edit then CanEdit(p, token.user)
      else if attribute == ManageFinances then CanManageFinances(p, token.user)
      else if attribute == ManageMesses then CanManageMesses(p, token.user)
      else false
  }

  function Vote(db: Db, token: Token, attribute: string, subject: Subject): (r: Decision)
    ensures r == Abstain <==> !Supports(attribute, subject)
    ensures token.NotAUser? ==> (r == Denied <==> Supports(attribute, subject))
  {
    Decide(Supports(attribute, subject), subject.ParoisseSubject? && VoteOnAttribute(db, attribute, subject.paroisse, token))
  }

  /** Editing a parish and managing its finances are always decided alike. */
  lemma EditIsManageFinances(db: Db, token: Token, p: Paroisse)
    ensures Vote(db, token, Edit, ParoisseSubject(p)) == Vote(db, token, ManageFinances, ParoisseSubject(p))
  {
  }

  /**
   * Managing masses is editing plus the secretary of the parish: whoever may
   * edit may manage masses, and the only ones who gain are secretaries of
   * their own parish.
   */
  lemma ManageMessesExtendsEdit(db: Db, u: User, p: Paroisse)
    ensures Vote(db, AppUser(u), Edit, ParoisseSubject(p)) == Granted ==>
      Vote(db, AppUser(u), ManageMesses, ParoisseSubject(p)) == Granted
    ensures
      (Vote(db, AppUser(u), ManageMesses, ParoisseSubject(p)) == Granted && Vote(db, AppUser(u), Edit, ParoisseSubject(p)) != Granted)
      ==> IsSecretaire(u) && OwnParoisse(p, u) && !IsSuperUser(u) && !IsAdminDiocese(u) && !IsAdminParoisse(u)
  {
  }

  /** A diocese admin who is not a super user is decided by diocese equality alone, on every attribute. */
  lemma AdminDioceseByDiocese(db: Db, u: User, p: Paroisse, attribute: string)
    requires attribute in {View, Edit, ManageFinances, ManageMesses}
    requires IsAdminDiocese(u) && !IsSuperUser(u)
    ensures Vote(db, AppUser(u), attribute, ParoisseSubject(p)) == Granted <==> SameDiocese(p, u)
  {
  }

  /**
   * Viewing for a user with neither role: their own parish, or any parish
   * whose diocese exists and is active.
   */
  lemma ViewByOthers(db: Db, u: User, p: Paroisse)
    requires !IsSuperUser(u) && !IsAdminDiocese(u)
    ensures Vote(db, AppUser(u), View, ParoisseSubject(p)) == Granted <==>
      OwnParoisse(p, u) || DioceseActiveOf(db, Some(p))
    ensures p.diocese.None? && !OwnParoisse(p, u) ==> Vote(db, AppUser(u), View, ParoisseSubject(p)) == Denied
  {
  }

  /**
   * The policy for editing, finances and masses by role: a super user is
   * granted all three on every parish; a parish admin (no higher role) is
   * granted exactly on their own parish; a secretary (no admin role) is
   * denied editing and finances and manages masses exactly on their own
   * parish; a user with none of the four roles is denied all three.
   */
  lemma Policy(db: Db, u: User, p: Paroisse)
    ensures IsSuperUser(u) ==>
      && Vote(db, AppUser(u), View, ParoisseSubject(p)) == Granted
      && Vote(db, AppUser(u), Edit, ParoisseSubject(p)) == Granted
      && Vote(db, AppUser(u), ManageFinances, ParoisseSubject(p)) == Granted
      && Vote(db, AppUser(u), ManageMesses, ParoisseSubject(p)) == Granted
    ensures !IsSuperUser(u) && !IsAdminDiocese(u) && IsAdminParoisse(u) ==>
      && (Vote(db, AppUser(u), Edit, ParoisseSubject(p)) == Granted <==> OwnParoisse(p, u))
      && (Vote(db, AppUser(u), ManageFinances, ParoisseSubject(p)) == Granted <==> OwnParoisse(p, u))
      && (Vote(db, AppUser(u), ManageMesses, ParoisseSubject(p)) == Granted <==> OwnParoisse(p, u))
    ensures !IsSuperUser(u) && !IsAdminDiocese(u) && !IsAdminParoisse(u) && IsSecretaire(u) ==>
      && Vote(db, AppUser(u), Edit, ParoisseSubject(p)) == Denied
      && Vote(db, AppUser(u), ManageFinances, ParoisseSubject(p)) == Denied
      && (Vote(db, AppUser(u), ManageMesses, ParoisseSubject(p)) == Granted <==> OwnParoisse(p, u))
    ensures !IsSuperUser(u) && !IsAdminDiocese(u) && !IsAdminParoisse(u) && !IsSecretaire(u) ==>
      && Vote(db, AppUser(u), Edit, ParoisseSubject(p)) == Denied
      && Vote(db, AppUser(u), ManageFinances, ParoisseSubject(p)) == Denied
      && Vote(db, AppUser(u), ManageMesses, ParoisseSubject(p)) == Denied
  {
  }
}

=== FILE: php_strings.dfy ===
/**
 * The few PHP string primitives the core relies on: `trim`, string
 * falsiness (`empty`, `?:`), ASCII `strtoupper`, `preg_replace('/[^0-9]/', '', ...)`,
 * `bin2hex` and integer-to-string conversion.
 */
module PhpStrings {
  import opened Wrappers

  /** The characters `trim` strips by default: space, tab, LF, CR, NUL and vertical tab. */
  predicate IsTrimmed(c: char)
  {
    c == ' ' || c == '\t' || c == '\n' || c == '\r' || c == '\0' || c == '\U{000B}'
  }

  /** Number of strippable characters at the start of `s`. */
  function LeadingSpaces(s: string): (k: nat)
    ensures k <= |s|
    ensures forall i :: 0 <= i < k ==> IsTrimmed(s[i])
    ensures k < |s| ==> !IsTrimmed(s[k])
  {
    if |s| == 0 || !IsTrimmed(s[0]) then 0 else 1 + LeadingSpaces(s[1..])
  }

  /** Number of strippable characters at the end of `s`. */
  function TrailingSpaces(s: string): (k: nat)
    ensures k <= |s|
    ensures forall i :: |s| - k <= i < |s| ==> IsTrimmed(s[i])
    ensures k < |s| ==> !IsTrimmed(s[|s| - k - 1])
  {
    if |s| == 0 || !IsTrimmed(s[|s| - 1]) then 0 else 1 + TrailingSpaces(s[..|s| - 1])
  }

  /** PHP `trim`: `s` without its leading and trailing strippable characters. */
  function Trim(s: string): (r: string)
    ensures |r| > 0 ==> !IsTrimmed(r[0]) && !IsTrimmed(r[|r| - 1])
    ensures |r| <= |s|
  {
    var t := s[LeadingSpaces(s)..];
    t[..|t| - TrailingSpaces(t)]
  }

  /** Trimming an already trimmed string changes nothing. */
  lemma TrimIdempotent(s: string)
    ensures Trim(Trim(s)) == Trim(s)
  {
    var r := Trim(s);
    TrimOfTrimmed(r);
  }

  lemma TrimOfTrimmed(r: string)
    requires |r| > 0 ==> !IsTrimmed(r[0]) && !IsTrimmed(r[|r| - 1])
    ensures Trim(r) == r
  {
    assert LeadingSpaces(r) == 0;
    assert r[0..] == r;
    assert TrailingSpaces(r) == 0;
  }

  /** PHP's `empty($s)` on a string, and its falsiness in `?:` and `if`: `""` and `"0"`. */
  predicate PhpEmpty(s: string)
  {
    s == "" || s == "0"
  }

  /** Truthiness of a nullable string. */
  predicate Truthy(o: Option<string>)
  {
    o.Some? && !PhpEmpty(o.value)
  }

  /** `$s ?: null`: a falsy value becomes null. */
  function NullIfFalsy(o: Option<string>): (r: Option<string>)
    ensures r.Some? <==> Truthy(o)
    ensures r.Some? ==> r == o
  {
    if Truthy(o) then o else None
  }

  function UpperChar(c: char): char
  {
    if 'a' <= c <= 'z' then (c as int - 32) as char else c
  }

  function LowerChar(c: char): char
  {
    if 'A' <= c <= 'Z' then (c as int + 32) as char else c
  }

  /** PHP 8 `strtoupper`: ASCII letters only. */
  function ToUpper(s: string): (r: string)
    ensures |r| == |s|
    ensures forall i :: 0 <= i < |s| ==> r[i] == UpperChar(s[i])
  {
    if |s| == 0 then "" else [UpperChar(s[0])] + ToUpper(s[1..])
  }

  /** PHP 8 `strtolower`: ASCII letters only. */
  function ToLower(s: string): (r: string)
    ensures |r| == |s|
    ensures forall i :: 0 <= i < |s| ==> r[i] == LowerChar(s[i])
  {
    if |s| == 0 then "" else [LowerChar(s[0])] + ToLower(s[1..])
  }

  /** A string no ASCII lower-case letter: `strtoupper` leaves it alone. */
  predicate IsUpper(s: string)
  {
    forall i :: 0 <= i < |s| ==> !('a' <= s[i] <= 'z')
  }

  /** Upper-casing any lower- or mixed-case spelling of an upper-case string gives it back. */
  lemma UpperOfLower(s: string)
    requires IsUpper(s)
    ensures ToUpper(s) == s
    ensures ToUpper(ToLower(s)) == s
  {
    assert forall i :: 0 <= i < |s| ==> UpperChar(s[i]) == s[i];
    assert forall i :: 0 <= i < |s| ==> UpperChar(LowerChar(s[i])) == s[i];
  }

  predicate IsDigit(c: char)
  {
    '0' <= c <= '9'
  }

  predicate AllDigits(s: string)
  {
    forall i :: 0 <= i < |s| ==> IsDigit(s[i])
  }

  /** `preg_replace('/[^0-9]/', '', s)`: the digits of `s`, in order. */
  function KeepDigits(s: string): (r: string)
    ensures AllDigits(r)
    ensures |r| <= |s|
    ensures AllDigits(s) ==> r == s
  {
    if |s| == 0 then ""
    else (if IsDigit(s[0]) then [s[0]] else "") + KeepDigits(s[1..])
  }

  /** The upper-case hexadecimal digit of a nibble. */
  function HexDigit(k: nat): (c: char)
    requires k < 16
    ensures !('a' <= c <= 'z')
  {
    if k < 10 then ('0' as int + k) as char else ('A' as int + k - 10) as char
  }

  /** The value of an upper-case hexadecimal digit, -1 for any other character. */
  function HexValue(c: char): int
  {
    if '0' <= c <= '9' then c as int - '0' as int
    else if 'A' <= c <= 'F' then c as int - 'A' as int + 10
    else -1
  }

  /** `strtoupper(bin2hex(chr(b)))`: two upper-case hexadecimal digits, high nibble first. */
  function ByteHex(b: nat): (r: string)
    requires b < 256
    ensures |r| == 2 && IsUpper(r)
    ensures HexValue(r[0]) * 16 + HexValue(r[1]) == b
  {
    [HexDigit(b / 16), HexDigit(b % 16)]
  }

  /** Decimal digits of a natural number, without leading zeros. */
  function NatToString(n: nat): (r: string)
    ensures |r| >= 1 && AllDigits(r)
    decreases n
  {
    if n < 10 then [('0' as int + n) as char]
    else NatToString(n / 10) + [('0' as int + n % 10) as char]
  }

  /** Four-digit numbers print as four characters. */
  lemma FourDigitYear(n: nat)
    requires 1000 <= n <= 9999
    ensures |NatToString(n)| == 4
  {
    assert |NatToString(n / 1000)| == 1;
    assert |NatToString(n / 100)| == 2 by { assert (n / 100) / 10 == n / 1000; }
    assert |NatToString(n / 10)| == 3 by { assert (n / 10) / 10 == n / 100; }
  }
}

=== FILE: process_payouts.dfy ===
/**
 * The payout command: for each selected parish with a mobile-money number
 * and paid intentions awaiting payout, one payout request for the whole
 * batch; the batch becomes TRANSFERE (with the gateway's reference) or
 * ECHOUE together, and the run goes on with the next parish either way.
 */
module ProcessPayouts {
  import opened Wrappers
  import opened Tables
  import opened Entities
  import opened PhpStrings
  import opened FedaPay
  import opened IntentionRepository

  /** `--dry-run`, and `--paroisse` as the number it holds (`0` reads as not given). */
  datatype Options = Options(dryRun: bool, paroisse: Option<nat>)

  /** What the loop carries: the database, the two totals it prints, and the payout requests sent so far. */
  datatype RunState = RunState(db: Db, transferred: nat, totalAmount: nat, requests: seq<PayoutRequest>)

  const Success := 0

  /** The parishes to visit: the one asked for (possibly missing), or all of them. */
  function Selection(db: Db, opts: Options): (r: seq<Option<Paroisse>>)
    ensures opts.paroisse.Some? && opts.paroisse.value != 0 ==> r == [FindParoisse(db, opts.paroisse)]
    ensures !(opts.paroisse.Some? && opts.paroisse.value != 0) ==>
      |r| == |db.paroisses| && forall k :: 0 <= k < |r| ==> r[k] == Some(db.paroisses[k])
    ensures forall k :: 0 <= k < |r| && r[k].Some? ==> r[k].value in db.paroisses
  {
    if opts.paroisse.Some? && opts.paroisse.value != 0 then [FindParoisse(db, opts.paroisse)]
    else seq(|db.paroisses|, k requires 0 <= k < |db.paroisses| => Some(db.paroisses[k]))
  }

  /** The rows `findPendingPayoutByParoisse` returns for `p`. */
  function PendingFor(db: Db, p: Paroisse): Intention -> bool
  {
    PendingIn(OfParoisse(db, p))
  }

  /** One intention of a batch after the payout: transferred with a reference, or failed with its reference kept. */
  function SettleRow(i: Intention, reference: Option<string>): (r: Intention)
    ensures r.statutPayout != PayoutEnAttente
    ensures reference.Some? ==> r.statutPayout == Transfere && r.payoutReference == reference
    ensures reference.None? ==> r.statutPayout == PayoutEchoue && r.payoutReference == i.payoutReference
    ensures r.(statutPayout := i.statutPayout, payoutReference := i.payoutReference) == i
  {
    if reference.Some? then i.(statutPayout := Transfere, payoutReference := reference)
    else i.(statutPayout := PayoutEchoue)
  }

  /** Every intention of `p`'s batch settled the same way; every other row unchanged. */
  function SettleBatch(db: Db, p: Paroisse, reference: Option<string>): (r: Db)
    ensures |r.intentions| == |db.intentions| && r == db.(intentions := r.intentions)
    ensures forall k :: 0 <= k < |db.intentions| ==>
      r.intentions[k] == if PendingFor(db, p)(db.intentions[k]) then SettleRow(db.intentions[k], reference) else db.intentions[k]
  {
    db.(intentions := seq(|db.intentions|, k requires 0 <= k < |db.intentions| =>
      if PendingFor(db, p)(db.intentions[k]) then SettleRow(db.intentions[k], reference) else db.intentions[k]))
  }

  /** The ids of a batch, in order. */
  function IdsOf(rows: seq<Intention>): (r: seq<Id>)
    ensures |r| == |rows| && forall k :: 0 <= k < |rows| ==> r[k] == rows[k].id
  {
    seq(|rows|, k requires 0 <= k < |rows| => rows[k].id)
  }

  /**
   * One parish of the loop. A parish without a number, without pending
   * intentions, or in a dry run, changes nothing. Otherwise one request goes
   * out for the batch's total; on success the batch is TRANSFERE with the
   * gateway reference (else the payout id) and the totals grow; on failure
   * the batch is ECHOUE.
   */
  function ProcessParoisse(st: RunState, p: Paroisse, dryRun: bool, gateway: PayoutRequest -> PayoutAnswer): (r: RunState)
    ensures !Truthy(p.numeroMobileMoney) || |FindPendingPayoutByParoisse(st.db, p)| == 0 || dryRun ==> r == st
    ensures Truthy(p.numeroMobileMoney) && |FindPendingPayoutByParoisse(st.db, p)| > 0 && !dryRun ==>
      var batch := FindPendingPayoutByParoisse(st.db, p);
      var req := PayoutRequest(GatewayAmount(SumOf(batch, Montant)), PhoneNumber(NormalizePhone(p.numeroMobileMoney.value), "bj"), p.id, IdsOf(batch));
      && r.requests == st.requests + [req]
      && (gateway(req).PayoutAccepted? ==>
            && r.db == SettleBatch(st.db, p, Some(gateway(req).reference.GetOr(gateway(req).payoutId)))
            && r.transferred == st.transferred + 1 && r.totalAmount == st.totalAmount + SumOf(batch, Montant))
      && (gateway(req).PayoutRejected? ==>
            r.db == SettleBatch(st.db, p, None) && r.transferred == st.transferred && r.totalAmount == st.totalAmount)
  {
    if !Truthy(p.numeroMobileMoney) then st
    else
      var batch := FindPendingPayoutByParoisse(st.db, p);
      if |batch| == 0 || dryRun then st
      else
        var amount := SumOf(batch, Montant);
        match CreatePayout(p, amount, IdsOf(batch), gateway)
        case PayoutCreated(req, id, ref) =>
          RunState(SettleBatch(st.db, p, Some(ref.GetOr(id))), st.transferred + 1, st.totalAmount + amount, st.requests + [req])
        case PayoutError(req) =>
          RunState(SettleBatch(st.db, p, None), st.transferred, st.totalAmount, st.requests + [req])
        case NoMobileMoneyNumber => st
  }

  /** The loop over the selected parishes; a missing parish is skipped. */
  function Run(st: RunState, ps: seq<Option<Paroisse>>, dryRun: bool, gateway: PayoutRequest -> PayoutAnswer): (r: RunState)
    ensures |r.db.intentions| == |st.db.intentions| && r.db == st.db.(intentions := r.db.intentions)
    ensures r.transferred >= st.transferred && r.totalAmount >= st.totalAmount
    decreases |ps|
  {
    if |ps| == 0 then st
    else
      var next := if ps[0].None? then st else ProcessParoisse(st, ps[0].value, dryRun, gateway);
      Run(next, ps[1..], dryRun, gateway)
  }

  datatype Report = Report(db: Db, transferred: nat, totalAmount: nat, requests: seq<PayoutRequest>, exitCode: int)

  /** `execute`: the loop from a zero state; the command always reports success. */
  function Execute(db: Db, opts: Options, gateway: PayoutRequest -> PayoutAnswer): (r: Report)
    ensures r.exitCode == Success
    ensures |r.db.intentions| == |db.intentions| && r.db == db.(intentions := r.db.intentions)
  {
    var st := Run(RunState(db, 0, 0, []), Selection(db, opts), opts.dryRun, gateway);
    Report(st.db, st.transferred, st.totalAmount, st.requests, Success)
  }

  /** A dry run sends nothing and changes nothing. */
  lemma {:induction false} DryRunChangesNothing(st: RunState, ps: seq<Option<Paroisse>>, gateway: PayoutRequest -> PayoutAnswer)
    ensures Run(st, ps, true, gateway) == st
    decreases |ps|
  {
    if |ps| > 0 {
      DryRunChangesNothing(st, ps[1..], gateway);
    }
  }

  lemma DryRunExecute(db: Db, opts: Options, gateway: PayoutRequest -> PayoutAnswer)
    requires opts.dryRun
    ensures Execute(db, opts, gateway) == Report(db, 0, 0, [], Success)
  {
    DryRunChangesNothing(RunState(db, 0, 0, []), Selection(db, opts), gateway);
  }

  /** No intention of `p` is still paid and awaiting payout. */
  ghost predicate Settled(db: Db, p: Paroisse)
  {
    forall k :: 0 <= k < |db.intentions| ==> !PendingFor(db, p)(db.intentions[k])
  }

  /** Only the intentions table changes, so which parish an intention belongs to does not. */
  lemma ScopeIgnoresIntentions(db: Db, rows: seq<Intention>, p: Paroisse, x: Intention)
    ensures OfParoisse(db.(intentions := rows), p)(x) == OfParoisse(db, p)(x)
    ensures PendingFor(db.(intentions := rows), p)(x) == PendingFor(db, p)(x)
  {
  }

  /**
   * Row by row, a step leaves an intention alone or settles one that was in
   * the processed parish's batch; when the step runs, it settles the whole batch.
   */
  lemma StepRows(st: RunState, q: Paroisse, dryRun: bool, gateway: PayoutRequest -> PayoutAnswer)
    ensures var r := ProcessParoisse(st, q, dryRun, gateway);
      && |r.db.intentions| == |st.db.intentions| && r.db == st.db.(intentions := r.db.intentions)
      && forall k :: 0 <= k < |st.db.intentions| ==>
        || r.db.intentions[k] == st.db.intentions[k]
        || (&& PendingFor(st.db, q)(st.db.intentions[k])
            && r.db.intentions[k].statutPayout != PayoutEnAttente
            && r.db.intentions[k].(statutPayout := st.db.intentions[k].statutPayout,
                                   payoutReference := st.db.intentions[k].payoutReference) == st.db.intentions[k])
    ensures var r := ProcessParoisse(st, q, dryRun, gateway);
      Truthy(q.numeroMobileMoney) && |FindPendingPayoutByParoisse(st.db, q)| > 0 && !dryRun ==>
        forall k :: 0 <= k < |st.db.intentions| && PendingFor(st.db, q)(st.db.intentions[k]) ==>
          r.db.intentions[k].statutPayout != PayoutEnAttente
  {
  }

  /** A processed parish with a number is settled, whatever the gateway answered. */
  lemma StepSettles(st: RunState, p: Paroisse, gateway: PayoutRequest -> PayoutAnswer)
    requires Truthy(p.numeroMobileMoney)
    ensures Settled(ProcessParoisse(st, p, false, gateway).db, p)
  {
    var r := ProcessParoisse(st, p, false, gateway);
    StepRows(st, p, false, gateway);
    if |FindPendingPayoutByParoisse(st.db, p)| == 0 {
      forall k | 0 <= k < |st.db.intentions| ensures !PendingFor(st.db, p)(st.db.intentions[k]) {
        assert st.db.intentions[k] in st.db.intentions;
      }
    } else {
      forall k | 0 <= k < |r.db.intentions| ensures !PendingFor(r.db, p)(r.db.intentions[k]) {
        ScopeIgnoresIntentions(st.db, r.db.intentions, p, r.db.intentions[k]);
        if !PendingFor(st.db, p)(st.db.intentions[k]) {
          assert r.db.intentions[k] == st.db.intentions[k];
        }
      }
    }
  }

  /** Processing any parish never makes an intention pending again. */
  lemma StepKeepsSettled(st: RunState, q: Paroisse, p: Paroisse, dryRun: bool, gateway: PayoutRequest -> PayoutAnswer)
    requires Settled(st.db, p)
    ensures Settled(ProcessParoisse(st, q, dryRun, gateway).db, p)
  {
    var r := ProcessParoisse(st, q, dryRun, gateway);
    StepRows(st, q, dryRun, gateway);
    forall k | 0 <= k < |r.db.intentions| ensures !PendingFor(r.db, p)(r.db.intentions[k]) {
      ScopeIgnoresIntentions(st.db, r.db.intentions, p, r.db.intentions[k]);
      if r.db.intentions[k] == st.db.intentions[k] {
        assert !PendingFor(st.db, p)(st.db.intentions[k]);
      }
    }
  }

  lemma {:induction false} RunKeepsSettled(st: RunState, ps: seq<Option<Paroisse>>, p: Paroisse, dryRun: bool,
                                           gateway: PayoutRequest -> PayoutAnswer)
    requires Settled(st.db, p)
    ensures Settled(Run(st, ps, dryRun, gateway).db, p)
    decreases |ps|
  {
    if |ps| > 0 {
      var next := if ps[0].None? then st else ProcessParoisse(st, ps[0].value, dryRun, gateway);
      if ps[0].Some? {
        StepKeepsSettled(st, ps[0].value, p, dryRun, gateway);
      }
      RunKeepsSettled(next, ps[1..], p, dryRun, gateway);
    }
  }

  /**
   * A failure does not stop the run: after a real run every selected
   * parish with a mobile-money number has no intention left awaiting
   * payout.
   */
  lemma {:induction false} RunSettlesEveryParish(st: RunState, ps: seq<Option<Paroisse>>, gateway: PayoutRequest -> PayoutAnswer)
    ensures forall j :: 0 <= j < |ps| && ps[j].Some? && Truthy(ps[j].value.numeroMobileMoney) ==>
      Settled(Run(st, ps, false, gateway).db, ps[j].value)
    decreases |ps|
  {
    if |ps| > 0 {
      var next := if ps[0].None? then st else ProcessParoisse(st, ps[0].value, false, gateway);
      RunSettlesEveryParish(next, ps[1..], gateway);
      if ps[0].Some? && Truthy(ps[0].value.numeroMobileMoney) {
        StepSettles(st, ps[0].value, gateway);
        RunKeepsSettled(next, ps[1..], ps[0].value, false, gateway);
      }
      forall j | 0 < j < |ps| && ps[j].Some? && Truthy(ps[j].value.numeroMobileMoney)
        ensures Settled(Run(st, ps, false, gateway).db, ps[j].value)
      {
        assert ps[1..][j - 1] == ps[j];
      }
    }
  }

  /** Without the parish option, a real run leaves every parish that has a number settled. */
  lemma ExecuteSettlesAll(db: Db, gateway: PayoutRequest -> PayoutAnswer, p: Paroisse)
    requires p in db.paroisses && Truthy(p.numeroMobileMoney)
    ensures Settled(Execute(db, Options(false, None), gateway).db, p)
  {
    var ps := Selection(db, Options(false, None));
    RunSettlesEveryParish(RunState(db, 0, 0, []), ps, gateway);
    var j :| 0 <= j < |db.paroisses| && db.paroisses[j] == p;
    assert ps[j] == Some(p);
  }

  /** With primary keys, a step for another parish leaves `p`'s intentions alone. */
  lemma StepLeavesOthers(st: RunState, q: Paroisse, p: Paroisse, dryRun: bool, gateway: PayoutRequest -> PayoutAnswer)
    requires q.id != p.id || !Truthy(q.numeroMobileMoney)
    ensures var r := ProcessParoisse(st, q, dryRun, gateway);
      forall k :: 0 <= k < |st.db.intentions| && OfParoisse(st.db, p)(st.db.intentions[k]) ==>
        r.db.intentions[k] == st.db.intentions[k]
  {
  }

  /**
   * A parish without a mobile-money number is skipped: none of its
   * intentions changes during the run, whatever else happens, as long as
   * every selected parish with its id is that parish.
   */
  lemma {:induction false} RunSkipsParishWithoutNumber(st: RunState, ps: seq<Option<Paroisse>>, p: Paroisse, dryRun: bool,
                                                       gateway: PayoutRequest -> PayoutAnswer)
    requires !Truthy(p.numeroMobileMoney)
    requires forall j :: 0 <= j < |ps| && ps[j].Some? ==> ps[j].value.id != p.id || ps[j].value == p
    ensures var r := Run(st, ps, dryRun, gateway);
      forall k :: 0 <= k < |st.db.intentions| && OfParoisse(st.db, p)(st.db.intentions[k]) ==>
        r.db.intentions[k] == st.db.intentions[k]
    decreases |ps|
  {
    if |ps| > 0 {
      var next := if ps[0].None? then st else ProcessParoisse(st, ps[0].value, dryRun, gateway);
      if ps[0].Some? {
        StepLeavesOthers(st, ps[0].value, p, dryRun, gateway);
      }
      assert forall j :: 0 <= j < |ps[1..]| ==> ps[1..][j] == ps[j + 1];
      RunSkipsParishWithoutNumber(next, ps[1..], p, dryRun, gateway);
      var r := Run(st, ps, dryRun, gateway);
      forall k | 0 <= k < |st.db.intentions| && OfParoisse(st.db, p)(st.db.intentions[k])
        ensures r.db.intentions[k] == st.db.intentions[k]
      {
        ScopeIgnoresIntentions(st.db, next.db.intentions, p, st.db.intentions[k]);
      }
    }
  }

  /** With primary keys, a real or dry run never touches the intentions of a parish without a number. */
  lemma ExecuteSkipsParishWithoutNumber(db: Db, opts: Options, gateway: PayoutRequest -> PayoutAnswer, p: Paroisse)
    requires UniqueKeys(db) && p in db.paroisses && !Truthy(p.numeroMobileMoney)
    ensures forall k :: 0 <= k < |db.intentions| && OfParoisse(db, p)(db.intentions[k]) ==>
      Execute(db, opts, gateway).db.intentions[k] == db.intentions[k]
  {
    var ps := Selection(db, opts);
    forall j | 0 <= j < |ps| && ps[j].Some? ensures ps[j].value.id != p.id || ps[j].value == p {
      if ps[j].value.id == p.id {
        SameIdSameParish(db, ps[j].value, p);
      }
    }
    RunSkipsParishWithoutNumber(RunState(db, 0, 0, []), ps, p, opts.dryRun, gateway);
  }

  /** With primary keys, two parish rows with one id are the same row. */
  lemma SameIdSameParish(db: Db, a: Paroisse, b: Paroisse)
    requires UniqueKeys(db) && a in db.paroisses && b in db.paroisses && a.id == b.id
    ensures a == b
  {
    var i :| 0 <= i < |db.paroisses| && db.paroisses[i] == a;
    var j :| 0 <= j < |db.paroisses| && db.paroisses[j] == b;
    assert db.paroisses[i].id == db.paroisses[j].id;
    assert i == j;
  }
}

=== FILE: public_controller.dfy ===
/**
 * The public booking page: the checks `newIntention` runs, in their order,
 * the intention it stores before asking the payment gateway, and the
 * reference search of `verifierIntention`. The clock, the current year, the
 * four random bytes and the gateway's answer are parameters.
 */
module PublicController {
  import opened Wrappers
  import opened Tables
  import opened Entities
  import opened PhpStrings
  import opened OccurrenceEntity
  import opened IntentionEntity
  import FedaPay

  /** The posted booking form; `None` is a field the request does not carry. */
  datatype IntentionForm = IntentionForm(
    nomDemandeur: Option<string>,
    telephone: Option<string>,
    email: Option<string>,
    beneficiaire: Option<string>,
    typeIntention: Option<string>,
    texteIntention: Option<string>,
    montant: Option<Amount>)

  /** What `createPayment` gave back: a transaction and its payment page, or an exception. */
  datatype PaymentStart = PaymentStarted(transactionId: string, paymentUrl: Option<string>) | PaymentFailed

  datatype Booking =
    | OccurrenceNotFound
    | NotBookable
    | NameMissing
    | ContactMissing
      /** The generated reference already exists: the unique column rejects the insert. */
    | DuplicateReference
    | RedirectToPayment(db: Db, intentionId: Id, url: Option<string>)
    | PaymentError(db: Db, intentionId: Id)
  {
    predicate Stored() { RedirectToPayment? || PaymentError? }
  }

  /** The trimmed text fields `newIntention` reads. */
  function TrimmedName(f: IntentionForm): string { Trim(f.nomDemandeur.GetOr("")) }
  function TrimmedPhone(f: IntentionForm): string { Trim(f.telephone.GetOr("")) }
  function TrimmedEmail(f: IntentionForm): string { Trim(f.email.GetOr("")) }

  /** The suggested amount of the occurrence's mass. */
  function SuggestedAmount(db: Db, o: Occurrence): Amount
  {
    match FindMesse(db, o.messe)
    case None => 0
    case Some(m) => m.montantSuggere
  }

  /** The intention the form describes, before the pre-persist hook. */
  function IntentionFromForm(db: Db, o: Occurrence, f: IntentionForm): (i: Intention)
    ensures i.id == NextIntentionId(db.intentions) && i.occurrence == Some(o.id)
    ensures i.statutPaiement == EnAttente && i.statutPayout == PayoutEnAttente
    ensures i.numeroReference.None? && i.transactionFedapay.None?
    ensures i.nomDemandeur == TrimmedName(f)
    ensures i.telephone.Some? <==> !PhpEmpty(TrimmedPhone(f))
    ensures i.email.Some? <==> !PhpEmpty(TrimmedEmail(f))
    ensures i.telephone.Some? ==> i.telephone.value == TrimmedPhone(f)
    ensures i.email.Some? ==> i.email.value == TrimmedEmail(f)
    ensures i.beneficiaire.Some? <==> f.beneficiaire.Some? && !PhpEmpty(f.beneficiaire.value)
    ensures i.typeIntention.Some? <==> f.typeIntention.Some? && !PhpEmpty(f.typeIntention.value)
    ensures i.texteIntention.Some? <==> f.texteIntention.Some? && !PhpEmpty(f.texteIntention.value)
    ensures i.beneficiaire.Some? ==> i.beneficiaire == f.beneficiaire
    ensures i.typeIntention.Some? ==> i.typeIntention == f.typeIntention
    ensures i.texteIntention.Some? ==> i.texteIntention == f.texteIntention
    ensures f.montant.None? ==> i.montantPaye == SuggestedAmount(db, o)
    ensures f.montant.Some? ==> i.montantPaye == f.montant.value
  {
    NewIntention(NextIntentionId(db.intentions), Some(o.id), TrimmedName(f), f.montant.GetOr(SuggestedAmount(db, o))).(
      telephone := NullIfFalsy(Some(TrimmedPhone(f))),
      email := NullIfFalsy(Some(TrimmedEmail(f))),
      beneficiaire := NullIfFalsy(f.beneficiaire),
      typeIntention := NullIfFalsy(f.typeIntention),
      texteIntention := NullIfFalsy(f.texteIntention))
  }

  /** A reference already held by some stored intention. */
  predicate ReferenceTaken(db: Db, ref: Option<string>)
  {
    exists j :: j in db.intentions && j.numeroReference == ref
  }

  /**
   * A transaction id already held by some stored intention: the
   * `transactionFedapay` column is unique, so recording it again fails.
   */
  predicate TransactionTaken(db: Db, tid: string)
  {
    exists j :: j in db.intentions && j.transactionFedapay == Some(tid)
  }

  /**
   * A request that passes every check: the occurrence exists and is
   * bookable, the name is not empty and some contact is given.
   */
  predicate Valid(db: Db, occurrenceId: Id, f: IntentionForm, now: int)
  {
    && OccurrenceIndex(db, occurrenceId).Some?
    && var o := db.occurrences[OccurrenceIndex(db, occurrenceId).value];
    && CanReceiveIntentions(o, ParoisseOfOccurrence(db, o), now)
    && !PhpEmpty(TrimmedName(f))
    && !(PhpEmpty(TrimmedPhone(f)) && PhpEmpty(TrimmedEmail(f)))
  }

  /** The row a valid request stores: the form's intention after the pre-persist hook. */
  function Candidate(db: Db, occurrenceId: Id, f: IntentionForm, now: int, year: nat, rnd: RandomBytes): (i: Intention)
    requires OccurrenceIndex(db, occurrenceId).Some?
    ensures var o := db.occurrences[OccurrenceIndex(db, occurrenceId).value];
      i == PrePersist(IntentionFromForm(db, o, f), now, year, rnd)
    ensures i.transactionFedapay.None? && i.numeroReference == Some(GenerateNumeroReference(year, rnd))
  {
    PrePersist(IntentionFromForm(db, db.occurrences[OccurrenceIndex(db, occurrenceId).value], f), now, year, rnd)
  }

  /**
   * `newIntention` (POST). The checks run in order: unknown occurrence, not
   * bookable, empty name, no contact. A valid request stores the intention
   * (pending, with a fresh reference) and only then sends the gateway the
   * intention's payment request. A gateway failure, or a transaction id the
   * unique column rejects, leaves it stored without a transaction and
   * reports the error; otherwise the transaction is recorded and the user
   * is sent to the payment page.
   */
  function NewIntentionRequest(db: Db, occurrenceId: Id, f: IntentionForm, now: int, year: nat,
                               rnd: RandomBytes, gateway: FedaPay.PaymentRequest -> PaymentStart): (r: Booking)
    ensures r.OccurrenceNotFound? <==> OccurrenceIndex(db, occurrenceId).None?
    ensures r.NotBookable? <==> (OccurrenceIndex(db, occurrenceId).Some? &&
      var o := db.occurrences[OccurrenceIndex(db, occurrenceId).value];
      !CanReceiveIntentions(o, ParoisseOfOccurrence(db, o), now))
    ensures r.NameMissing? ==> PhpEmpty(TrimmedName(f))
    ensures r.ContactMissing? ==> !PhpEmpty(TrimmedName(f)) && PhpEmpty(TrimmedPhone(f)) && PhpEmpty(TrimmedEmail(f))
    ensures r.Stored() ==>
      && |r.db.intentions| == |db.intentions| + 1
      && r.db == db.(intentions := db.intentions + [r.db.intentions[|db.intentions|]])
      && var i := r.db.intentions[|db.intentions|];
      && i.id == r.intentionId
      && i.occurrence == Some(occurrenceId)
      && i.statutPaiement == EnAttente
      && !PhpEmpty(i.nomDemandeur) && !PhpEmpty(GetContact(i))
      && i.numeroReference == Some(GenerateNumeroReference(year, rnd))
      && !ReferenceTaken(db, i.numeroReference)
    ensures r.PaymentError? ==> r.db.intentions[|db.intentions|].transactionFedapay.None?
    ensures r.RedirectToPayment? ==> r.db.intentions[|db.intentions|].transactionFedapay.Some?
    ensures r.RedirectToPayment? ==>
      !TransactionTaken(db, r.db.intentions[|db.intentions|].transactionFedapay.value)
    ensures Valid(db, occurrenceId, f, now) ==>
      var i := Candidate(db, occurrenceId, f, now, year, rnd);
      var stored := db.(intentions := db.intentions + [i]);
      var answer := gateway(FedaPay.PaymentRequestOf(i));
      && (r.DuplicateReference? <==> ReferenceTaken(db, i.numeroReference))
      && (!ReferenceTaken(db, i.numeroReference) && answer.PaymentFailed? ==> r == PaymentError(stored, i.id))
      && (var taken := answer.PaymentStarted? && TransactionTaken(db, answer.transactionId);
          !ReferenceTaken(db, i.numeroReference) && taken ==> r == PaymentError(stored, i.id))
      && (var accepted := answer.PaymentStarted? && !TransactionTaken(db, answer.transactionId);
          !ReferenceTaken(db, i.numeroReference) && accepted ==>
            r == RedirectToPayment(db.(intentions := db.intentions + [i.(transactionFedapay := Some(answer.transactionId))]),
                                   i.id, answer.paymentUrl))
  {
    match OccurrenceIndex(db, occurrenceId)
    case None => OccurrenceNotFound
    case Some(k) =>
      var o := db.occurrences[k];
      if !CanReceiveIntentions(o, ParoisseOfOccurrence(db, o), now) then NotBookable
      else if PhpEmpty(TrimmedName(f)) then NameMissing
      else if PhpEmpty(TrimmedPhone(f)) && PhpEmpty(TrimmedEmail(f)) then ContactMissing
      else
        assert Valid(db, occurrenceId, f, now);
        Accepted(db, occurrenceId, f, now, year, rnd, gateway)
  }

  /** A request that passed every check: its candidate row is submitted. */
  function Accepted(db: Db, occurrenceId: Id, f: IntentionForm, now: int, year: nat,
                    rnd: RandomBytes, gateway: FedaPay.PaymentRequest -> PaymentStart): (r: Booking)
    requires Valid(db, occurrenceId, f, now)
    ensures r.DuplicateReference? || r.Stored()
    ensures r.Stored() ==>
      && |r.db.intentions| == |db.intentions| + 1
      && r.db == db.(intentions := db.intentions + [r.db.intentions[|db.intentions|]])
      && var i := r.db.intentions[|db.intentions|];
      && i.id == r.intentionId
      && i.occurrence == Some(occurrenceId)
      && i.statutPaiement == EnAttente
      && !PhpEmpty(i.nomDemandeur) && !PhpEmpty(GetContact(i))
      && i.numeroReference == Some(GenerateNumeroReference(year, rnd))
      && !ReferenceTaken(db, i.numeroReference)
    ensures r.PaymentError? ==> r.db.intentions[|db.intentions|].transactionFedapay.None?
    ensures r.RedirectToPayment? ==> r.db.intentions[|db.intentions|].transactionFedapay.Some?
    ensures r.RedirectToPayment? ==>
      !TransactionTaken(db, r.db.intentions[|db.intentions|].transactionFedapay.value)
    ensures var i := Candidate(db, occurrenceId, f, now, year, rnd);
      var stored := db.(intentions := db.intentions + [i]);
      var answer := gateway(FedaPay.PaymentRequestOf(i));
      && (r.DuplicateReference? <==> ReferenceTaken(db, i.numeroReference))
      && (!ReferenceTaken(db, i.numeroReference) && answer.PaymentFailed? ==> r == PaymentError(stored, i.id))
      && (var taken := answer.PaymentStarted? && TransactionTaken(db, answer.transactionId);
          !ReferenceTaken(db, i.numeroReference) && taken ==> r == PaymentError(stored, i.id))
      && (var accepted := answer.PaymentStarted? && !TransactionTaken(db, answer.transactionId);
          !ReferenceTaken(db, i.numeroReference) && accepted ==>
            r == RedirectToPayment(db.(intentions := db.intentions + [i.(transactionFedapay := Some(answer.transactionId))]),
                                   i.id, answer.paymentUrl))
  {
    Submit(db, Candidate(db, occurrenceId, f, now, year, rnd), gateway)
  }

  /**
   * The insert and the payment call of `newIntention` for the row `i`. A
   * reference already taken is rejected by the unique column. Otherwise the
   * row is stored and the gateway is sent its payment request; a failure,
   * or a transaction id another row holds, is caught with the row kept
   * as stored, and a fresh transaction id is recorded on the row.
   */
  function Submit(db: Db, i: Intention, gateway: FedaPay.PaymentRequest -> PaymentStart): (r: Booking)
    ensures r.DuplicateReference? <==> ReferenceTaken(db, i.numeroReference)
    ensures r.DuplicateReference? || r.Stored()
    ensures r.Stored() ==>
      && r.intentionId == i.id
      && |r.db.intentions| == |db.intentions| + 1
      && r.db == db.(intentions := db.intentions + [r.db.intentions[|db.intentions|]])
    ensures r.PaymentError? ==> r.db.intentions[|db.intentions|] == i
    ensures r.RedirectToPayment? ==>
      && r.db.intentions[|db.intentions|].transactionFedapay.Some?
      && r.db.intentions[|db.intentions|] == i.(transactionFedapay := r.db.intentions[|db.intentions|].transactionFedapay)
      && !TransactionTaken(db, r.db.intentions[|db.intentions|].transactionFedapay.value)
    ensures var stored := db.(intentions := db.intentions + [i]);
      var answer := gateway(FedaPay.PaymentRequestOf(i));
      && (!ReferenceTaken(db, i.numeroReference) && answer.PaymentFailed? ==> r == PaymentError(stored, i.id))
      && (var taken := answer.PaymentStarted? && TransactionTaken(db, answer.transactionId);
          !ReferenceTaken(db, i.numeroReference) && taken ==> r == PaymentError(stored, i.id))
      && (var accepted := answer.PaymentStarted? && !TransactionTaken(db, answer.transactionId);
          !ReferenceTaken(db, i.numeroReference) && accepted ==>
            r == RedirectToPayment(db.(intentions := db.intentions + [i.(transactionFedapay := Some(answer.transactionId))]),
                                   i.id, answer.paymentUrl))
  {
    if ReferenceTaken(db, i.numeroReference) then DuplicateReference
    else
      match gateway(FedaPay.PaymentRequestOf(i))
      case PaymentFailed => PaymentError(db.(intentions := db.intentions + [i]), i.id)
      case PaymentStarted(tid, url) =>
        if TransactionTaken(db, tid) then PaymentError(db.(intentions := db.intentions + [i]), i.id)
        else RedirectToPayment(db.(intentions := db.intentions + [i.(transactionFedapay := Some(tid))]), i.id, url)
  }

  /**
   * The order of the checks: an unbookable occurrence is reported whatever
   * the form says, and a missing name is reported before a missing contact.
   */
  lemma ValidationOrder(db: Db, occurrenceId: Id, f: IntentionForm, now: int, year: nat,
                        rnd: RandomBytes, gateway: FedaPay.PaymentRequest -> PaymentStart)
    requires OccurrenceIndex(db, occurrenceId).Some?
    ensures var o := db.occurrences[OccurrenceIndex(db, occurrenceId).value];
      var r := NewIntentionRequest(db, occurrenceId, f, now, year, rnd, gateway);
      && (CanReceiveIntentions(o, ParoisseOfOccurrence(db, o), now) && PhpEmpty(TrimmedName(f)) ==> r.NameMissing?)
      && (CanReceiveIntentions(o, ParoisseOfOccurrence(db, o), now) && !PhpEmpty(TrimmedName(f)) ==>
            (r.ContactMissing? <==> PhpEmpty(TrimmedPhone(f)) && PhpEmpty(TrimmedEmail(f))))
  {
  }

  /**
   * Either contact is enough: with a bookable occurrence, a name and a
   * phone (or an email), the request gets past validation.
   */
  lemma OneContactSuffices(db: Db, occurrenceId: Id, f: IntentionForm, now: int, year: nat,
                           rnd: RandomBytes, gateway: FedaPay.PaymentRequest -> PaymentStart)
    requires OccurrenceIndex(db, occurrenceId).Some?
    requires var o := db.occurrences[OccurrenceIndex(db, occurrenceId).value];
      CanReceiveIntentions(o, ParoisseOfOccurrence(db, o), now)
    requires !PhpEmpty(TrimmedName(f))
    requires !PhpEmpty(TrimmedPhone(f)) || !PhpEmpty(TrimmedEmail(f))
    ensures var r := NewIntentionRequest(db, occurrenceId, f, now, year, rnd, gateway);
      r.Stored() || r.DuplicateReference?
    ensures var r := NewIntentionRequest(db, occurrenceId, f, now, year, rnd, gateway);
      r.DuplicateReference? <==> ReferenceTaken(db, Some(GenerateNumeroReference(year, rnd)))
  {
  }

  /**
   * `verifierIntention`: the trimmed input, upper-cased, looked up among the
   * references; an empty (or `"0"`) input searches nothing.
   */
  function VerifierIntention(db: Db, input: string): (r: Option<Intention>)
    ensures PhpEmpty(Trim(input)) ==> r.None?
    ensures r.Some? ==> r.value in db.intentions && r.value.numeroReference == Some(ToUpper(Trim(input)))
    ensures r.None? && !PhpEmpty(Trim(input)) ==> !ReferenceTaken(db, Some(ToUpper(Trim(input))))
  {
    var q := Trim(input);
    if PhpEmpty(q) then None
    else FirstWhere(db.intentions, (i: Intention) => i.numeroReference == Some(ToUpper(q)))
  }

  /**
   * A stored booking is found by its reference typed in lower case or with
   * surrounding blanks: the lookup returns exactly that intention.
   */
  lemma BookingFoundByReference(db: Db, occurrenceId: Id, f: IntentionForm, now: int, year: nat,
                                rnd: RandomBytes, gateway: FedaPay.PaymentRequest -> PaymentStart)
    requires NewIntentionRequest(db, occurrenceId, f, now, year, rnd, gateway).Stored()
    ensures var after := NewIntentionRequest(db, occurrenceId, f, now, year, rnd, gateway).db;
      var ref := GenerateNumeroReference(year, rnd);
      && VerifierIntention(after, ToLower(ref)) == Some(after.intentions[|db.intentions|])
      && VerifierIntention(after, " " + ref + "\n") == Some(after.intentions[|db.intentions|])
  {
    var r := NewIntentionRequest(db, occurrenceId, f, now, year, rnd, gateway);
    var i := r.db.intentions[|db.intentions|];
    StoredFoundByReference(db, i, year, rnd);
  }

  /** The lookups of the lemma above, for any table the new row is appended to. */
  lemma StoredFoundByReference(db: Db, i: Intention, year: nat, rnd: RandomBytes)
    requires i.numeroReference == Some(GenerateNumeroReference(year, rnd))
    requires !ReferenceTaken(db, i.numeroReference)
    ensures var ref := GenerateNumeroReference(year, rnd);
      var after := db.(intentions := db.intentions + [i]);
      && VerifierIntention(after, ToLower(ref)) == Some(i)
      && VerifierIntention(after, " " + ref + "\n") == Some(i)
  {
    var ref := GenerateNumeroReference(year, rnd);
    ReferenceIsTrimmed(year, rnd);
    FoundInLowerCase(db, i, ref);
    FoundWhenPadded(db, i, ref);
  }

  lemma FoundInLowerCase(db: Db, i: Intention, ref: string)
    requires |ref| > 1 && IsUpper(ref)
    requires !IsTrimmed(ToLower(ref)[0]) && !IsTrimmed(ToLower(ref)[|ref| - 1])
    requires i.numeroReference == Some(ref) && !ReferenceTaken(db, Some(ref))
    ensures VerifierIntention(db.(intentions := db.intentions + [i]), ToLower(ref)) == Some(i)
  {
    UpperOfLower(ref);
    TrimOfTrimmed(ToLower(ref));
    FoundWhenNormalised(db, i, ToLower(ref), ref);
  }

  lemma FoundWhenPadded(db: Db, i: Intention, ref: string)
    requires |ref| > 1 && IsUpper(ref)
    requires !IsTrimmed(ref[0]) && !IsTrimmed(ref[|ref| - 1])
    requires i.numeroReference == Some(ref) && !ReferenceTaken(db, Some(ref))
    ensures VerifierIntention(db.(intentions := db.intentions + [i]), " " + ref + "\n") == Some(i)
  {
    UpperOfLower(ref);
    TrimPadded(ref);
    FoundWhenNormalised(db, i, " " + ref + "\n", ref);
  }

  /** An input that normalises to a reference no stored row holds finds the row appended with it. */
  lemma FoundWhenNormalised(db: Db, i: Intention, input: string, ref: string)
    requires !PhpEmpty(Trim(input)) && ToUpper(Trim(input)) == ref
    requires i.numeroReference == Some(ref) && !ReferenceTaken(db, Some(ref))
    ensures VerifierIntention(db.(intentions := db.intentions + [i]), input) == Some(i)
  {
    UniqueReferenceFound(db.intentions, i, ref);
  }

  /** A generated reference starts with `I` and ends with a hexadecimal digit, so `trim` keeps it in either case. */
  lemma ReferenceIsTrimmed(year: nat, rnd: RandomBytes)
    ensures var ref := GenerateNumeroReference(year, rnd);
      && !IsTrimmed(ref[0]) && !IsTrimmed(ref[|ref| - 1])
      && !IsTrimmed(ToLower(ref)[0]) && !IsTrimmed(ToLower(ref)[|ref| - 1])
      && !PhpEmpty(ref)
  {
    var ref := GenerateNumeroReference(year, rnd);
    var head := "INT-" + NatToString(year) + "-" + ByteHex(rnd.b0) + ByteHex(rnd.b1) + ByteHex(rnd.b2);
    assert ref == head + ByteHex(rnd.b3);
    assert ref[0] == 'I';
    assert ref[|ref| - 1] == HexDigit(rnd.b3 % 16);
  }

  /** `trim` removes exactly one leading blank and one trailing newline around a trimmed string. */
  lemma TrimPadded(ref: string)
    requires |ref| > 0 && !IsTrimmed(ref[0]) && !IsTrimmed(ref[|ref| - 1])
    ensures Trim(" " + ref + "\n") == ref
  {
    var s := " " + ref + "\n";
    assert s[1..] == ref + "\n";
    assert LeadingSpaces(s[1..]) == 0;
    assert LeadingSpaces(s) == 1;
    var t := s[1..];
    assert t[..|t| - 1] == ref;
    assert TrailingSpaces(t[..|t| - 1]) == 0;
    assert TrailingSpaces(t) == 1;
  }

  /** In a table where no row holds `ref`, the row appended with it is the first match. */
  lemma {:induction false} UniqueReferenceFound(rows: seq<Intention>, i: Intention, ref: string)
    requires i.numeroReference == Some(ref)
    requires !exists j :: j in rows && j.numeroReference == Some(ref)
    ensures FirstWhere(rows + [i], (x: Intention) => x.numeroReference == Some(ref)) == Some(i)
  {
    if |rows| > 0 {
      assert (rows + [i])[1..] == rows[1..] + [i];
      UniqueReferenceFound(rows[1..], i, ref);
    }
  }
}

=== FILE: security.dfy ===
/**
 * What the voters see of an authenticated request: the token's user (or
 * something that is not an application user), the user's stored roles and
 * the parish and diocese the user is attached to. The user entity itself is
 * not part of this model; only these facts are.
 */
module Security {
  import opened Wrappers
  import opened Entities

  const RoleSuperUser := "ROLE_SUPER_USER"
  const RoleAdminDiocese := "ROLE_ADMIN_DIOCESE"
  const RoleAdminParoisse := "ROLE_ADMIN_PAROISSE"
  const RoleSecretaire := "ROLE_SECRETAIRE"

  /** An application user: `getRoles()`, `getParoisse()`, `getDiocese()`. */
  datatype User = User(roles: set<string>, paroisse: Option<Id>, diocese: Option<Id>)

  /** The token's user, or `NotAUser` when it is anonymous or of another class. */
  datatype Token = NotAUser | AppUser(user: User)

  /** What the voted object is. */
  datatype Subject =
    | DioceseSubject(diocese: Diocese)
    | ParoisseSubject(paroisse: Paroisse)
    | MesseSubject(messe: Messe)
    | OtherSubject

  /** Symfony's `Voter::vote`: abstain when unsupported, else grant or deny. */
  datatype Decision = Granted | Denied | Abstain

  function Decide(supported: bool, allowed: bool): (d: Decision)
    ensures d == Abstain <==> !supported
    ensures d == Granted <==> supported && allowed
  {
    if !supported then Abstain else if allowed then Granted else Denied
  }

  predicate IsSuperUser(u: User)
  {
    RoleSuperUser in u.roles
  }

  predicate IsAdminDiocese(u: User)
  {
    RoleAdminDiocese in u.roles
  }

  predicate IsAdminParoisse(u: User)
  {
    RoleAdminParoisse in u.roles
  }

  predicate IsSecretaire(u: User)
  {
    RoleSecretaire in u.roles
  }

  /** `Diocese::isActif`. */
  predicate IsActif(d: Diocese)
  {
    d.statut == Actif
  }

  /** `$paroisse?->getDiocese()?->isActif() ?? false`: a missing parish or diocese reads as inactive. */
  predicate DioceseActiveOf(db: Db, paroisse: Option<Paroisse>)
  {
    paroisse.Some? && match FindDiocese(db, paroisse.value.diocese)
      case None => false
      case Some(d) => IsActif(d)
  }
}

=== FILE: tables.dfy ===
/**
 * Database tables as sequences of rows, and the query shapes the repositories
 * use on them: first match (`findOneBy`), filter (`WHERE`), sum (`SUM`),
 * ordering (`ORDER BY ... ASC`) and truncation (`setMaxResults`).
 */
module Tables {
  import opened Wrappers

  /** Position of the first row satisfying `p`. */
  function IndexWhere<T>(s: seq<T>, p: T -> bool): (r: Option<nat>)
    ensures r.Some? ==> r.value < |s| && p(s[r.value])
    ensures r.Some? ==> forall j :: 0 <= j < r.value ==> !p(s[j])
    ensures r.None? <==> forall j :: 0 <= j < |s| ==> !p(s[j])
  {
    if |s| == 0 then None
    else if p(s[0]) then Some(0)
    else match IndexWhere(s[1..], p)
      case None => None
      case Some(k) => Some(k + 1)
  }

  /** Two tables whose rows agree on `p` position by position have the same first match. */
  lemma {:induction false} IndexWhereAgrees<T>(a: seq<T>, b: seq<T>, p: T -> bool)
    requires |a| == |b|
    requires forall j :: 0 <= j < |a| ==> p(a[j]) == p(b[j])
    ensures IndexWhere(a, p) == IndexWhere(b, p)
  {
    if |a| > 0 {
      IndexWhereAgrees(a[1..], b[1..], p);
    }
  }

  /** The first row satisfying `p`, or null when there is none. */
  function FirstWhere<T>(s: seq<T>, p: T -> bool): (r: Option<T>)
    ensures r.Some? ==> r.value in s && p(r.value)
    ensures r.None? <==> forall x :: x in s ==> !p(x)
  {
    match IndexWhere(s, p)
    case None => None
    case Some(k) => Some(s[k])
  }

  /** The rows satisfying `p`, in table order. */
  function Filter<T>(s: seq<T>, p: T -> bool): (r: seq<T>)
    ensures |r| <= |s|
    ensures forall x :: x in r ==> x in s && p(x)
    ensures forall x :: x in s && p(x) ==> x in r
  {
    if |s| == 0 then [] else (if p(s[0]) then [s[0]] else []) + Filter(s[1..], p)
  }

  /** `SUM(w)` over the rows, with `COALESCE(..., 0)` for no rows. */
  function SumOf<T>(s: seq<T>, w: T -> nat): nat
  {
    if |s| == 0 then 0 else w(s[0]) + SumOf(s[1..], w)
  }

  /** A stronger filter keeps no more rows and no more weight than a weaker one. */
  lemma {:induction false} FilterStrongerIsSmaller<T>(s: seq<T>, p: T -> bool, q: T -> bool, w: T -> nat)
    requires forall x :: q(x) ==> p(x)
    ensures |Filter(s, q)| <= |Filter(s, p)|
    ensures SumOf(Filter(s, q), w) <= SumOf(Filter(s, p), w)
  {
    if |s| > 0 {
      FilterStrongerIsSmaller(s[1..], p, q, w);
      var hp := if p(s[0]) then [s[0]] else [];
      var hq := if q(s[0]) then [s[0]] else [];
      SumOfConcat(hp, Filter(s[1..], p), w);
      SumOfConcat(hq, Filter(s[1..], q), w);
    }
  }

  lemma {:induction false} SumOfConcat<T>(a: seq<T>, b: seq<T>, w: T -> nat)
    ensures SumOf(a + b, w) == SumOf(a, w) + SumOf(b, w)
  {
    if |a| > 0 {
      assert (a + b)[1..] == a[1..] + b;
      SumOfConcat(a[1..], b, w);
    } else {
      assert a + b == b;
    }
  }

  /** Rows in ascending order of `key`. */
  ghost predicate SortedBy<T>(s: seq<T>, key: T -> int)
  {
    forall i, j :: 0 <= i < j < |s| ==> key(s[i]) <= key(s[j])
  }

  /** The last element of a sorted sequence has the greatest key. */
  lemma SortedLast<T>(s: seq<T>, key: T -> int, k: nat)
    requires SortedBy(s, key)
    requires k < |s|
    ensures key(s[k]) <= key(s[|s| - 1])
  {
    if k < |s| - 1 {
      assert key(s[k]) <= key(s[|s| - 1]);
    }
  }

  function InsertBy<T>(x: T, s: seq<T>, key: T -> int): (r: seq<T>)
    requires SortedBy(s, key)
    ensures SortedBy(r, key)
    ensures multiset(r) == multiset(s) + multiset{x}
    ensures forall y :: y in r ==> y == x || y in s
  {
    if |s| == 0 then [x]
    else if key(x) <= key(s[0]) then [x] + s
    else
      var tail := InsertBy(x, s[1..], key);
      assert s == [s[0]] + s[1..];
      var r := [s[0]] + tail;
      assert forall j :: 0 < j < |r| ==> r[j] in tail;
      assert forall j :: 0 < j < |r| ==> key(s[0]) <= key(r[j]);
      r
  }

  /** `ORDER BY key ASC`: a sorted permutation of the rows. */
  function SortBy<T>(s: seq<T>, key: T -> int): (r: seq<T>)
    ensures SortedBy(r, key)
    ensures multiset(r) == multiset(s)
  {
    if |s| == 0 then []
    else
      assert s == [s[0]] + s[1..];
      InsertBy(s[0], SortBy(s[1..], key), key)
  }

  /** Two orderings of the same rows have the same rows and the same length. */
  lemma PermutationMembers<T>(a: seq<T>, b: seq<T>)
    requires multiset(a) == multiset(b)
    ensures forall x :: x in a <==> x in b
    ensures |a| == |b|
  {
    forall x ensures x in a <==> x in b {
      assert x in a <==> multiset(a)[x] > 0;
      assert x in b <==> multiset(b)[x] > 0;
    }
    assert |multiset(a)| == |multiset(b)|;
  }

  /** A prefix of a prefix is a prefix. */
  lemma PrefixTransitive<T>(a: seq<T>, b: seq<T>, c: seq<T>)
    requires |a| <= |b| <= |c|
    requires c[..|b|] == b && b[..|a|] == a
    ensures c[..|a|] == a
  {
    assert c[..|a|] == c[..|b|][..|a|];
  }

  /** `setMaxResults(n)`: at most the first `n` rows. */
  function Take<T>(s: seq<T>, n: nat): (r: seq<T>)
    ensures |r| <= n && |r| <= |s|
    ensures |r| == if n < |s| then n else |s|
    ensures forall i :: 0 <= i < |r| ==> r[i] == s[i]
  {
    if n < |s| then s[..n] else s
  }

  /** A prefix takes no element more often than the sequence holds it. */
  lemma TakeSubMultiset<T>(s: seq<T>, n: nat)
    ensures multiset(Take(s, n)) <= multiset(s)
  {
    if n < |s| {
      assert s == s[..n] + s[n..];
    }
  }
}

=== FILE: webhook_controller.dfy ===
/**
 * Payment reconciliation: the gateway's webhook overwrites the payment
 * status of the intention holding the transaction, and counts a paid
 * intention on its occurrence. `HandleWebhook` is the behaviour as written;
 * `HandleWebhookGuarded` is a refinement that counts a payment only on its
 * first approval.
 */
module WebhookController {
  import opened Wrappers
  import opened Tables
  import opened Entities
  import opened PhpStrings
  import opened OccurrenceEntity
  import opened FedaPay
  import PublicController
  import IntentionEntity

  /** The request body after `json_decode`: falsy (unparsable, empty, `{}`) or a decoded object. */
  datatype Body = Falsy | Decoded(data: WebhookData)

  datatype Response =
    | InvalidPayload
    | TransactionMissing
    | IntentionNotFound
    | Processed(db: Db, intentionId: Id, statut: StatutPaiement)

  /** `findOneBy(['transactionFedapay' => ...])`: the first intention holding the transaction. */
  function TransactionIndex(db: Db, tid: string): (r: Option<nat>)
    ensures r.Some? ==> r.value < |db.intentions| && db.intentions[r.value].transactionFedapay == Some(tid)
    ensures r.None? ==> forall i :: i in db.intentions ==> i.transactionFedapay != Some(tid)
  {
    IndexWhere(db.intentions, (i: Intention) => i.transactionFedapay == Some(tid))
  }

  /**
   * A booking sent to the payment page is the one the webhook finds: its
   * transaction id is held by no earlier row, so the lookup lands on the
   * row just stored.
   */
  lemma RedirectedBookingIsFound(db: Db, occurrenceId: Id, f: PublicController.IntentionForm, now: int, year: nat,
                                 rnd: IntentionEntity.RandomBytes, gateway: FedaPay.PaymentRequest -> PublicController.PaymentStart)
    requires PublicController.NewIntentionRequest(db, occurrenceId, f, now, year, rnd, gateway).RedirectToPayment?
    ensures var after := PublicController.NewIntentionRequest(db, occurrenceId, f, now, year, rnd, gateway).db;
      var tid := after.intentions[|db.intentions|].transactionFedapay.value;
      TransactionIndex(after, tid) == Some(|db.intentions|)
  {
    var after := PublicController.NewIntentionRequest(db, occurrenceId, f, now, year, rnd, gateway).db;
    var tid := after.intentions[|db.intentions|].transactionFedapay.value;
    assert !PublicController.TransactionTaken(db, tid);
    var k := TransactionIndex(after, tid);
    forall j | 0 <= j < |db.intentions| ensures after.intentions[j].transactionFedapay != Some(tid) {
      assert after.intentions[j] == db.intentions[j];
      assert db.intentions[j] in db.intentions;
    }
  }

  /** The position of the occurrence an intention is attached to, when that row exists. */
  function CounterTarget(db: Db, i: Intention): (r: Option<nat>)
    ensures r.Some? ==> r.value < |db.occurrences| && i.occurrence == Some(db.occurrences[r.value].id)
    ensures r.None? ==> i.occurrence.None? || forall o :: o in db.occurrences ==> o.id != i.occurrence.value
  {
    if i.occurrence.None? then None else OccurrenceIndex(db, i.occurrence.value)
  }

  /** `incrementNombreIntentions` on the intention's occurrence, if it has one. */
  function CountOn(db: Db, target: Option<nat>): (r: Db)
    requires target.Some? ==> target.value < |db.occurrences|
    ensures |r.occurrences| == |db.occurrences|
    ensures r == db.(occurrences := r.occurrences)
    ensures forall j :: 0 <= j < |db.occurrences| ==>
      r.occurrences[j] == if target == Some(j) then IncrementNombreIntentions(db.occurrences[j]) else db.occurrences[j]
  {
    match target
    case None => db
    case Some(j) => db.(occurrences := db.occurrences[j := IncrementNombreIntentions(db.occurrences[j])])
  }

  /**
   * `handleWebhook`: a falsy body is rejected, then a falsy transaction id,
   * then an unknown transaction. Otherwise the intention's payment status is
   * overwritten with the mapped status whatever it was, and a mapped PAYE
   * counts one more intention on its occurrence, every time.
   */
  function HandleWebhook(db: Db, body: Body): (r: Response)
    ensures r.InvalidPayload? <==> body.Falsy?
    ensures r.TransactionMissing? <==> body.Decoded? && PhpEmpty(ProcessWebhookEvent(body.data).transactionId)
    ensures r.IntentionNotFound? <==> (body.Decoded? && !PhpEmpty(ProcessWebhookEvent(body.data).transactionId)
      && TransactionIndex(db, ProcessWebhookEvent(body.data).transactionId).None?)
    ensures r.Processed? ==>
      var e := ProcessWebhookEvent(body.data);
      var k := TransactionIndex(db, e.transactionId).value;
      && r.statut == MapStatus(e.status) && r.intentionId == db.intentions[k].id
      && r.db.intentions == db.intentions[k := db.intentions[k].(statutPaiement := r.statut)]
      && r.db == db.(intentions := r.db.intentions, occurrences := r.db.occurrences)
      && |r.db.occurrences| == |db.occurrences|
      && (forall j :: 0 <= j < |db.occurrences| ==>
            && r.db.occurrences[j].nombreIntentions ==
                 db.occurrences[j].nombreIntentions + (if r.statut == Paye && CounterTarget(db, db.intentions[k]) == Some(j) then 1 else 0)
            && r.db.occurrences[j].(nombreIntentions := db.occurrences[j].nombreIntentions) == db.occurrences[j])
    ensures r.Processed? && r.statut != Paye ==> r.db.occurrences == db.occurrences
  {
    if body.Falsy? then InvalidPayload
    else
      var e := ProcessWebhookEvent(body.data);
      if PhpEmpty(e.transactionId) then TransactionMissing
      else match TransactionIndex(db, e.transactionId)
        case None => IntentionNotFound
        case Some(k) =>
          var i := db.intentions[k];
          var db1 := db.(intentions := db.intentions[k := i.(statutPaiement := e.statutPaiement)]);
          var db2 := if e.statutPaiement == Paye then CountOn(db1, CounterTarget(db, i)) else db1;
          Processed(db2, i.id, e.statutPaiement)
  }

  /** Changing an intention's payment status does not move the first holder of a transaction. */
  lemma StatusKeepsTransactionIndex(db: Db, k: nat, s: StatutPaiement, tid: string)
    requires k < |db.intentions|
    ensures TransactionIndex(db.(intentions := db.intentions[k := db.intentions[k].(statutPaiement := s)]), tid)
         == TransactionIndex(db, tid)
  {
    var p := (i: Intention) => i.transactionFedapay == Some(tid);
    var after := db.intentions[k := db.intentions[k].(statutPaiement := s)];
    assert forall j :: 0 <= j < |after| ==> p(after[j]) == p(db.intentions[j]);
    IndexWhereAgrees(after, db.intentions, p);
  }

  /** Counting on an occurrence does not move the first occurrence with a given id. */
  lemma CountKeepsOccurrenceIndex(db: Db, target: Option<nat>, id: Id)
    requires target.Some? ==> target.value < |db.occurrences|
    ensures OccurrenceIndex(CountOn(db, target), id) == OccurrenceIndex(db, id)
  {
    var p := (o: Occurrence) => o.id == id;
    var after := CountOn(db, target).occurrences;
    assert forall j :: 0 <= j < |after| ==> p(after[j]) == p(db.occurrences[j]);
    IndexWhereAgrees(after, db.occurrences, p);
  }

  /**
   * A replayed approval counts the same intention again: delivering one
   * approved event twice raises its occurrence's counter by two.
   */
  lemma ReplayCountsTwice(db: Db, body: Body)
    requires HandleWebhook(db, body).Processed? && HandleWebhook(db, body).statut == Paye
    requires var k := TransactionIndex(db, ProcessWebhookEvent(body.data).transactionId).value;
      CounterTarget(db, db.intentions[k]).Some?
    ensures var once := HandleWebhook(db, body).db;
      var k := TransactionIndex(db, ProcessWebhookEvent(body.data).transactionId).value;
      var j := CounterTarget(db, db.intentions[k]).value;
      && HandleWebhook(once, body).Processed?
      && HandleWebhook(once, body).db.occurrences[j].nombreIntentions == db.occurrences[j].nombreIntentions + 2
  {
    var e := ProcessWebhookEvent(body.data);
    var k := TransactionIndex(db, e.transactionId).value;
    var i := db.intentions[k];
    var once := HandleWebhook(db, body).db;
    var db1 := db.(intentions := db.intentions[k := i.(statutPaiement := Paye)]);
    assert once == CountOn(db1, CounterTarget(db, i));
    StatusKeepsTransactionIndex(db, k, Paye, e.transactionId);
    assert TransactionIndex(once, e.transactionId) == Some(k);
    assert once.intentions[k] == i.(statutPaiement := Paye);
    CountKeepsOccurrenceIndex(db1, CounterTarget(db, i), i.occurrence.value);
    assert CounterTarget(once, once.intentions[k]) == CounterTarget(db, i);
  }

  /**
   * The refinement: the same handler, except that an intention already PAYE
   * is not counted again.
   */
  function HandleWebhookGuarded(db: Db, body: Body): (r: Response)
    ensures r.Processed? <==> HandleWebhook(db, body).Processed?
    ensures !r.Processed? ==> r == HandleWebhook(db, body)
    ensures r.Processed? ==>
      var e := ProcessWebhookEvent(body.data);
      var k := TransactionIndex(db, e.transactionId).value;
      && r.statut == HandleWebhook(db, body).statut
      && r.db.intentions == HandleWebhook(db, body).db.intentions
      && (db.intentions[k].statutPaiement != Paye ==> r == HandleWebhook(db, body))
      && (db.intentions[k].statutPaiement == Paye ==> r.db.occurrences == db.occurrences)
  {
    if body.Falsy? then InvalidPayload
    else
      var e := ProcessWebhookEvent(body.data);
      if PhpEmpty(e.transactionId) then TransactionMissing
      else match TransactionIndex(db, e.transactionId)
        case None => IntentionNotFound
        case Some(k) =>
          var i := db.intentions[k];
          var db1 := db.(intentions := db.intentions[k := i.(statutPaiement := e.statutPaiement)]);
          var db2 := if e.statutPaiement == Paye && i.statutPaiement != Paye then CountOn(db1, CounterTarget(db, i)) else db1;
          Processed(db2, i.id, e.statutPaiement)
  }

  /** With the guard, a replayed event changes nothing: delivering it twice is delivering it once. */
  lemma GuardedReplayIsHarmless(db: Db, body: Body)
    requires HandleWebhookGuarded(db, body).Processed?
    ensures var once := HandleWebhookGuarded(db, body);
      HandleWebhookGuarded(once.db, body) == once
  {
    var e := ProcessWebhookEvent(body.data);
    var k := TransactionIndex(db, e.transactionId).value;
    var i := db.intentions[k];
    var once := HandleWebhookGuarded(db, body);
    var db1 := db.(intentions := db.intentions[k := i.(statutPaiement := e.statutPaiement)]);
    StatusKeepsTransactionIndex(db, k, e.statutPaiement, e.transactionId);
    if e.statutPaiement == Paye && i.statutPaiement != Paye {
      assert once.db == CountOn(db1, CounterTarget(db, i));
      assert TransactionIndex(once.db, e.transactionId) == TransactionIndex(db1, e.transactionId);
    } else {
      assert once.db == db1;
    }
    assert TransactionIndex(once.db, e.transactionId) == Some(k);
    assert once.db.intentions[k] == i.(statutPaiement := e.statutPaiement);
    assert once.db.intentions[k := once.db.intentions[k].(statutPaiement := e.statutPaiement)] == once.db.intentions;
  }
}

=== FILE: wrappers.dfy ===
/** PHP's nullable values, as an Option datatype. */
module Wrappers {

  /** `None` stands for PHP's `null`; two `None`s are equal, as `null === null` is. */
  datatype Option<+T> = None | Some(value: T) {

    /** PHP's `??`: the present value, else the fallback. */
    function GetOr(fallback: T): T {
      match this
      case Some(v) => v
      case None => fallback
    }
  }
}
